=== FILE: README.md ===
# news-scraper core, modelled in Dafny

This project models the part of news-scraper that turns a news site's
front page into stored articles.

- **URL and srcset helpers.**
  - `resolve_url` turns an href into a canonical article URL, or rejects it.
  - `first_srcset_url` takes the first URL of a `srcset`.
- **The shared parser loop**, `BaseParser.parse`. It runs over the candidate
  elements in page order. It skips the ones that raise, return nothing, or
  have a blank title or URL. It dedupes by URL, and the first occurrence
  wins. It numbers the kept articles 1, 2, 3, ….
- **The three site parsers**, for La Nacion, Infobae and La Política Online.
  Each has rules for headline, URL, summary and image.
- **The parser registry**, a map from lowercased source name to parser class.
- **The article repository**. Single and bulk upsert into a table keyed by
  URL: create a new URL, update a URL of the same source, skip a URL owned
  by another source.
- **Slug validation**: `validate_slug` and `is_valid_slug`.

Everything is a pure function over immutable values:
- The HTML of a card is abstracted to what the parser looks up in it: the
  first h1/h2/h3, the anchors, the img tags and their attribute maps. These
  are `Html.Element` values.
- The global parser map and the article table are values that are passed in
  and returned.

One module per file:

| file | module | models |
|---|---|---|
| wrappers.dfy | Wrappers | `Option`, `Result` |
| text.dfy | Text | `str.strip`, ASCII `str.lower`, `startswith`/`endswith`, `in` |
| html.dfy | Html | the parts of BeautifulSoup the parsers use: `get`, `get_text`, `find` |
| urls.dfy | Urls | `urlsplit`/`urlunsplit`/`urljoin` for the cases the parsers meet; `resolve_url` |
| images.dfy | Images | `first_srcset_url`, `_resolve_image_url`, attribute priority loops |
| base_parser.dfy | BaseParser | `ParsedArticle`, `ParsedArticleData`, `BaseParser.parse` |
| lanacion.dfy | LaNacion | `parsers/sites/lanacion.py` |
| infobae.dfy | Infobae | `parsers/sites/infobae.py` |
| lapoliticaonline.dfy | LaPoliticaOnline | `parsers/sites/lapoliticaonline.py` |
| registry.dfy | Registry | `parsers/registry.py`, `load_site_parsers` |
| repository.dfy | Repository | `ArticleRepository` |
| validation.dfy | Validation | `validation.py` |

Some behaviour of the code is easy to misread. The model follows the code:
- Only the La Política Online parser skips `data:` image URIs. The other two
  sites pass them through.
- Host checks lowercase both sides. A host also passes when it is a
  subdomain of an allowed host (it ends with "." plus an allowed host).
- The La Nacion summary takes the h2 whenever an h1 *exists*, even a blank
  one. A card with a blank h1 and an h2 therefore gets the same text as
  headline and summary (`LaNacion.SummaryRepeatsHeadline`).
- La Política Online checks for `data:` before the shared loop strips the
  image URL. A `src` of `" data:…"` (leading whitespace) passes the check.
  It then reaches the stored article as `"data:…"`
  (`LaPoliticaOnline.PaddedDataUriReachesArticle`).
- `load_site_parsers` names only the Infobae and La Nacion modules. If the
  `parsers/sites` package init imports no site module, La Política Online
  is not registered that way (`Registry.SiteParsersLoaded`). The model
  assumes that it imports none; see `Registry.LoadSiteParsers` under
  "Left out".

## Model

| member | source | states |
|---|---|---|
| Text.Trim | src/news_scraper/parsers/base.py:84-85 | `str.strip()`: the result has no whitespace at either end, is no longer than the input, holds only characters of the input, and is empty exactly when the input is all whitespace |
| Text.TrimPadding | src/news_scraper/parsers/base.py:84-85 | stripping ignores whitespace added on either side |
| Text.Lower | src/news_scraper/parsers/registry.py:25 | `str.lower()` on ASCII: same length, each letter A-Z mapped to a-z, everything else kept |
| Html.GetStrippedText | src/news_scraper/parsers/sites/infobae.py:44 | `get_text(strip=True)` never has whitespace at either end |
| Html.StrippedText | src/news_scraper/parsers/sites/infobae.py:43-46 | a found tag's `get_text(strip=True)` is used exactly when it is non-empty, and is then trimmed; a missing tag gives nothing |
| Images.ResolveHref | src/news_scraper/parsers/sites/infobae.py:58-60 | a tag's href goes through `resolve_url` with the site's base and hosts only when the tag exists and the href is truthy; otherwise nothing |
| Html.StrippedJoin | src/news_scraper/parsers/sites/infobae.py:44 | the stripped text is empty exactly when every text piece is blank |
| Html.FirstWithClass | src/news_scraper/parsers/sites/infobae.py:42 | `find(tag, class_=c)`: a found tag is one of the candidates and has class c; it is the first candidate in document order that has c; nothing is found exactly when no candidate has it |
| Html.FirstWithAttr | src/news_scraper/parsers/sites/lanacion.py:50 | `find("a", href=True)`: a found tag has the attribute; it is the first candidate in document order that has it; nothing is found exactly when no candidate has it |
| Urls.SplitUrl | src/news_scraper/parsers/utils/url.py:23 | `urlparse`: the network location has no '/', '?' or '#'; the path has no '?' or '#'; with a network location the path is empty or starts with '/' |
| Urls.SplitScheme | src/news_scraper/parsers/utils/url.py:23-25 | the scheme step of `urlsplit`: either nothing is split off and the default scheme is used, or the text before the ':' is split off, lowercased and a valid scheme name, and the rest is what follows the ':' |
| Urls.GetUrl | src/news_scraper/parsers/utils/url.py:36 | `geturl()` writes a non-empty scheme first, followed by ':' (Urls.GetUrlSchemeRoundTrip reads it back) |
| Urls.UrlJoin | src/news_scraper/parsers/utils/url.py:22 | an href with a scheme of its own that is not the base's, or that `urljoin` does not resolve against (such as "mailto:" or "javascript:"), comes back unchanged |
| Urls.IsAllowedHost | src/news_scraper/parsers/utils/url.py:39-43 | a host is allowed exactly when, with a '.' put in front of both, it ends with an allowed host: its labels end with the labels of one |
| Urls.SubdomainAllowed | src/news_scraper/parsers/utils/url.py:39-43 | a subdomain of an allowed host is allowed |
| Urls.LookalikeRejected | src/news_scraper/parsers/utils/url.py:42-43 | "notlanacion.com.ar" is not allowed by "lanacion.com.ar": a subdomain needs the '.' before the allowed host |
| Urls.ResolveUrl | src/news_scraper/parsers/utils/url.py:8-36 | a blank or fragment-only href is rejected; an accepted URL has neither '?' nor '#' and starts with "http://" or "https://" |
| Urls.OtherSchemesRejected | src/news_scraper/parsers/utils/url.py:25-26 | an href with any scheme other than http or https (in any case), such as `mailto:`, is rejected |
| Urls.ResolvedIsCanonical | src/news_scraper/parsers/utils/url.py:25-36 | an accepted URL splits into scheme http(s), a host that is allowed or a subdomain of an allowed one (case-insensitively), a path that is neither empty nor "/", no query and no fragment, and rebuilds as scheme://host/path |
| Urls.AbsoluteUrlResolution | src/news_scraper/parsers/utils/url.py:18-36 | an absolute http(s) URL with a non-root path and no query or fragment comes back unchanged exactly when its host is allowed, and is rejected otherwise |
| Urls.RootPathRejected | src/news_scraper/parsers/utils/url.py:33-34 | an absolute URL whose path is empty or "/" is rejected |
| Urls.RootRelativeResolution | src/news_scraper/parsers/utils/url.py:22-36 | a root-relative href is joined onto the base URL's scheme and host, and accepted exactly when that host is allowed |
| Urls.JoinProtocolRelative | src/news_scraper/parsers/utils/url.py:22 | `urljoin` of a "//host/path" href onto an http(s) base gives the base's scheme with the href's host and path |
| Urls.ProtocolRelativeResolution | src/news_scraper/parsers/utils/url.py:13-36 | a protocol-relative href "//host/path" resolves to base scheme + "://" + host + path exactly when the href's host (not the base's) is allowed, and is rejected otherwise |
| Urls.JoinPlainRelative | src/news_scraper/parsers/utils/url.py:22 | `urljoin` of a plain relative path onto an http(s) base appends it to the directory of the base path ("" gives "/") |
| Urls.PlainRelativeResolution | src/news_scraper/parsers/utils/url.py:13-36 | a plain relative href "a/b" resolves to base scheme://host + the base path's directory + href exactly when the base's host is allowed |
| Urls.QueryAndFragmentIgnored | src/news_scraper/parsers/utils/url.py:36 | appending a query or fragment to an href does not change what it resolves to |
| Urls.ResolveIdempotent | src/news_scraper/parsers/utils/url.py:8-36 | resolving an accepted URL again gives the same URL |
| Urls.JoinCanonical | src/news_scraper/parsers/utils/url.py:22 | `urljoin` with an absolute canonical http(s) URL returns that URL, whatever the base |
| Urls.JoinKeepsScheme | src/news_scraper/parsers/utils/url.py:22-25 | the joined URL carries the lowercased scheme of an href that has one |
| Urls.JoinTargetStable | src/news_scraper/parsers/utils/url.py:22-36 | a query or fragment on the href leaves the joined URL's scheme, host and path unchanged |
| Urls.GetUrlSchemeRoundTrip | src/news_scraper/parsers/utils/url.py:23-36 | `urlunsplit` followed by `urlsplit` gives back a lowercase scheme |
| Images.FirstSrcsetUrl | src/news_scraper/parsers/utils/images.py:6-13 | a blank srcset yields nothing; a found URL is non-empty and has no comma and no whitespace |
| Images.SrcsetUrlInValue | src/news_scraper/parsers/utils/images.py:6-13 | the first srcset URL is a piece of the attribute value |
| Images.SrcsetPadding | src/news_scraper/parsers/utils/images.py:8-13 | whitespace around the whole srcset does not change the result |
| Images.SrcsetFirstEntry | src/news_scraper/parsers/utils/images.py:10-13 | for a first entry that is a bare URL or a URL followed by whitespace (space, tab, …) and a descriptor, and is followed by the end or by a comma and more entries, the result is that URL |
| Images.SrcsetBlankFirstEntry | src/news_scraper/parsers/utils/images.py:10-12 | a blank first entry (", a.jpg") yields nothing, even if later entries are good |
| Images.ResolveImageUrl | src/news_scraper/parsers/sites/lanacion.py:109-115 | an image URL that does not start with "/" is returned unchanged |
| Images.ProtocolRelativeImage | src/news_scraper/parsers/sites/lanacion.py:111-112 | "//x" becomes "https://x" |
| Images.RootRelativeImage | src/news_scraper/parsers/sites/lanacion.py:113-114 | a root-relative "/path?query#fragment" becomes the site's base URL followed by it, query and fragment included; an empty query or fragment is written without its '?' or '#', since `urlunsplit` drops it |
| Images.ResolvedImageStart | src/news_scraper/parsers/sites/infobae.py:97-103 | against an http(s) base, a "//" URL gets the "https:" scheme, a "/" URL gets the base's scheme, and any other URL is kept |
| Images.FirstPick | src/news_scraper/parsers/sites/infobae.py:88-93 | an attribute loop returns the first attribute, in order, that gives a URL; it returns nothing exactly when none does; the URL is non-empty |
| BaseParser.StripOrNone | src/news_scraper/parsers/base.py:93-94 | `(v or "").strip() or None` is None exactly when the value is missing or blank, and otherwise the stripped value, trimmed and non-empty |
| BaseParser.Usable | src/news_scraper/parsers/base.py:78-87 | a candidate is used exactly when it is a tag, does not raise, returns data, and has a non-blank title and url; the headline and url are then the stripped title and url, and summary and image url are `(x or "").strip() or None` of the data's values |
| BaseParser.Parse | src/news_scraper/parsers/base.py:66-116 | there are no more articles than candidates; positions are 1..N in order; every article is well-formed; URLs are pairwise distinct |
| BaseParser.RunArticles | src/news_scraper/parsers/base.py:70-106 | the loop invariant: positions without gaps, well-formed articles, distinct URLs, and `seen` is exactly the set of article URLs, which is the set of URLs of all usable candidates so far |
| BaseParser.Step | src/news_scraper/parsers/base.py:74-114 | one iteration only appends: the old articles and log are prefixes of the new ones and the seen set only grows; at most one article or log entry is added, and the log grows exactly when the candidate raises |
| BaseParser.Run | src/news_scraper/parsers/base.py:70-116 | each candidate yields at most one article or one log entry |
| BaseParser.RunLog | src/news_scraper/parsers/base.py:107-113 | the error log has one entry per raising candidate, with the source name and the candidate's 1-based index among all candidates, in increasing order |
| BaseParser.ParseCharacterization | src/news_scraper/parsers/base.py:74-106 | every kept candidate (usable, with a URL no earlier usable candidate has) is in the output, in page order: the one with k kept candidates before it is article k, at position k + 1 |
| BaseParser.ParseOnlyKept | src/news_scraper/parsers/base.py:89-106 | every article of the output is a kept candidate's, at the place its count of earlier kept candidates gives it |
| BaseParser.ParseLength | src/news_scraper/parsers/base.py:96-106 | the output length is the number of kept candidates |
| BaseParser.ParseExtends | src/news_scraper/parsers/base.py:74-106 | one more candidate only ever appends to the output |
| BaseParser.AllDistinctKept | src/news_scraper/parsers/base.py:89-106 | when every candidate is usable and the URLs are distinct, each candidate becomes the article at its own position |
| BaseParser.SkippedCandidateInvisible | src/news_scraper/parsers/base.py:80-87 | inserting a candidate that is not used anywhere in the page leaves the output unchanged |
| BaseParser.EmptyPage | src/news_scraper/parsers/base.py:70-72 | no candidates gives no articles and an empty log |
| LaNacion.ExtractUrl | src/news_scraper/parsers/sites/lanacion.py:40-56 | the `a.ln-link` href is used if it resolves; otherwise the first anchor with an href is used; any URL found is http(s) |
| LaNacion.ExtractHeadline | src/news_scraper/parsers/sites/lanacion.py:58-72 | the stripped h1 text if not blank, otherwise the stripped h2 text if not blank, otherwise nothing |
| LaNacion.StrippedFullText | src/news_scraper/parsers/sites/lanacion.py:60-70 | the stripped `get_text()` of a found tag when it is not blank; nothing exactly when the tag is missing or its text is all whitespace |
| LaNacion.ExtractSummary | src/news_scraper/parsers/sites/lanacion.py:74-89 | the h2 text when an h1 and an h2 exist and that text is non-empty, otherwise the h3 text, otherwise nothing |
| LaNacion.ExtractImageUrl | src/news_scraper/parsers/sites/lanacion.py:91-107 | on the first img: `src`, then `data-src`; only when neither is set, the first srcset URL of `srcset`, then `data-srcset`; the URL found is resolved |
| LaNacion.ParseArticleElement | src/news_scraper/parsers/sites/lanacion.py:26-38 | data exactly when both a headline and a URL are found, holding the four extracted fields |
| LaNacion.CardAccepted | src/news_scraper/parsers/sites/lanacion.py:26-38 | every card the site parser accepts is used by the shared loop, with the same headline and summary |
| LaNacion.SummaryRepeatsHeadline | src/news_scraper/parsers/sites/lanacion.py:58-81 | a blank h1 with an h2 reading t gives t as both headline and summary |
| LaNacion.RelativeImageOnSite | src/news_scraper/parsers/sites/lanacion.py:109-115 | a root-relative `src` such as "/img.jpg?w=720" becomes "https://www.lanacion.com.ar" followed by it, query and fragment included |
| Infobae.ExtractHeadline | src/news_scraper/parsers/sites/infobae.py:40-54 | the text of `h2.story-card-hl` if non-empty, otherwise the text of the first h2, otherwise nothing |
| Infobae.HeadlineIgnoresH3 | src/news_scraper/parsers/sites/infobae.py:40-79 | h3 elements never affect the headline; without an h3 there is no summary |
| Infobae.ExtractUrl | src/news_scraper/parsers/sites/infobae.py:56-70 | the element's own href is used if it resolves; otherwise the first nested anchor with an href is used; any URL found is http(s) |
| Infobae.ExtractSummary | src/news_scraper/parsers/sites/infobae.py:72-79 | the summary is the `get_text(strip=True)` of the first `h3.story-card-deck` when that is non-empty, and nothing otherwise |
| Infobae.ImageTag | src/news_scraper/parsers/sites/infobae.py:83-85 | `img.story-card-img` if there is one, otherwise the first img |
| Infobae.ExtractImageUrl | src/news_scraper/parsers/sites/infobae.py:81-95 | `data-src` wins when set; any URL found is the resolved pick of one of `data-src`, `data-srcset`, `srcset`, `src` |
| Infobae.ImagePick | src/news_scraper/parsers/sites/infobae.py:91-92 | what an attribute yields is a piece of its value; a srcset-like attribute yields a non-empty URL without whitespace or commas, or nothing; any other attribute always yields something |
| Infobae.BlankSrcsetFallsThrough | src/news_scraper/parsers/sites/infobae.py:88-93 | a `data-srcset` whose first entry is blank is passed over for the next attribute |
| Infobae.ProtocolRelativeImageOnSite | src/news_scraper/parsers/sites/infobae.py:97-100 | a protocol-relative `data-src` becomes an https URL |
| Infobae.ParseArticleElement | src/news_scraper/parsers/sites/infobae.py:26-38 | data exactly when both a headline and a URL are found |
| Infobae.CardAccepted | src/news_scraper/parsers/sites/infobae.py:26-38 | every card the site parser accepts is used by the shared loop, with the same headline and summary |
| LaPoliticaOnline.ExtractHeadline | src/news_scraper/parsers/sites/lapoliticaonline.py:40-47 | the stripped text of the first anchor; nothing without an anchor or with an empty text |
| LaPoliticaOnline.ExtractUrl | src/news_scraper/parsers/sites/lapoliticaonline.py:49-58 | the first anchor's href, resolved; nothing when it is missing or empty; any URL found is http(s) |
| LaPoliticaOnline.Href | src/news_scraper/parsers/sites/lapoliticaonline.py:87-88 | the href attribute of the card's first anchor: present exactly when there is an anchor and it carries an href |
| LaPoliticaOnline.SrcPick | src/news_scraper/parsers/sites/lapoliticaonline.py:72-76 | a `src`/`data-src` value is passed over exactly when it starts with "data:" |
| LaPoliticaOnline.SrcsetPick | src/news_scraper/parsers/sites/lapoliticaonline.py:81-84 | a srcset candidate is passed over exactly when there is none or it starts with "data:" |
| LaPoliticaOnline.ImageFromTag | src/news_scraper/parsers/sites/lapoliticaonline.py:66-85 | no tag gives nothing; `src`/`data-src` are tried before `srcset`/`data-srcset`; a URL found is non-empty and never starts with "data:" |
| LaPoliticaOnline.FirstLinkWithHref | src/news_scraper/parsers/sites/lapoliticaonline.py:94 | `find("a", href=h)`: the first anchor whose href equals h, and nothing exactly when none does |
| LaPoliticaOnline.ImageFromContainer | src/news_scraper/parsers/sites/lapoliticaonline.py:92-103 | within a container, the image of the anchor with the card's href wins when it gives a URL; without an href, or when that anchor's image gives nothing, the container's first img is used; never a "data:" URL |
| LaPoliticaOnline.AnchorImage | src/news_scraper/parsers/sites/lapoliticaonline.py:93-96 | the img of an anchor in the container whose href is exactly the card's; nothing when no anchor there has that href |
| LaPoliticaOnline.ExtractImageUrl | src/news_scraper/parsers/sites/lapoliticaonline.py:87-120 | the `div.item` container first, then `div.noticia`, otherwise nothing; never a "data:" URL |
| LaPoliticaOnline.ParseArticleElement | src/news_scraper/parsers/sites/lapoliticaonline.py:26-38 | data exactly when both a headline and a URL are found; the summary is always None |
| LaPoliticaOnline.CardAccepted | src/news_scraper/parsers/sites/lapoliticaonline.py:26-38 | an accepted card is used by the shared loop, with no summary and the stripped image URL |
| LaPoliticaOnline.DataUriPlaceholderSkipped | src/news_scraper/parsers/sites/lapoliticaonline.py:70-76 | a "data:" placeholder in `src` is passed over for the lazy `data-src` |
| LaPoliticaOnline.MatchingAnchorPreferred | src/news_scraper/parsers/sites/lapoliticaonline.py:93-99 | the image inside the anchor with the card's own href is chosen |
| LaPoliticaOnline.PaddedDataUriReachesArticle | src/news_scraper/parsers/sites/lapoliticaonline.py:72-76 | a `src` of whitespace followed by a "data:" URI passes the check and reaches the parsed article as the bare URI |
| LaPoliticaOnline.ResolveNotDataUri | src/news_scraper/parsers/sites/lapoliticaonline.py:122-128 | resolving a non-empty image URL that does not start with "data:" never produces one that does |
| Registry.Message | src/news_scraper/parsers/registry.py:10-15 | an error message ends with the source name as the caller wrote it |
| Registry.Register | src/news_scraper/parsers/registry.py:21-32 | refused exactly when the lowercased name is taken, leaving the registry unchanged; otherwise exactly one key is added, mapped to the class; other keys are unchanged; the class's `source` is the name as written, and the `source` of every other class is unchanged |
| Registry.GetParser | src/news_scraper/parsers/registry.py:35-40 | found exactly when the lowercased name is a key; otherwise `ParserNotFoundError` carrying the exact name |
| Registry.RegisterThenGet | src/news_scraper/parsers/registry.py:25-40 | after a registration, any casing of the name finds the class |
| Registry.RegisterKeepsOthers | src/news_scraper/parsers/registry.py:29 | a registration does not change the lookup of any other name |
| Registry.RegisterTwice | src/news_scraper/parsers/registry.py:25-27 | a second registration of the same name in any casing fails and changes nothing |
| Registry.LookupIgnoresCase | src/news_scraper/parsers/registry.py:37 | a name and its lowercase form find the same class |
| Registry.LoadSiteParsers | src/news_scraper/parsers/__init__.py:7-9 | loading the site parsers registers exactly "infobae" and "lanacion", assuming the `parsers/sites` package init registers nothing |
| Registry.SiteParsersLoaded | src/news_scraper/parsers/__init__.py:7-9 | after loading, under the same assumption, "lapoliticaonline" in any casing is not found, while "LaNacion" and "INFOBAE" are |
| Repository.UpsertOne | src/news_scraper/db/repositories/article.py:30-66 | another source's URL is skipped, returning None and leaving the table unchanged; a new URL creates a row copying the parsed fields, with the source and seen time; the source's own URL keeps id, url and source and overwrites the other fields, None included; the row returned is the row stored |
| Repository.CreateArticle | src/news_scraper/db/repositories/article.py:80-107 | the new row reads back as the parsed article, with the given id, source and last-seen time |
| Repository.UpdateArticle | src/news_scraper/db/repositories/article.py:109-133 | the updated row reads back as the parsed article under the row's own URL; it equals a newly created row that kept the old id and source |
| Repository.UpsertFrame | src/news_scraper/db/repositories/article.py:49-66 | an upsert touches no URL but its own |
| Repository.UpsertValid | src/news_scraper/db/models/article.py:36 | an upsert keeps the table keyed by URL, with unique ids |
| Repository.UpsertKind | src/news_scraper/db/repositories/article.py:51-66 | after an upsert, the URL belongs to the source unless another source owned it |
| Repository.Dedupe | src/news_scraper/db/repositories/article.py:156-169 | the kept and dropped counts add up to the batch length; kept URLs are distinct and come from the batch |
| Repository.DedupeUrls | src/news_scraper/db/repositories/article.py:156-169 | the kept articles cover every URL of the batch |
| Repository.DedupeKeepsFirst | src/news_scraper/db/repositories/article.py:159-169 | the first occurrence of each URL is the one kept |
| Repository.Prefetch | src/news_scraper/db/repositories/article.py:175-178 | the prefetched rows are exactly the table's rows for the batch URLs |
| Repository.BulkUpsert | src/news_scraper/db/repositories/article.py:135-200 | the id counter advances by exactly the number of rows reported as created |
| Repository.ApplyIds | src/news_scraper/db/repositories/article.py:180-198 | the bulk loop hands out one id per row it creates |
| Repository.FoldIds | src/news_scraper/db/repositories/article.py:30-66 | `Repository.FoldUpsert`, single upserts applied in turn (the reference for bulk upsert), advances the id counter by exactly the number of rows it creates |
| Repository.FoldTotal | src/news_scraper/db/repositories/article.py:30-66 | in the fold of single upserts, each article is counted exactly once: created, updated or skipped |
| Repository.FoldValid | src/news_scraper/db/repositories/article.py:30-66 | the fold of single upserts keeps the table valid: one row per URL, distinct ids |
| Repository.BulkIsFold | src/news_scraper/db/repositories/article.py:152-200 | bulk upsert equals single upserts applied in turn to the deduped batch, with the dropped duplicates counted as skipped |
| Repository.BulkInvariants | src/news_scraper/db/repositories/article.py:152-200 | created + updated + skipped equals the batch length; the table stays keyed by URL with unique ids; URLs outside the batch are unchanged; rows owned by another source are unchanged even when the batch carries their URL |
| Repository.FoldOtherUnchanged | src/news_scraper/db/repositories/article.py:51-60 | single upserts applied in turn never change a row owned by another source |
| Repository.BulkFrame | src/news_scraper/db/repositories/article.py:180-198 | the bulk loop touches neither rows of URLs outside the batch nor rows owned by another source |
| Repository.ApplyTotal | src/news_scraper/db/repositories/article.py:180-198 | each article the bulk loop visits increments exactly one of the three counters |
| Repository.EmptyBatch | src/news_scraper/db/repositories/article.py:171-172 | an empty batch returns (0, 0, 0) and changes nothing |
| Repository.FoldTally | src/news_scraper/db/repositories/article.py:180-198 | with distinct URLs, each article's counter is set by what the table held before the batch |
| Repository.FoldSplit | src/news_scraper/db/repositories/article.py:180-198 | the single-upsert fold over a batch ends in the table reached by folding over its first k articles and then over the rest |
| Repository.FoldKinds | src/news_scraper/db/repositories/article.py:180-198 | after the batch, each of its URLs belongs to the source unless another source owned it before |
| Repository.BulkIdempotent | src/news_scraper/db/repositories/article.py:180-198 | running the same batch again gives created 0, updated = created + updated of the first run, and the same skipped |
| Validation.IsSlug | src/news_scraper/validation.py:5-7 | a string the pattern matches in full is already lower-case and holds no whitespace, a final newline included |
| Validation.MatchSlug | src/news_scraper/validation.py:7 | a scan of `SLUG_PATTERN.match`, true exactly when the string is a slug or a slug followed by one final newline |
| Validation.ValidateSlug | src/news_scraper/validation.py:20-49 | on success the result is the lowercased value, a slug of 1 to 100 characters; an error names the field |
| Validation.ValidateSlugErrors | src/news_scraper/validation.py:33-47 | which message is raised, in check order: "cannot be empty" exactly for "", "cannot exceed 100 characters" exactly for longer values, the pattern message exactly for the rest that are not slugs once lowercased |
| Validation.ValidateSlugAccepts | src/news_scraper/validation.py:33-49 | accepted exactly when 1 to 100 characters long and a slug once lowercased; the field name does not matter; `is_valid_slug` agrees |
| Validation.IsValidSlugAsWritten | src/news_scraper/validation.py:52-65 | `is_valid_slug` as written: true exactly when the lowercased value has 1 to 100 characters and the pattern, with its trailing-newline match, accepts it |
| Validation.IsValidSlug | src/news_scraper/validation.py:52-65 | the Findings row's corrected `is_valid_slug`: true exactly when the lowercased value is a slug of 1 to 100 characters |
| Validation.ValidateSlugIdempotent | src/news_scraper/validation.py:37-49 | a validated slug validates to itself |
| Validation.ValidateSlugIgnoresCase | src/news_scraper/validation.py:37 | a value and its lowercase form get the same result |
| Validation.LengthBoundary | src/news_scraper/validation.py:8-40 | 100 characters pass; 101 are rejected with the length message |
| Validation.ErrorText | src/news_scraper/validation.py:14-17 | the exception text starts with the field, ends with the message, and holds ": " between them |
| Validation.ValidateSlugAsWritten | src/news_scraper/validation.py:20-49 | the validator as written, where `$` also matches before a final newline; on success the result is the lowercased value |
| Validation.AsWrittenDiffers | src/news_scraper/validation.py:42 | the validator as written and the corrected one disagree exactly on values of at most 100 characters that end in a newline, with a slug before it once lowercased |
| Validation.TrailingNewlineAccepted | src/news_scraper/validation.py:42-49 | as written, a slug followed by "\n" is accepted and returned with the newline; the corrected check rejects it with the pattern message |

## Left out

- Fetching pages (`browser.py`) and building the soup. A page is given as its sequence of candidate elements, in the order `iter_article_elements` finds them.
- BeautifulSoup tree search (`find`, `find_parent`, `find_all`). A card is a record of the tags the parser would find. `isinstance(…, Tag)` is always true for these, and the loop's check is kept as the `NotTag` candidate.
- Which exception a site parser raises, and where. A candidate either returns or raises (`Raises`). The log keeps the source and the index and drops the `url` field.
- `ParsedArticleData.published_at` and `authors`: the loop never reads them.
- `dedupe_key`: it is the identity.
- Database sessions, SQL, flushing, transactions and `IntegrityError`. The table is a map from URL to row, and ids are handed out from a counter when a row is created. The `created_at`/`updated_at` columns are not shown in the code, so they are not modelled.
- `seen_at or datetime.now()`: the clock is not modelled, and `seen_at` is always a parameter.
- Logging calls, beyond the parse loop's error log.
- Repository.UpsertOne: the parsed article's `source` is passed as its id only.
- Urls.SplitUrl: `urlsplit` is modelled for scheme, network location, path, query and fragment. These are left out: `;params`, the removal of tabs and newlines, stripping leading control characters, and IPv6 bracket errors. Also left out is the `ValueError` that `urlsplit` raises for a non-ASCII network location whose NFKC form holds '/', '?', '#', '@' or ':', such as "//x℀.lanacion.com.ar/a". The model splits such an href and may accept it as a subdomain, where the parse loop would log the candidate and skip it.
- Urls.PlainRelativeResolution: stated for relative paths with no ':', '?' or '#'. A ':' before the first '/' can make `urlsplit` read a scheme, and Urls.QueryAndFragmentIgnored covers a query or fragment. Dot segments (".", "..") and empty segments in the href or the base path are kept as written, as under Urls.UrlJoin, where `urljoin` would normalise them ("a/../b" resolves like "b").
- Urls.RootRelativeResolution: dot segments in the path are kept as written, as under Urls.UrlJoin, where `urljoin` would normalise them ("/a/../b" becomes "/b").
- Images.RootRelativeImage: dot segments in the path are kept as written, as under Urls.UrlJoin.
- Urls.UrlJoin: dot segments ("." and "..") are not removed, and empty segments are not collapsed. The model covers the cases the parsers meet: absolute, protocol-relative "//", root-relative "/", and a plain relative path joined onto the base directory.
- Text.Lower: only ASCII letters are lowercased. Python also lowercases other letters, and some of them change length (e.g. "İ"). Registry keys and slugs are therefore modelled for ASCII case only.
- The `Registry` returns the registered kind of parser class, not an instance of it. The decorator's returned class and the mutation of the global `_PARSERS` dict are modelled by the returned registry value.
- The legacy parsers `parsers/lanacion.py` and `parsers/infobae.py`, the CLI (`cli.py`), `scraper.py`, configuration and the Alembic seed migrations: these are not part of this model.
- Registry.LoadSiteParsers: assumes that the `parsers/sites` package init, which the import in `load_site_parsers` runs first, registers no parser. That file is not part of this model. If it imported `lapoliticaonline`, that parser would be registered as well. If it does not, `get_parser("lapoliticaonline")` raises `ParserNotFoundError` for that seeded source.
- Infobae.ExtractImageUrl: the full attribute order is stated by `Images.FirstPick` over `Infobae.ImageAttrs`. The function's own contract states only that `data-src` wins and that any URL comes from one of the four attributes.

## Findings

| source | as written | input that shows it | evidently intended | confidence | as-written member | corrected member |
|---|---|---|---|---|---|---|
| src/news_scraper/validation.py:7 | `re.match` with `^[a-z0-9][a-z0-9_-]*$`: Python's `$` also matches just before a final newline | `validate_slug("infobae\n")` returns `"infobae\n"` instead of raising (`Validation.InfobaeWithNewline`, `Validation.TrailingNewlineAccepted`) | reject every character outside `[a-z0-9_-]`, a final newline included (e.g. anchor with `\Z` or use `fullmatch`) | medium, not executed | Validation.ValidateSlugAsWritten | Validation.ValidateSlug |
| src/news_scraper/validation.py:52-65 | `is_valid_slug` calls the same `validate_slug`, so it shares the trailing-newline match | `is_valid_slug("infobae\n")` is True (`Validation.InfobaeWithNewline`) | False, as for any value with a character outside `[a-z0-9_-]` | medium, not executed | Validation.IsValidSlugAsWritten | Validation.IsValidSlug |

=== FILE: base_parser.dfy ===
/** The shared parsing workflow of every site parser (`BaseParser.parse` in
    `parsers/base.py`): a left fold over the candidate elements in discovery
    order that skips unusable candidates, keeps the first article of each
    URL and numbers the kept articles 1, 2, 3, ... */
module BaseParser {
  import opened Wrappers
  import opened Text

  /** `ParsedArticle`: one article of a front page, with its 1-based
      position on the page. */
  datatype ParsedArticle = ParsedArticle(
    headline: string,
    url: string,
    position: nat,
    summary: Option<string>,
    imageUrl: Option<string>)

  /** `ParsedArticleData`: what `parse_article_element` returns; every key
      may be missing (None). */
  datatype ParsedArticleData = ParsedArticleData(
    title: Option<string>,
    url: Option<string>,
    summary: Option<string>,
    imageUrl: Option<string>)

  /** One item of `iter_article_elements` as `parse` meets it: something
      that is not a tag, a tag on which `parse_article_element` raises, or
      a tag together with what it returned. */
  datatype Candidate = NotTag | Raises | Returns(data: Option<ParsedArticleData>)

  /** The source name and the 1-based candidate index that `parse` logs
      when `parse_article_element` raises. */
  datatype LogEntry = LogEntry(source: string, position: nat)

  /** The loop state of `parse`: `articles`, `seen`, `position`, plus the
      error log. */
  datatype ParseState = ParseState(
    articles: seq<ParsedArticle>,
    seen: set<string>,
    position: nat,
    log: seq<LogEntry>)

  /** The cleaned fields of a usable candidate, before it gets a position. */
  datatype Fields = Fields(headline: string, url: string, summary: Option<string>, imageUrl: Option<string>)

  /** A non-empty string with no surrounding whitespace. */
  predicate Present(s: string) {
    s != "" && IsTrimmed(s)
  }

  predicate PresentOrNone(o: Option<string>) {
    o.None? || Present(o.value)
  }

  /** An output article as `parse` promises it: headline and url trimmed
      and non-empty, summary and image url trimmed and non-empty or None. */
  predicate WellFormed(a: ParsedArticle) {
    Present(a.headline) && Present(a.url) && PresentOrNone(a.summary) && PresentOrNone(a.imageUrl)
  }

  /** `(value or "").strip() or None` */
  function StripOrNone(o: Option<string>): (r: Option<string>)
    ensures PresentOrNone(r)
    ensures r.None? <==> AllSpace(o.GetOr(""))
    ensures r.Some? ==> r.value == Trim(o.value)
  {
    var s := Trim(o.GetOr(""));
    if s == "" then None else Some(s)
  }

  /** What a candidate contributes before deduplication: nothing when it
      is not a tag, raises, returns None, or has a blank title or url. */
  function Usable(c: Candidate): (r: Option<Fields>)
    ensures r.Some? ==> Present(r.value.headline) && Present(r.value.url)
    ensures r.Some? ==> PresentOrNone(r.value.summary) && PresentOrNone(r.value.imageUrl)
    ensures r.Some? <==>
              && c.Returns? && c.data.Some?
              && !AllSpace(c.data.value.title.GetOr(""))
              && !AllSpace(c.data.value.url.GetOr(""))
    ensures r.Some? ==>
              && r.value.headline == Trim(c.data.value.title.GetOr(""))
              && r.value.url == Trim(c.data.value.url.GetOr(""))
              && r.value.summary == StripOrNone(c.data.value.summary)
              && r.value.imageUrl == StripOrNone(c.data.value.imageUrl)
  {
    match c
    case Returns(Some(d)) =>
      var title := Trim(d.title.GetOr(""));
      var url := Trim(d.url.GetOr(""));
      if title == "" || url == "" then None
      else Some(Fields(title, url, StripOrNone(d.summary), StripOrNone(d.imageUrl)))
    case _ => None
  }

  /** Cleaning leaves an already clean optional string alone. */
  lemma StripPresent(o: Option<string>)
    requires PresentOrNone(o)
    ensures StripOrNone(o) == o
  {
    if o.Some? {
      TrimTrimmed(o.value);
    }
  }

  /** Data with a clean title and a non-blank url is usable; its title and
      summary pass through unchanged. */
  lemma UsableData(d: ParsedArticleData)
    requires d.title.Some? && Present(d.title.value)
    requires d.url.Some? && !AllSpace(d.url.value)
    requires PresentOrNone(d.summary)
    ensures Usable(Returns(Some(d))) ==
              Some(Fields(d.title.value, Trim(d.url.value), d.summary, StripOrNone(d.imageUrl)))
  {
    TrimTrimmed(d.title.value);
    StripPresent(d.summary);
  }

  function Place(f: Fields, position: nat): ParsedArticle {
    ParsedArticle(f.headline, f.url, position, f.summary, f.imageUrl)
  }

  /** One iteration of the loop of `parse`, for the candidate with 1-based
      index `index`. */
  function Step(st: ParseState, c: Candidate, index: nat, source: string): (r: ParseState)
    ensures st.articles <= r.articles && st.log <= r.log && st.seen <= r.seen
    ensures |r.articles| + |r.log| <= |st.articles| + |st.log| + 1
    ensures r.log != st.log <==> c.Raises?
  {
    if c.Raises? then st.(log := st.log + [LogEntry(source, index)])
    else
      match Usable(c)
      case None => st
      case Some(f) =>
        if f.url in st.seen then st
        else
          ParseState(st.articles + [Place(f, st.position + 1)], st.seen + {f.url}, st.position + 1, st.log)
  }

  /** The URLs of all usable candidates. */
  function UsableUrls(cands: seq<Candidate>): set<string> {
    set i | 0 <= i < |cands| && Usable(cands[i]).Some? :: Usable(cands[i]).value.url
  }

  function UrlsOf(articles: seq<ParsedArticle>): set<string> {
    set k | 0 <= k < |articles| :: articles[k].url
  }

  /** No two articles share a URL. */
  predicate DistinctUrls(articles: seq<ParsedArticle>) {
    forall j, k :: 0 <= j < k < |articles| ==> articles[j].url != articles[k].url
  }

  /** The 1-based indices of the candidates that raise. */
  function RaisedAt(cands: seq<Candidate>): set<nat> {
    set i | 0 <= i < |cands| && cands[i].Raises? :: i + 1
  }

  function LoggedAt(log: seq<LogEntry>): set<nat> {
    set j | 0 <= j < |log| :: log[j].position
  }

  /** The loop of `parse` run over `cands`. */
  function Run(source: string, cands: seq<Candidate>): (st: ParseState)
    ensures |st.articles| + |st.log| <= |cands|
    decreases |cands|
  {
    if cands == [] then ParseState([], {}, 0, [])
    else Step(Run(source, cands[..|cands| - 1]), cands[|cands| - 1], |cands|, source)
  }

  /** The part of the loop state that the output depends on. */
  predicate SameCore(s: ParseState, t: ParseState) {
    s.articles == t.articles && s.seen == t.seen && s.position == t.position
  }

  /** The loop invariant of `parse` for the article list: positions count
      from 1 without gaps, articles are well-formed, URLs are distinct, and
      `seen` holds exactly the URLs of the articles, which are the URLs of
      all usable candidates so far. */
  predicate ArticlesInvariant(st: ParseState, cands: seq<Candidate>) {
    && |st.articles| <= |cands| && st.position == |st.articles|
    && (forall k :: 0 <= k < |st.articles| ==> st.articles[k].position == k + 1)
    && (forall k :: 0 <= k < |st.articles| ==> WellFormed(st.articles[k]))
    && DistinctUrls(st.articles)
    && st.seen == UrlsOf(st.articles) == UsableUrls(cands)
  }

  lemma UsableUrlsSnoc(cands: seq<Candidate>, c: Candidate)
    ensures UsableUrls(cands + [c]) ==
            UsableUrls(cands) + (if Usable(c).Some? then {Usable(c).value.url} else {})
  {
    var x := cands + [c];
    assert forall i :: 0 <= i < |cands| ==> x[i] == cands[i];
    assert x[|cands|] == c;
  }

  lemma RaisedAtSnoc(cands: seq<Candidate>, c: Candidate)
    ensures RaisedAt(cands + [c]) == RaisedAt(cands) + (if c.Raises? then {|cands| + 1} else {})
  {
    var x := cands + [c];
    assert forall i :: 0 <= i < |cands| ==> x[i] == cands[i];
    assert x[|cands|] == c;
  }

  /** What one step does to the article list and the seen set: a usable
      candidate with an unseen URL is appended at the next position. */
  lemma StepEffect(st: ParseState, c: Candidate, index: nat, source: string)
    ensures var st' := Step(st, c, index, source);
            if Usable(c).Some? && Usable(c).value.url !in st.seen then
              st'.articles == st.articles + [Place(Usable(c).value, st.position + 1)] &&
              st'.seen == st.seen + {Usable(c).value.url} && st'.position == st.position + 1
            else SameCore(st', st)
  {
  }

  /** Appending a well-formed article with a new URL at the next position
      keeps the article list's part of the invariant. */
  lemma AppendArticle(a: seq<ParsedArticle>, f: Fields)
    requires forall k :: 0 <= k < |a| ==> a[k].position == k + 1
    requires forall k :: 0 <= k < |a| ==> WellFormed(a[k])
    requires DistinctUrls(a)
    requires f.url !in UrlsOf(a)
    requires Present(f.headline) && Present(f.url) && PresentOrNone(f.summary) && PresentOrNone(f.imageUrl)
    ensures var a' := a + [Place(f, |a| + 1)];
            && (forall k :: 0 <= k < |a'| ==> a'[k].position == k + 1)
            && (forall k :: 0 <= k < |a'| ==> WellFormed(a'[k]))
            && DistinctUrls(a')
            && UrlsOf(a') == UrlsOf(a) + {f.url}
  {
    var a' := a + [Place(f, |a| + 1)];
    assert forall k :: 0 <= k < |a| ==> a'[k] == a[k];
    assert a'[|a|] == Place(f, |a| + 1);
    assert forall k :: 0 <= k < |a| ==> a[k].url != f.url;
    assert UrlsOf(a') == UrlsOf(a) + {f.url} by {
      assert forall k :: 0 <= k < |a| ==> a'[k].url in UrlsOf(a);
    }
  }

  lemma StepArticles(st: ParseState, cands: seq<Candidate>, c: Candidate, source: string)
    requires ArticlesInvariant(st, cands)
    ensures ArticlesInvariant(Step(st, c, |cands| + 1, source), cands + [c])
  {
    if Usable(c).Some? && Usable(c).value.url !in st.seen {
      StepAppends(st, cands, c, source);
    } else {
      StepKeeps(st, cands, c, source);
    }
  }

  /** A usable candidate with an unseen URL is appended. */
  lemma StepAppends(st: ParseState, cands: seq<Candidate>, c: Candidate, source: string)
    requires ArticlesInvariant(st, cands)
    requires Usable(c).Some? && Usable(c).value.url !in st.seen
    ensures ArticlesInvariant(Step(st, c, |cands| + 1, source), cands + [c])
  {
    var f := Usable(c).value;
    UsableUrlsSnoc(cands, c);
    StepEffect(st, c, |cands| + 1, source);
    InvariantAfterAppend(st, Step(st, c, |cands| + 1, source), cands, cands + [c], f);
  }

  /** The invariant survives appending a well-formed article whose URL is
      new, at the next position, when the candidates gain that URL. */
  lemma InvariantAfterAppend(st: ParseState, st': ParseState, cands: seq<Candidate>, cands': seq<Candidate>, f: Fields)
    requires ArticlesInvariant(st, cands) && |cands'| == |cands| + 1
    requires Present(f.headline) && Present(f.url) && PresentOrNone(f.summary) && PresentOrNone(f.imageUrl)
    requires f.url !in st.seen && UsableUrls(cands') == UsableUrls(cands) + {f.url}
    requires st'.articles == st.articles + [Place(f, st.position + 1)]
    requires st'.seen == st.seen + {f.url} && st'.position == st.position + 1
    ensures ArticlesInvariant(st', cands')
  {
    AppendArticle(st.articles, f);
  }

  /** Any other candidate leaves the articles as they are. */
  lemma StepKeeps(st: ParseState, cands: seq<Candidate>, c: Candidate, source: string)
    requires ArticlesInvariant(st, cands)
    requires !(Usable(c).Some? && Usable(c).value.url !in st.seen)
    ensures ArticlesInvariant(Step(st, c, |cands| + 1, source), cands + [c])
  {
    UsableUrlsSnoc(cands, c);
    StepEffect(st, c, |cands| + 1, source);
  }

  lemma {:induction false} RunArticles(source: string, cands: seq<Candidate>)
    ensures ArticlesInvariant(Run(source, cands), cands)
    decreases |cands|
  {
    if cands != [] {
      var prefix := cands[..|cands| - 1];
      RunArticles(source, prefix);
      assert cands == prefix + [cands[|cands| - 1]];
      StepArticles(Run(source, prefix), prefix, cands[|cands| - 1], source);
    }
  }

  /** The error log of `parse` for `cands`: one entry per candidate that
      raises, in order, carrying the source name and the candidate's 1-based
      index among all candidates (skipped ones included). */
  predicate LogOf(log: seq<LogEntry>, source: string, cands: seq<Candidate>) {
    && LoggedAt(log) == RaisedAt(cands)
    && (forall j :: 0 <= j < |log| ==> log[j].source == source)
    && (forall j :: 0 <= j < |log| ==> 1 <= log[j].position <= |cands|)
    && (forall i, j :: 0 <= i < j < |log| ==> log[i].position < log[j].position)
  }

  /** The error log of `parse` is the log described by `LogOf`. */
  lemma {:induction false} RunLog(source: string, cands: seq<Candidate>)
    ensures LogOf(Run(source, cands).log, source, cands)
    decreases |cands|
  {
    if cands != [] {
      var n := |cands|;
      var prefix := cands[..n - 1];
      var c := cands[n - 1];
      RunLog(source, prefix);
      assert cands == prefix + [c];
      RunSnoc(source, prefix, c);
      StepLog(Run(source, prefix), c, n, source);
      LogSnoc(Run(source, prefix).log, source, prefix, c);
    }
  }

  /** One more candidate extends the log exactly when it raises. */
  lemma LogSnoc(log: seq<LogEntry>, source: string, cands: seq<Candidate>, c: Candidate)
    requires LogOf(log, source, cands)
    ensures LogOf(if c.Raises? then log + [LogEntry(source, |cands| + 1)] else log, source, cands + [c])
  {
    RaisedAtSnoc(cands, c);
    if c.Raises? {
      LoggedAtSnoc(log, LogEntry(source, |cands| + 1));
    }
  }

  /** One step logs the candidate's index exactly when it raises. */
  lemma StepLog(st: ParseState, c: Candidate, index: nat, source: string)
    ensures Step(st, c, index, source).log ==
              if c.Raises? then st.log + [LogEntry(source, index)] else st.log
  {
  }

  lemma LoggedAtSnoc(log: seq<LogEntry>, e: LogEntry)
    ensures LoggedAt(log + [e]) == LoggedAt(log) + {e.position}
  {
    var log' := log + [e];
    assert forall j :: 0 <= j < |log| ==> log'[j] == log[j];
    assert log'[|log|] == e;
  }

  /** `BaseParser.parse`: the articles of a front page, from its candidate
      elements in discovery order. */
  function Parse(source: string, cands: seq<Candidate>): (out: seq<ParsedArticle>)
    ensures |out| <= |cands|
    ensures forall k :: 0 <= k < |out| ==> out[k].position == k + 1
    ensures forall k :: 0 <= k < |out| ==> WellFormed(out[k])
    ensures forall j, k :: 0 <= j < k < |out| ==> out[j].url != out[k].url
  {
    RunShape(source, cands);
    Run(source, cands).articles
  }

  /** The part of `ArticlesInvariant` that `Parse` promises. */
  lemma RunShape(source: string, cands: seq<Candidate>)
    ensures var out := Run(source, cands).articles;
            && |out| <= |cands|
            && (forall k :: 0 <= k < |out| ==> out[k].position == k + 1)
            && (forall k :: 0 <= k < |out| ==> WellFormed(out[k]))
            && DistinctUrls(out)
  {
    RunArticles(source, cands);
  }

  // ---------------------------------------------------------------------
  // Which candidates make it into the output

  /** Candidate `i` is kept: it is usable and no earlier candidate is
      usable with the same URL. */
  predicate Kept(cands: seq<Candidate>, i: nat)
    requires i < |cands|
  {
    && Usable(cands[i]).Some?
    && forall j :: 0 <= j < i ==> Usable(cands[j]).None? || Usable(cands[j]).value.url != Usable(cands[i]).value.url
  }

  /** How many of the first `n` candidates are kept. */
  function KeptBefore(cands: seq<Candidate>, n: nat): nat
    requires n <= |cands|
  {
    if n == 0 then 0 else KeptBefore(cands, n - 1) + (if Kept(cands, n - 1) then 1 else 0)
  }

  lemma {:induction false} KeptBeforePrefix(cands: seq<Candidate>, m: nat, n: nat)
    requires m <= n <= |cands|
    ensures KeptBefore(cands[..n], m) == KeptBefore(cands, m)
  {
    if m > 0 {
      KeptBeforePrefix(cands, m - 1, n);
      assert cands[..n][m - 1] == cands[m - 1];
      assert Kept(cands[..n], m - 1) == Kept(cands, m - 1) by {
        assert forall j :: 0 <= j < m - 1 ==> cands[..n][j] == cands[j];
      }
    }
  }

  /** Kept candidates keep their relative order in the output: a kept
      candidate's output index is below that of any later kept candidate. */
  lemma KeptBeforeMonotone(cands: seq<Candidate>, i: nat, j: nat)
    requires i < j <= |cands| && Kept(cands, i)
    ensures KeptBefore(cands, i) < KeptBefore(cands, j)
  {
    assert KeptBefore(cands, i) < KeptBefore(cands, i + 1) by { KeptBeforeAtKept(cands, i); }
    assert KeptBefore(cands, i + 1) <= KeptBefore(cands, j) by { KeptBeforeGrows(cands, i + 1, j); }
  }

  /** A kept candidate adds one to KeptBefore. */
  lemma KeptBeforeAtKept(cands: seq<Candidate>, i: nat)
    requires i < |cands| && Kept(cands, i)
    ensures KeptBefore(cands, i + 1) == KeptBefore(cands, i) + 1
  {
  }

  /** KeptBefore never decreases. */
  lemma {:induction false} KeptBeforeGrows(cands: seq<Candidate>, m: nat, n: nat)
    requires m <= n <= |cands|
    ensures KeptBefore(cands, m) <= KeptBefore(cands, n)
    decreases n - m
  {
    if m < n {
      KeptBeforeGrows(cands, m, n - 1);
      assert KeptBefore(cands, n - 1) <= KeptBefore(cands, n);
    }
  }

  /** KeptBefore grows by one at a kept candidate and by nothing otherwise. */
  lemma KeptBeforeStep(cands: seq<Candidate>, n: nat)
    requires 0 < n <= |cands|
    ensures Kept(cands, n - 1) ==> KeptBefore(cands, n) == KeptBefore(cands, n - 1) + 1
    ensures !Kept(cands, n - 1) ==> KeptBefore(cands, n) == KeptBefore(cands, n - 1)
  {
  }

  /** The last candidate is kept exactly when it is usable and its URL is
      not among those of the usable candidates before it. */
  lemma KeptLast(prefix: seq<Candidate>, c: Candidate)
    ensures Kept(prefix + [c], |prefix|) <==>
              Usable(c).Some? && Usable(c).value.url !in UsableUrls(prefix)
  {
    var cands := prefix + [c];
    assert cands[|prefix|] == c;
    assert forall j :: 0 <= j < |prefix| ==> cands[j] == prefix[j];
  }

  /** Kept and KeptBefore of the earlier candidates do not look past them. */
  lemma KeptPrefix(prefix: seq<Candidate>, c: Candidate)
    ensures forall i :: 0 <= i < |prefix| ==> Kept(prefix + [c], i) == Kept(prefix, i)
    ensures forall i :: 0 <= i <= |prefix| ==> KeptBefore(prefix + [c], i) == KeptBefore(prefix, i)
  {
    var cands := prefix + [c];
    assert cands[..|prefix|] == prefix;
    forall i | 0 <= i <= |prefix|
      ensures i < |prefix| ==> Kept(cands, i) == Kept(prefix, i)
      ensures KeptBefore(cands, i) == KeptBefore(prefix, i)
    {
      assert forall j :: 0 <= j < |prefix| ==> cands[j] == prefix[j];
      KeptBeforePrefix(cands, i, |prefix|);
    }
  }

  /** `KeptPrefix` at one index. */
  lemma KeptPrefixAt(prefix: seq<Candidate>, c: Candidate, i: nat)
    requires i < |prefix|
    ensures (prefix + [c])[i] == prefix[i]
    ensures Kept(prefix + [c], i) == Kept(prefix, i)
    ensures KeptBefore(prefix + [c], i) == KeptBefore(prefix, i)
  {
    KeptPrefix(prefix, c);
  }

  /** `KeptPrefix` at the end of the prefix. */
  lemma KeptPrefixEnd(prefix: seq<Candidate>, c: Candidate)
    ensures KeptBefore(prefix + [c], |prefix|) == KeptBefore(prefix, |prefix|)
  {
    KeptPrefix(prefix, c);
  }

  /** The loop over one more candidate is one more step. */
  lemma RunSnoc(source: string, prefix: seq<Candidate>, c: Candidate)
    ensures Run(source, prefix + [c]) == Step(Run(source, prefix), c, |prefix| + 1, source)
  {
    var cands := prefix + [c];
    assert cands[..|cands| - 1] == prefix && cands[|cands| - 1] == c;
  }

  /** The seen set and the position counter of the loop. */
  lemma RunSeen(source: string, cands: seq<Candidate>)
    ensures Run(source, cands).seen == UsableUrls(cands)
    ensures Run(source, cands).position == |Run(source, cands).articles|
  {
    RunArticles(source, cands);
  }

  /** One more candidate appends its article exactly when it is kept. */
  lemma StepKept(source: string, prefix: seq<Candidate>, c: Candidate)
    ensures var prev := Run(source, prefix).articles;
            Run(source, prefix + [c]).articles ==
              if Kept(prefix + [c], |prefix|) then prev + [Place(Usable(c).value, |prev| + 1)] else prev
  {
    RunSnoc(source, prefix, c);
    RunSeen(source, prefix);
    StepEffect(Run(source, prefix), c, |prefix| + 1, source);
    KeptLast(prefix, c);
  }

  lemma {:induction false} ParseLength(source: string, cands: seq<Candidate>)
    ensures |Parse(source, cands)| == KeptBefore(cands, |cands|)
    decreases |cands|
  {
    if cands != [] {
      var n := |cands|;
      var prefix := cands[..n - 1];
      var c := cands[n - 1];
      assert cands == prefix + [c];
      ParseLength(source, prefix);
      StepKept(source, prefix, c);
      KeptPrefix(prefix, c);
    }
  }

  /** Adding a candidate never changes the articles already produced. */
  lemma ParseExtends(source: string, prefix: seq<Candidate>, c: Candidate)
    ensures var prev := Parse(source, prefix);
            var out := Parse(source, prefix + [c]);
            |prev| <= |out| && out[..|prev|] == prev
  {
    var cands := prefix + [c];
    assert cands[..|cands| - 1] == prefix;
  }

  lemma {:induction false} ParseKeptPlaced(source: string, cands: seq<Candidate>, i: nat)
    requires i < |cands| && Kept(cands, i)
    ensures var out := Parse(source, cands);
            KeptBefore(cands, i) < |out| &&
            out[KeptBefore(cands, i)] == Place(Usable(cands[i]).value, KeptBefore(cands, i) + 1)
    decreases |cands|
  {
    var n := |cands|;
    var prefix := cands[..n - 1];
    var c := cands[n - 1];
    assert cands == prefix + [c];
    if i < n - 1 {
      KeptPrefixAt(prefix, c, i);
      ParseKeptPlaced(source, prefix, i);
      PlacedEarlier(source, prefix, c, i);
    } else {
      PlacedLast(source, prefix, c);
    }
  }

  /** A kept candidate of the prefix keeps its article and its index when
      one more candidate comes. */
  lemma PlacedEarlier(source: string, prefix: seq<Candidate>, c: Candidate, i: nat)
    requires i < |prefix| && Kept(prefix, i)
    requires var k := KeptBefore(prefix, i);
             k < |Parse(source, prefix)| && Parse(source, prefix)[k] == Place(Usable(prefix[i]).value, k + 1)
    ensures var cands := prefix + [c];
            var k := KeptBefore(cands, i);
            k < |Parse(source, cands)| && Parse(source, cands)[k] == Place(Usable(cands[i]).value, k + 1)
  {
    var k := KeptBefore(prefix, i);
    KeptPrefixAt(prefix, c, i);
    PlacedSurvives(source, prefix, c, k);
  }

  /** An article already in the output stays where it is when one more
      candidate comes. */
  lemma PlacedSurvives(source: string, prefix: seq<Candidate>, c: Candidate, k: nat)
    requires k < |Parse(source, prefix)|
    ensures k < |Parse(source, prefix + [c])|
    ensures Parse(source, prefix + [c])[k] == Parse(source, prefix)[k]
  {
    ParseExtends(source, prefix, c);
    var prev := Parse(source, prefix);
    var out := Parse(source, prefix + [c]);
    assert out[k] == out[..|prev|][k];
  }

  /** A kept last candidate is the last article, numbered after the
      articles before it. */
  lemma PlacedLast(source: string, prefix: seq<Candidate>, c: Candidate)
    requires Kept(prefix + [c], |prefix|)
    ensures var k := KeptBefore(prefix + [c], |prefix|);
            var out := Parse(source, prefix + [c]);
            k < |out| && out[k] == Place(Usable(c).value, k + 1)
  {
    KeptPrefixEnd(prefix, c);
    StepKept(source, prefix, c);
    ParseLength(source, prefix);
  }

  /** Every article of the output comes from a kept candidate, the one
      with exactly k kept candidates before it. */
  lemma {:induction false} ParseOnlyKept(source: string, cands: seq<Candidate>, k: nat)
    requires k < |Parse(source, cands)|
    ensures exists i :: 0 <= i < |cands| && Kept(cands, i) && KeptBefore(cands, i) == k &&
                        Parse(source, cands)[k] == Place(Usable(cands[i]).value, k + 1)
    decreases |cands|
  {
    var n := |cands|;
    var prefix := cands[..n - 1];
    var c := cands[n - 1];
    assert cands == prefix + [c];
    if k < |Parse(source, prefix)| {
      ParseOnlyKept(source, prefix, k);
      var i :| 0 <= i < |prefix| && Kept(prefix, i) && KeptBefore(prefix, i) == k &&
               Parse(source, prefix)[k] == Place(Usable(prefix[i]).value, k + 1);
      OnlyKeptEarlier(source, prefix, c, k, i);
    } else {
      OnlyKeptLast(source, prefix, c, k);
    }
  }

  /** An article that came from an earlier candidate still does. */
  lemma OnlyKeptEarlier(source: string, prefix: seq<Candidate>, c: Candidate, k: nat, i: nat)
    requires i < |prefix| && Kept(prefix, i) && KeptBefore(prefix, i) == k
    requires k < |Parse(source, prefix)| && Parse(source, prefix)[k] == Place(Usable(prefix[i]).value, k + 1)
    ensures Kept(prefix + [c], i) && KeptBefore(prefix + [c], i) == k
    ensures k < |Parse(source, prefix + [c])|
    ensures Parse(source, prefix + [c])[k] == Place(Usable((prefix + [c])[i]).value, k + 1)
  {
    KeptPrefixAt(prefix, c, i);
    PlacedSurvives(source, prefix, c, k);
  }

  /** An article past those of the prefix comes from the last candidate. */
  lemma OnlyKeptLast(source: string, prefix: seq<Candidate>, c: Candidate, k: nat)
    requires |Parse(source, prefix)| <= k < |Parse(source, prefix + [c])|
    ensures Kept(prefix + [c], |prefix|) && KeptBefore(prefix + [c], |prefix|) == k
    ensures Parse(source, prefix + [c])[k] == Place(Usable((prefix + [c])[|prefix|]).value, k + 1)
  {
    StepKept(source, prefix, c);
    ParseLength(source, prefix);
    KeptPrefixEnd(prefix, c);
    assert (prefix + [c])[|prefix|] == c;
  }

  /** The output of `parse` holds the kept candidates in discovery order:
      there are as many articles as kept candidates, and the kept candidate
      `i` is the article at output index KeptBefore(cands, i), with position
      KeptBefore(cands, i) + 1. With `ParseOnlyKept`, every article is one of
      these: a later candidate with an earlier URL never appears, and a
      skipped candidate consumes no position. */
  lemma ParseCharacterization(source: string, cands: seq<Candidate>)
    ensures var out := Parse(source, cands);
            |out| == KeptBefore(cands, |cands|)
    ensures var out := Parse(source, cands);
            forall i :: 0 <= i < |cands| && Kept(cands, i) ==>
              KeptBefore(cands, i) < |out| &&
              out[KeptBefore(cands, i)] == Place(Usable(cands[i]).value, KeptBefore(cands, i) + 1)
  {
    ParseLength(source, cands);
    forall i | 0 <= i < |cands| && Kept(cands, i)
      ensures KeptBefore(cands, i) < |Parse(source, cands)|
      ensures Parse(source, cands)[KeptBefore(cands, i)] == Place(Usable(cands[i]).value, KeptBefore(cands, i) + 1)
    {
      ParseKeptPlaced(source, cands, i);
    }
  }

  /** When every candidate is usable and their URLs are pairwise distinct,
      every candidate appears, in order, at position index + 1. */
  lemma AllDistinctKept(source: string, cands: seq<Candidate>)
    requires forall i :: 0 <= i < |cands| ==> Usable(cands[i]).Some?
    requires forall i, j :: 0 <= i < j < |cands| ==> Usable(cands[i]).value.url != Usable(cands[j]).value.url
    ensures var out := Parse(source, cands);
            |out| == |cands| &&
            forall i :: 0 <= i < |cands| ==> out[i] == Place(Usable(cands[i]).value, i + 1)
  {
    assert forall i :: 0 <= i < |cands| ==> Kept(cands, i);
    KeptBeforeAll(cands, |cands|);
    ParseCharacterization(source, cands);
  }

  lemma {:induction false} KeptBeforeAll(cands: seq<Candidate>, n: nat)
    requires n <= |cands|
    requires forall i :: 0 <= i < n ==> Kept(cands, i)
    ensures forall i :: 0 <= i <= n ==> KeptBefore(cands, i) == i
  {
    if n > 0 {
      KeptBeforeAll(cands, n - 1);
    }
  }

  // ---------------------------------------------------------------------
  // Skipped candidates are invisible

  lemma {:induction false} InsertSkippedCore(source: string, a: seq<Candidate>, c: Candidate, b: seq<Candidate>)
    requires Usable(c).None?
    ensures SameCore(Run(source, a + [c] + b), Run(source, a + b))
    decreases |b|
  {
    if b == [] {
      assert a + [c] + b == a + [c];
      assert a + b == a;
      RunSnoc(source, a, c);
      StepEffect(Run(source, a), c, |a| + 1, source);
    } else {
      var b' := b[..|b| - 1];
      var d := b[|b| - 1];
      InsertSkippedCore(source, a, c, b');
      assert a + [c] + b == (a + [c] + b') + [d];
      assert a + b == (a + b') + [d];
      RunSnoc(source, a + [c] + b', d);
      RunSnoc(source, a + b', d);
      StepSameCore(Run(source, a + [c] + b'), Run(source, a + b'), d, |a| + |b'| + 2, |a| + |b'| + 1, source);
    }
  }

  /** Steps from states that agree on their core agree on their core. */
  lemma StepSameCore(s: ParseState, t: ParseState, d: Candidate, i: nat, j: nat, source: string)
    requires SameCore(s, t)
    ensures SameCore(Step(s, d, i, source), Step(t, d, j, source))
  {
    StepEffect(s, d, i, source);
    StepEffect(t, d, j, source);
  }

  /** A candidate that is not a tag, raises, returns None or has a blank
      title or url changes nothing in the output: removing it gives the
      same articles with the same positions. */
  lemma SkippedCandidateInvisible(source: string, a: seq<Candidate>, c: Candidate, b: seq<Candidate>)
    requires Usable(c).None?
    ensures Parse(source, a + [c] + b) == Parse(source, a + b)
  {
    InsertSkippedCore(source, a, c, b);
  }

  /** No candidates, no articles and no log. */
  lemma EmptyPage(source: string)
    ensures Run(source, []) == ParseState([], {}, 0, [])
    ensures Parse(source, []) == []
  {
  }
}

=== FILE: html.dfy ===
/** The little of a BeautifulSoup tag that the site parsers look at: its
    classes, its attributes and the text pieces below it in document order.
    Tree search is abstracted into the card records of each site; this
    module gives the text and attribute accessors and the "first match"
    searches over a sequence of tags in document order. */
module Html {
  import opened Wrappers
  import opened Text

  datatype Element = Element(classes: set<string>, attrs: map<string, string>, texts: seq<string>)

  /** `"".join(pieces)` */
  function Join(pieces: seq<string>): string
    decreases |pieces|
  {
    if pieces == [] then "" else pieces[0] + Join(pieces[1..])
  }

  /** `tag.get_text()`: the text pieces concatenated as they are. */
  function GetText(e: Element): string {
    Join(e.texts)
  }

  /** `get_text(strip=True)` over a list of pieces: every piece stripped,
      blank ones dropped, the rest concatenated. */
  function StrippedJoin(pieces: seq<string>): (t: string)
    ensures IsTrimmed(t)
    ensures t == "" <==> forall i :: 0 <= i < |pieces| ==> AllSpace(pieces[i])
    decreases |pieces|
  {
    if pieces == [] then ""
    else
      var rest := StrippedJoin(pieces[1..]);
      var piece := Trim(pieces[0]);
      assert forall i :: 1 <= i < |pieces| ==> pieces[i] == pieces[1..][i - 1];
      ConcatTrimmed(piece, rest);
      piece + rest
  }

  /** `tag.get_text(strip=True)`. */
  function GetStrippedText(e: Element): (t: string)
    ensures IsTrimmed(t)
  {
    StrippedJoin(e.texts)
  }

  /** `get_text(strip=True)` of an optional tag, None when empty. */
  function StrippedText(h: Option<Element>): (r: Option<string>)
    ensures r.Some? ==> h.Some? && r.value != "" && IsTrimmed(r.value) && r.value == GetStrippedText(h.value)
    ensures r.None? <==> h.None? || GetStrippedText(h.value) == ""
  {
    if h.Some? && GetStrippedText(h.value) != "" then Some(GetStrippedText(h.value)) else None
  }

  /** With a single text piece, `get_text(strip=True)` is
      `get_text().strip()`. */
  lemma StrippedSinglePiece(e: Element)
    requires |e.texts| == 1
    ensures GetStrippedText(e) == Trim(GetText(e))
  {
    var p := e.texts[0];
    assert e.texts[1..] == [];
    assert Join(e.texts[1..]) == "" && StrippedJoin(e.texts[1..]) == "";
    assert p + "" == p && Trim(p) + "" == Trim(p);
  }

  /** `tag.get(name)`. */
  function Get(e: Element, name: string): Option<string> {
    if name in e.attrs then Some(e.attrs[name]) else None
  }

  /** Python truthiness of an optional string: present and non-empty. */
  predicate Truthy(o: Option<string>) {
    o.Some? && o.value != ""
  }

  /** `find(...)` with no filter: the first tag, if any. */
  function First(es: seq<Element>): (r: Option<Element>)
    ensures r.Some? <==> es != []
  {
    if es == [] then None else Some(es[0])
  }

  /** `find(..., class_=cls)`: the first tag carrying class `cls`. */
  function FirstWithClass(es: seq<Element>, cls: string): (r: Option<Element>)
    ensures r.Some? ==> r.value in es && cls in r.value.classes
    ensures r.None? <==> forall i :: 0 <= i < |es| ==> cls !in es[i].classes
    ensures forall i :: 0 <= i < |es| && cls in es[i].classes &&
                        (forall j :: 0 <= j < i ==> cls !in es[j].classes) ==>
                          r == Some(es[i])
    decreases |es|
  {
    if es == [] then None
    else if cls in es[0].classes then Some(es[0])
    else
      var r := FirstWithClass(es[1..], cls);
      assert forall i :: 1 <= i < |es| ==> es[i] == es[1..][i - 1];
      r
  }

  /** `find(..., attr=True)`: the first tag that has attribute `name`. */
  function FirstWithAttr(es: seq<Element>, name: string): (r: Option<Element>)
    ensures r.Some? ==> r.value in es && name in r.value.attrs
    ensures r.None? <==> forall i :: 0 <= i < |es| ==> name !in es[i].attrs
    ensures forall i :: 0 <= i < |es| && name in es[i].attrs &&
                        (forall j :: 0 <= j < i ==> name !in es[j].attrs) ==>
                          r == Some(es[i])
    decreases |es|
  {
    if es == [] then None
    else if name in es[0].attrs then Some(es[0])
    else
      var r := FirstWithAttr(es[1..], name);
      assert forall i :: 1 <= i < |es| ==> es[i] == es[1..][i - 1];
      r
  }
}

=== FILE: images.dfy ===
/** Image-URL helpers shared by the site parsers: the first candidate of a
    `srcset` attribute (`parsers/utils/images.py`) and the relative-URL
    rule every site applies to an image URL (`_resolve_image_url`), and
    the resolution of a link's href that every site applies. */
module Images {
  import opened Wrappers
  import opened Text
  import opened Html
  import Urls

  /** No comma and no whitespace anywhere in `s`. */
  predicate IsToken(s: string) {
    forall k :: 0 <= k < |s| ==> s[k] != ',' && !IsSpace(s[k])
  }

  predicate NoComma(s: string) {
    forall k :: 0 <= k < |s| ==> s[k] != ','
  }

  /** `srcset.split(",")[0]`: everything before the first comma. */
  function SrcsetHead(srcset: string): (h: string)
    ensures NoComma(h) && StartsWith(srcset, h)
  {
    srcset[..IndexOfAny(srcset, {','})]
  }

  /** `first_srcset_url(srcset)`: the URL of the first comma-separated
      entry, that is the first whitespace-delimited token of that entry. */
  function FirstSrcsetUrl(srcset: string): (r: Option<string>)
    ensures AllSpace(srcset) ==> r == None
    ensures r.Some? ==> r.value != "" && IsToken(r.value)
  {
    if Trim(srcset) == "" then None
    else
      var head := SrcsetHead(srcset);
      var entry := Trim(head);
      if entry == "" then None
      else
        var url := entry[..IndexOfSpace(entry)];
        assert forall k :: 0 <= k < |url| ==> url[k] in head && url[k] == entry[k];
        Some(url)
  }

  /** The first srcset URL is a piece of the attribute value. */
  lemma SrcsetUrlInValue(srcset: string)
    ensures FirstSrcsetUrl(srcset).Some? ==> Contains(srcset, FirstSrcsetUrl(srcset).value)
  {
    if FirstSrcsetUrl(srcset).Some? {
      var head := SrcsetHead(srcset);
      var entry := Trim(head);
      var a := LeadingSpaces(head);
      var b := ContentEnd(head, a);
      TrimBounds(head);
      PrefixSliceOccurs(srcset, head, a, b, IndexOfSpace(entry));
    }
  }

  /** A prefix of a slice of a prefix of `s` occurs in `s` where the slice starts. */
  lemma PrefixSliceOccurs(s: string, h: string, a: nat, b: nat, k: nat)
    requires StartsWith(s, h) && a <= b <= |h| && k <= b - a
    ensures OccursAt(s, h[a..b][..k], a)
  {
    var x := h[a..b][..k];
    var y := s[a..a + k];
    forall i | 0 <= i < k
      ensures x[i] == y[i]
    {
      assert x[i] == h[a + i] == s[..|h|][a + i];
    }
    assert x == y;
  }

  /** Whitespace around the value moves the first entry's boundaries but
      only by whitespace. */
  lemma SrcsetHeadPadding(w1: string, s: string, w2: string)
    requires AllSpace(w1) && AllSpace(w2)
    ensures exists w3 :: AllSpace(w3) && SrcsetHead(w1 + s + w2) == w1 + SrcsetHead(s) + w3
  {
    var x := w1 + s + w2;
    var i := IndexOfAny(s, {','});
    PaddedCommaIndex(w1, s, w2);
    if i < |s| {
      assert x[..|w1| + i] == w1 + s[..i] + "";
    } else {
      assert SrcsetHead(s) == s;
      assert x[..|x|] == w1 + s + w2;
    }
  }

  /** Where the first comma of a padded value lies: inside the value if it
      has one, otherwise nowhere, since padding holds no comma. */
  lemma PaddedCommaIndex(w1: string, s: string, w2: string)
    requires AllSpace(w1) && AllSpace(w2)
    ensures var i := IndexOfAny(s, {','});
            IndexOfAny(w1 + s + w2, {','}) == if i < |s| then |w1| + i else |w1 + s + w2|
  {
    IndexOfAnyAbsent(w1, {','});
    IndexOfAnyAbsent(w2, {','});
    IndexOfAnyConcat(w1, s + w2, {','});
    IndexOfAnyConcat(s, w2, {','});
    assert w1 + s + w2 == w1 + (s + w2);
  }

  /** Whitespace around the attribute value does not change the result. */
  lemma SrcsetPadding(w1: string, s: string, w2: string)
    requires AllSpace(w1) && AllSpace(w2)
    ensures FirstSrcsetUrl(w1 + s + w2) == FirstSrcsetUrl(s)
  {
    TrimPadding(w1, s, w2);
    SrcsetHeadPadding(w1, s, w2);
    var w3 :| AllSpace(w3) && SrcsetHead(w1 + s + w2) == w1 + SrcsetHead(s) + w3;
    TrimPadding(w1, SrcsetHead(s), w3);
  }

  /** An entry "url", "url descriptor" or "url<TAB>descriptor", followed
      by the end or by more entries, yields its url. */
  lemma SrcsetFirstEntry(u: string, t: string, rest: string)
    requires u != "" && IsToken(u)
    requires NoComma(t) && (t == "" || IsSpace(t[0]))
    requires rest == "" || rest[0] == ','
    ensures FirstSrcsetUrl(u + t + rest) == Some(u)
  {
    var x := u + t + rest;
    var head := u + t;
    assert NoComma(head);
    IndexOfAnyAbsent(head, {','});
    IndexOfAnyConcat(head, rest, {','});
    assert SrcsetHead(x) == head;
    assert IsTrimmed(u);
    TrimKeepsPrefix(u, t);
    var entry := Trim(head);
    assert entry[..|u|] == u;
    assert |entry| > |u| ==> entry[|u|] == head[|u|];
    assert IndexOfSpace(entry) == |u|;
    assert x[0] == u[0];
  }

  /** An entry that is blank before the first comma (", a.jpg") yields
      None even when later entries are not blank. */
  lemma SrcsetBlankFirstEntry(w: string, rest: string)
    requires AllSpace(w)
    ensures FirstSrcsetUrl(w + "," + rest) == None
  {
    var x := w + "," + rest;
    assert x == w + ("," + rest);
    IndexOfAnyAbsent(w, {','});
    IndexOfAnyConcat(w, "," + rest, {','});
    assert SrcsetHead(x) == w;
  }

  /** `_resolve_image_url` of every site: a protocol-relative URL gets the
      "https:" scheme, a root-relative one is joined to the site's base
      URL, anything else is kept. */
  function ResolveImageUrl(base: string, url: string): (r: string)
    ensures !StartsWith(url, "/") ==> r == url
  {
    if StartsWith(url, "//") then "https:" + url
    else if StartsWith(url, "/") then Urls.UrlJoin(base, url)
    else url
  }

  /** Against a base "https://host", a protocol-relative image URL such
      as "//cdn/x" gets the https scheme: "https://cdn/x". */
  lemma ProtocolRelativeImage(base: string, url: string)
    requires StartsWith(url, "//")
    ensures ResolveImageUrl(base, url) == "https:" + url
    ensures StartsWith(ResolveImageUrl(base, url), "https://")
  {
    assert ("https:" + url)[..8] == "https:" + url[..2];
  }

  /** Against a base "https://host" (or "http://host"), a root-relative
      image URL such as "/x.jpg?w=720" becomes "https://host/x.jpg?w=720". The URL is given
      as path, query and fragment written the way `urlunsplit` writes
      them, which drops an empty query or fragment with its '?' or '#'. */
  lemma RootRelativeImage(sch: string, n: string, path: string, query: string, fragment: string)
    requires (sch == "http" || sch == "https") && n != "" && Urls.NoDelims(n)
    requires Urls.Clean(path) && StartsWith(path, "/") && !StartsWith(path, "//") && Urls.NoHash(query)
    ensures var url := path + Urls.GetUrlTail(query, fragment);
            ResolveImageUrl(sch + "://" + n, url) == sch + "://" + n + url
  {
    var t := Urls.GetUrlTail(query, fragment);
    var base := sch + "://" + n;
    assert ResolveImageUrl(base, path + t) == Urls.UrlJoin(base, path + t) by {
      RootRelativeShape(path, t);
      ImageUsesJoin(base, path + t);
    }
    assert Urls.UrlJoin(base, path + t) == base + path + t by {
      assert path != "" && path[0] == '/' by {
        assert path[0] == path[..1][0];
      }
      Urls.JoinRootRelativeTail(sch, n, path, query, fragment);
    }
    ConcatAssoc(base, path, t);
  }

  /** Against a base "http://host" or "https://host", `_resolve_image_url`
      gives a protocol-relative URL the "https:" scheme and a root-relative
      one the base's scheme, and keeps any other URL. */
  lemma ResolvedImageStart(sch: string, n: string, url: string)
    requires (sch == "http" || sch == "https") && n != "" && Urls.NoDelims(n) && url != ""
    ensures var r := ResolveImageUrl(sch + "://" + n, url);
            && (StartsWith(url, "//") ==> StartsWith(r, "https:"))
            && (StartsWith(url, "/") && !StartsWith(url, "//") ==> StartsWith(r, sch + ":"))
            && (!StartsWith(url, "/") ==> r == url)
  {
    if StartsWith(url, "//") {
      ProtocolRelativeImage(sch + "://" + n, url);
      assert ("https:" + url)[..6] == "https:";
    } else if StartsWith(url, "/") {
      ImageUsesJoin(sch + "://" + n, url);
      assert url[0] == url[..1][0];
      Urls.JoinSlashKeepsScheme(sch, n, url);
    }
  }

  /** A root-relative path followed by a query or fragment tail is still
      root-relative. */
  lemma RootRelativeShape(path: string, t: string)
    requires StartsWith(path, "/") && !StartsWith(path, "//") && Urls.IsQueryOrFragmentTail(t)
    ensures StartsWith(path + t, "/") && !StartsWith(path + t, "//")
  {
    var url := path + t;
    assert url[..1] == path[..1];
    if |path| >= 2 {
      assert url[..2] == path[..2];
    } else if |url| >= 2 {
      assert path == "/" && url[1] == t[0];
    }
  }

  lemma ImageUsesJoin(base: string, url: string)
    requires StartsWith(url, "/") && !StartsWith(url, "//")
    ensures ResolveImageUrl(base, url) == Urls.UrlJoin(base, url)
  {
  }

  // ---------------------------------------------------------------------
  // The attribute loops of `_extract_image_url`

  /** What one iteration of a `for attr in names` loop over an img yields:
      the attribute's value must be truthy, and so must what `pick` makes
      of it (the value itself, its first srcset URL, ...). */
  function Picked(img: Element, name: string, pick: (string, string) -> Option<string>): (r: Option<string>)
    ensures r.Some? ==> r.value != "" && Truthy(Get(img, name))
  {
    var v := Get(img, name);
    if Truthy(v) && Truthy(pick(name, v.value)) then pick(name, v.value) else None
  }

  /** The loop `for attr in names: ... return ...` of an image extractor:
      the first attribute, in the given order, that yields something. */
  function FirstPick(img: Element, names: seq<string>, pick: (string, string) -> Option<string>): (r: Option<string>)
    ensures r.Some? ==> r.value != ""
    ensures r.None? <==> forall i :: 0 <= i < |names| ==> Picked(img, names[i], pick).None?
    ensures forall i :: 0 <= i < |names| && Picked(img, names[i], pick).Some? &&
                        (forall j :: 0 <= j < i ==> Picked(img, names[j], pick).None?) ==>
                          r == Picked(img, names[i], pick)
    decreases |names|
  {
    if names == [] then None
    else
      var here := Picked(img, names[0], pick);
      var rest := FirstPick(img, names[1..], pick);
      assert forall i :: 1 <= i < |names| ==> names[i] == names[1..][i - 1];
      if here.Some? then here else rest
  }

  /** What the loop returns came from one of the attributes it tried. */
  lemma {:induction false} FirstPickFound(img: Element, names: seq<string>, pick: (string, string) -> Option<string>)
    requires FirstPick(img, names, pick).Some?
    ensures exists i :: 0 <= i < |names| && Picked(img, names[i], pick).Some? &&
                        FirstPick(img, names, pick) == Picked(img, names[i], pick)
    decreases |names|
  {
    if Picked(img, names[0], pick).None? {
      FirstPickFound(img, names[1..], pick);
      var j :| 0 <= j < |names[1..]| && Picked(img, names[1..][j], pick).Some? &&
               FirstPick(img, names[1..], pick) == Picked(img, names[1..][j], pick);
      assert names[1..][j] == names[j + 1];
    }
  }

  /** With two attributes the loop tries the first, then the second. */
  lemma FirstPickOfTwo(img: Element, a: string, b: string, pick: (string, string) -> Option<string>)
    ensures FirstPick(img, [a, b], pick) ==
              if Picked(img, a, pick).Some? then Picked(img, a, pick) else Picked(img, b, pick)
  {
    assert [a, b][0] == a && [a, b][1] == b;
  }

  /** `resolve_url(href, base, hosts)` of a tag's href, when the tag has a
      truthy one. */
  function ResolveHref(base: string, hosts: set<string>, link: Option<Element>): (r: Option<string>)
    ensures link.Some? && Truthy(Get(link.value, "href")) ==>
              r == Urls.ResolveUrl(base, hosts, Get(link.value, "href").value)
    ensures !(link.Some? && Truthy(Get(link.value, "href"))) ==> r.None?
  {
    if link.Some? && Truthy(Get(link.value, "href")) then
      Urls.ResolveUrl(base, hosts, Get(link.value, "href").value)
    else None
  }
}

=== FILE: infobae.dfy ===
/** The Infobae site parser (`parsers/sites/infobae.py`): how one
    `.story-card-ctn` element becomes the data of an article. */
module Infobae {
  import opened Wrappers
  import opened Text
  import opened Html
  import Urls
  import Images
  import BaseParser

  const BaseUrl: string := "https://www.infobae.com"
  const AllowedHosts: set<string> := {"www.infobae.com", "infobae.com"}

  /** The image attributes in the order `_extract_image_url` tries them. */
  const ImageAttrs: seq<string> := ["data-src", "data-srcset", "srcset", "src"]

  /** What the parser looks up in a `.story-card-ctn`: the element itself
      (for its own href), its h2s, h3s, anchors and imgs in document order. */
  datatype Card = Card(
    own: Element,
    h2s: seq<Element>,
    h3s: seq<Element>,
    anchors: seq<Element>,
    imgs: seq<Element>)

  /** `_extract_headline`: the text of the first `h2.story-card-hl` if not
      empty, otherwise the text of the first h2 of any class. */
  function ExtractHeadline(card: Card): (r: Option<string>)
    ensures r.Some? ==> BaseParser.Present(r.value)
    ensures StrippedText(FirstWithClass(card.h2s, "story-card-hl")).Some? ==>
              r == StrippedText(FirstWithClass(card.h2s, "story-card-hl"))
    ensures StrippedText(FirstWithClass(card.h2s, "story-card-hl")).None? ==>
              r == StrippedText(First(card.h2s))
    ensures card.h2s == [] ==> r.None?
  {
    var classed := StrippedText(FirstWithClass(card.h2s, "story-card-hl"));
    if classed.Some? then classed else StrippedText(First(card.h2s))
  }

  /** `_extract_url`: the element's own href if it resolves, otherwise the
      href of the first nested anchor that has one. */
  function ExtractUrl(card: Card): (r: Option<string>)
    ensures Images.ResolveHref(BaseUrl, AllowedHosts, Some(card.own)).Some? ==>
              r == Images.ResolveHref(BaseUrl, AllowedHosts, Some(card.own))
    ensures Images.ResolveHref(BaseUrl, AllowedHosts, Some(card.own)).None? ==>
              r == Images.ResolveHref(BaseUrl, AllowedHosts, FirstWithAttr(card.anchors, "href"))
    ensures r.Some? ==> StartsWith(r.value, "http://") || StartsWith(r.value, "https://")
  {
    var own := Images.ResolveHref(BaseUrl, AllowedHosts, Some(card.own));
    if own.Some? then own else Images.ResolveHref(BaseUrl, AllowedHosts, FirstWithAttr(card.anchors, "href"))
  }

  /** `_extract_summary`: only the first `h3.story-card-deck`. */
  function ExtractSummary(card: Card): (r: Option<string>)
    ensures r.Some? ==> BaseParser.Present(r.value)
    ensures FirstWithClass(card.h3s, "story-card-deck").None? ==> r.None?
    ensures r == StrippedText(FirstWithClass(card.h3s, "story-card-deck"))
  {
    StrippedText(FirstWithClass(card.h3s, "story-card-deck"))
  }

  /** One iteration of the attribute loop: a srcset-like attribute (its
      name contains "srcset") gives its first URL, any other its value. */
  function ImagePick(name: string, value: string): (r: Option<string>)
    ensures r.Some? ==> Contains(value, r.value)
    ensures Contains(name, "srcset") && r.Some? ==> r.value != "" && Images.IsToken(r.value)
    ensures !Contains(name, "srcset") ==> r.Some?
  {
    Images.SrcsetUrlInValue(value);
    assert OccursAt(value, value, 0);
    if Contains(name, "srcset") then Images.FirstSrcsetUrl(value) else Some(value)
  }

  /** Which of the four attribute names are srcset-like. */
  lemma ImageAttrKinds()
    ensures Contains("data-srcset", "srcset") && Contains("srcset", "srcset")
    ensures !Contains("data-src", "srcset") && !Contains("src", "srcset")
  {
    assert OccursAt("data-srcset", "srcset", 5) by { assert "data-srcset"[5..11] == "srcset"; }
    assert OccursAt("srcset", "srcset", 0) by { assert "srcset"[0..6] == "srcset"; }
    forall i ensures !OccursAt("data-src", "srcset", i) {
      if 0 <= i <= 2 {
        assert "data-src"[i..i + 6][5] == "data-src"[i + 5] != "srcset"[5];
      }
    }
  }

  /** The img the extractor looks at: the first `img.story-card-img`, else
      the first img. */
  function ImageTag(card: Card): (r: Option<Element>)
    ensures r.Some? <==> card.imgs != []
    ensures FirstWithClass(card.imgs, "story-card-img").Some? ==> r == FirstWithClass(card.imgs, "story-card-img")
    ensures FirstWithClass(card.imgs, "story-card-img").None? ==> r == First(card.imgs)
  {
    var classed := FirstWithClass(card.imgs, "story-card-img");
    if classed.Some? then classed else First(card.imgs)
  }

  /** `_extract_image_url`: the first of `data-src`, `data-srcset`,
      `srcset`, `src` that yields a URL (a srcset attribute whose first entry
      is blank yields none, and the next attribute is tried), through
      `_resolve_image_url`. */
  function ExtractImageUrl(card: Card): (r: Option<string>)
    ensures ImageTag(card).None? ==> r.None?
    ensures ImageTag(card).Some? && Truthy(Get(ImageTag(card).value, "data-src")) ==>
              r == Some(Images.ResolveImageUrl(BaseUrl, Get(ImageTag(card).value, "data-src").value))
    ensures r.Some? ==>
              (exists i :: 0 <= i < |ImageAttrs| &&
                 Images.Picked(ImageTag(card).value, ImageAttrs[i], ImagePick).Some? &&
                 r.value == Images.ResolveImageUrl(BaseUrl, Images.Picked(ImageTag(card).value, ImageAttrs[i], ImagePick).value))
  {
    var img := ImageTag(card);
    if img.None? then None
    else
      var u := Images.FirstPick(img.value, ImageAttrs, ImagePick);
      ImageAttrKinds();
      assert ImageAttrs[0] == "data-src";
      if u.Some? then
        Images.FirstPickFound(img.value, ImageAttrs, ImagePick);
        Some(Images.ResolveImageUrl(BaseUrl, u.value))
      else None
  }

  /** `parse_article_element`: the article data when both a headline and a
      URL are found, otherwise nothing. */
  function ParseArticleElement(card: Card): (r: Option<BaseParser.ParsedArticleData>)
    ensures r.Some? <==> ExtractHeadline(card).Some? && ExtractUrl(card).Some?
    ensures r.Some? ==> r.value == BaseParser.ParsedArticleData(
              ExtractHeadline(card), ExtractUrl(card), ExtractSummary(card), ExtractImageUrl(card))
  {
    var title := ExtractHeadline(card);
    var url := ExtractUrl(card);
    if title.None? || url.None? then None
    else Some(BaseParser.ParsedArticleData(title, url, ExtractSummary(card), ExtractImageUrl(card)))
  }

  /** Every card the site parser accepts is accepted by the shared loop,
      with the same headline and summary. */
  lemma CardAccepted(card: Card)
    requires ParseArticleElement(card).Some?
    ensures var f := BaseParser.Usable(BaseParser.Returns(ParseArticleElement(card)));
            f.Some? && f.value.headline == ExtractHeadline(card).value &&
            f.value.summary == ExtractSummary(card)
  {
    var d := ParseArticleElement(card).value;
    Urls.HttpNotBlank(ExtractUrl(card).value);
    BaseParser.UsableData(d);
  }

  /** The headline never comes from an h3: h3s only feed the summary. */
  lemma HeadlineIgnoresH3(card: Card, h3s: seq<Element>)
    ensures ExtractHeadline(card.(h3s := h3s)) == ExtractHeadline(card)
    ensures ExtractSummary(card.(h3s := [])) == None
  {
    assert FirstWithClass([], "story-card-deck") == None;
  }

  /** A data-srcset whose first entry is blank yields nothing, and the
      loop goes on to the next attributes: here `src`. */
  lemma BlankSrcsetFallsThrough(img: Element, rest: string, src: string)
    requires img.attrs == map["data-srcset" := "," + rest, "src" := src]
    requires src != "" && !StartsWith(src, "/")
    ensures ExtractImageUrl(Card(Element({}, map[], []), [], [], [], [img])) == Some(src)
  {
    var card := Card(Element({}, map[], []), [], [], [], [img]);
    assert ImageTag(card) == Some(img);
    BlankSrcsetPicks(img, rest, src);
    assert forall i :: 0 <= i < 3 ==> Images.Picked(img, ImageAttrs[i], ImagePick).None?;
    assert ImageAttrs[3] == "src";
  }

  /** What each attribute of such an img yields on its own. */
  lemma BlankSrcsetPicks(img: Element, rest: string, src: string)
    requires img.attrs == map["data-srcset" := "," + rest, "src" := src]
    requires src != ""
    ensures Images.Picked(img, "data-src", ImagePick).None?
    ensures Images.Picked(img, "data-srcset", ImagePick).None?
    ensures Images.Picked(img, "srcset", ImagePick).None?
    ensures Images.Picked(img, "src", ImagePick) == Some(src)
  {
    ImageAttrKinds();
    Images.SrcsetBlankFirstEntry("", rest);
    assert "" + "," + rest == "," + rest;
  }

  /** A protocol-relative lazy-loaded image gets the https scheme. */
  lemma ProtocolRelativeImageOnSite(img: Element, u: string)
    requires Get(img, "data-src") == Some(u) && StartsWith(u, "//")
    ensures ExtractImageUrl(Card(Element({}, map[], []), [], [], [], [img])) == Some("https:" + u)
  {
    var card := Card(Element({}, map[], []), [], [], [], [img]);
    assert ImageTag(card) == Some(img);
    Images.ProtocolRelativeImage(BaseUrl, u);
  }
}

=== FILE: lanacion.dfy ===
/** The La Nacion site parser (`parsers/sites/lanacion.py`): how one
    `article.ln-card` element becomes the data of an article. */
module LaNacion {
  import opened Wrappers
  import opened Text
  import opened Html
  import Urls
  import Images
  import BaseParser

  const Host: string := "www.lanacion.com.ar"
  /** "https://www.lanacion.com.ar". */
  const BaseUrl: string := "https" + "://" + Host
  const AllowedHosts: set<string> := {"www.lanacion.com.ar", "lanacion.com.ar"}

  /** What the parser looks up in an `article.ln-card`: its first h1, h2
      and h3, its anchors in document order and its first img. */
  datatype Card = Card(
    h1: Option<Element>,
    h2: Option<Element>,
    h3: Option<Element>,
    anchors: seq<Element>,
    img: Option<Element>)

  /** `_extract_url`: the href of the first `a.ln-link` if it resolves,
      otherwise the href of the first anchor that has one. */
  function ExtractUrl(card: Card): (r: Option<string>)
    ensures Images.ResolveHref(BaseUrl, AllowedHosts, FirstWithClass(card.anchors, "ln-link")).Some? ==>
              r == Images.ResolveHref(BaseUrl, AllowedHosts, FirstWithClass(card.anchors, "ln-link"))
    ensures Images.ResolveHref(BaseUrl, AllowedHosts, FirstWithClass(card.anchors, "ln-link")).None? ==>
              r == Images.ResolveHref(BaseUrl, AllowedHosts, FirstWithAttr(card.anchors, "href"))
    ensures r.Some? ==> StartsWith(r.value, "http://") || StartsWith(r.value, "https://")
  {
    var primary := Images.ResolveHref(BaseUrl, AllowedHosts, FirstWithClass(card.anchors, "ln-link"));
    if primary.Some? then primary else Images.ResolveHref(BaseUrl, AllowedHosts, FirstWithAttr(card.anchors, "href"))
  }

  /** `tag.get_text().strip()` of an optional tag, None when blank. */
  function StrippedFullText(h: Option<Element>): (r: Option<string>)
    ensures r.Some? ==> h.Some? && BaseParser.Present(r.value) && r.value == Trim(GetText(h.value))
    ensures r.None? <==> h.None? || AllSpace(GetText(h.value))
  {
    if h.Some? && Trim(GetText(h.value)) != "" then Some(Trim(GetText(h.value))) else None
  }

  /** `_extract_headline`: the h1 text if it is not blank, otherwise the h2
      text if it is not blank, otherwise nothing. */
  function ExtractHeadline(card: Card): (r: Option<string>)
    ensures r.Some? ==> BaseParser.Present(r.value)
    ensures StrippedFullText(card.h1).Some? ==> r == StrippedFullText(card.h1)
    ensures StrippedFullText(card.h1).None? ==> r == StrippedFullText(card.h2)
  {
    var first := StrippedFullText(card.h1);
    if first.Some? then first else StrippedFullText(card.h2)
  }

  /** `_extract_summary`: the h2 text when the card has both an h1 and an
      h2 (whatever their text) and that text is not empty, otherwise the h3
      text, otherwise nothing. */
  function ExtractSummary(card: Card): (r: Option<string>)
    ensures r.Some? ==> BaseParser.Present(r.value)
    ensures card.h1.Some? && StrippedText(card.h2).Some? ==> r == StrippedText(card.h2)
    ensures card.h1.None? || StrippedText(card.h2).None? ==> r == StrippedText(card.h3)
  {
    var fromH2 := if card.h1.Some? then StrippedText(card.h2) else None;
    if fromH2.Some? then fromH2 else StrippedText(card.h3)
  }

  /** The value itself, for the `src` / `data-src` loop. */
  function AsIs(name: string, value: string): Option<string> {
    Some(value)
  }

  /** The first srcset URL, for the `srcset` / `data-srcset` loop. */
  function SrcsetPick(name: string, value: string): Option<string> {
    Images.FirstSrcsetUrl(value)
  }

  /** `_extract_image_url`: on the first img, `src` then `data-src`; only
      when neither is truthy, the first URL of `srcset` then `data-srcset`;
      the URL found goes through `_resolve_image_url`. */
  function ExtractImageUrl(card: Card): (r: Option<string>)
    ensures card.img.None? ==> r.None?
    ensures card.img.Some? && Truthy(Get(card.img.value, "src")) ==>
              r == Some(Images.ResolveImageUrl(BaseUrl, Get(card.img.value, "src").value))
    ensures card.img.Some? && !Truthy(Get(card.img.value, "src")) && Truthy(Get(card.img.value, "data-src")) ==>
              r == Some(Images.ResolveImageUrl(BaseUrl, Get(card.img.value, "data-src").value))
    ensures card.img.Some? && !Truthy(Get(card.img.value, "src")) && !Truthy(Get(card.img.value, "data-src")) ==>
              r == (var u := Images.FirstPick(card.img.value, ["srcset", "data-srcset"], SrcsetPick);
                    if u.Some? then Some(Images.ResolveImageUrl(BaseUrl, u.value)) else None)
  {
    if card.img.None? then None
    else
      var img := card.img.value;
      Images.FirstPickOfTwo(img, "src", "data-src", AsIs);
      var src := Images.FirstPick(img, ["src", "data-src"], AsIs);
      if src.Some? then Some(Images.ResolveImageUrl(BaseUrl, src.value))
      else
        var fromSrcset := Images.FirstPick(img, ["srcset", "data-srcset"], SrcsetPick);
        if fromSrcset.Some? then Some(Images.ResolveImageUrl(BaseUrl, fromSrcset.value)) else None
  }

  /** `parse_article_element`: the article data when both a headline and a
      URL are found, otherwise nothing. */
  function ParseArticleElement(card: Card): (r: Option<BaseParser.ParsedArticleData>)
    ensures r.Some? <==> ExtractHeadline(card).Some? && ExtractUrl(card).Some?
    ensures r.Some? ==> r.value == BaseParser.ParsedArticleData(
              ExtractHeadline(card), ExtractUrl(card), ExtractSummary(card), ExtractImageUrl(card))
  {
    var url := ExtractUrl(card);
    var title := ExtractHeadline(card);
    if title.None? || url.None? then None
    else Some(BaseParser.ParsedArticleData(title, url, ExtractSummary(card), ExtractImageUrl(card)))
  }

  /** Every card the site parser accepts is accepted by the shared loop,
      with the same headline and summary. */
  lemma CardAccepted(card: Card)
    requires ParseArticleElement(card).Some?
    ensures var f := BaseParser.Usable(BaseParser.Returns(ParseArticleElement(card)));
            f.Some? && f.value.headline == ExtractHeadline(card).value &&
            f.value.summary == ExtractSummary(card)
  {
    var d := ParseArticleElement(card).value;
    Urls.HttpNotBlank(ExtractUrl(card).value);
    BaseParser.UsableData(d);
  }

  /** Because the h2 becomes the summary whenever an h1 exists, a card
      whose h1 is blank and whose h2 reads `t` gets `t` as both headline
      and summary. */
  lemma SummaryRepeatsHeadline(card: Card, t: string)
    requires card.h1.Some? && AllSpace(GetText(card.h1.value))
    requires card.h2 == Some(Element({}, map[], [t])) && BaseParser.Present(t)
    ensures ExtractHeadline(card) == Some(t)
    ensures ExtractSummary(card) == Some(t)
  {
    StrippedSinglePiece(card.h2.value);
    assert GetText(card.h2.value) == t by {
      assert card.h2.value.texts == [t];
      assert [t][1..] == [] && Join([]) == "";
      assert Join([t]) == t + "" == t;
    }
    TrimTrimmed(t);
  }

  /** A root-relative image URL, query and fragment included, becomes an
      absolute URL on the site. */
  lemma RelativeImageOnSite(img: Element, path: string, query: string, fragment: string)
    requires Get(img, "src") == Some(path + Urls.GetUrlTail(query, fragment))
    requires Urls.Clean(path) && StartsWith(path, "/") && !StartsWith(path, "//") && Urls.NoHash(query)
    ensures ExtractImageUrl(Card(None, None, None, [], Some(img))) ==
              Some(BaseUrl + path + Urls.GetUrlTail(query, fragment))
  {
    var src := path + Urls.GetUrlTail(query, fragment);
    assert src != "" by {
      assert |src| >= |path| >= 1;
    }
    SrcImage(img, src);
    assert Images.ResolveImageUrl(BaseUrl, src) == BaseUrl + src by {
      HostIsNetloc();
      Images.RootRelativeImage("https", Host, path, query, fragment);
    }
    ConcatAssoc(BaseUrl, path, Urls.GetUrlTail(query, fragment));
  }

  /** The site's host is a network location. */
  lemma HostIsNetloc()
    ensures Host != "" && Urls.NoDelims(Host)
  {
  }

  /** A lone img with a non-empty `src` gives that `src`, resolved. */
  lemma SrcImage(img: Element, src: string)
    requires Get(img, "src") == Some(src) && src != ""
    ensures ExtractImageUrl(Card(None, None, None, [], Some(img))) == Some(Images.ResolveImageUrl(BaseUrl, src))
  {
  }
}

=== FILE: lapoliticaonline.dfy ===
/** The La Politica Online site parser (`parsers/sites/lapoliticaonline.py`):
    how one `h2.title` element becomes the data of an article. Its image is
    not inside the h2 but in an enclosing `div.item` or `div.noticia`. */
module LaPoliticaOnline {
  import opened Wrappers
  import opened Text
  import opened Html
  import Urls
  import Images
  import BaseParser

  const Host: string := "www.lapoliticaonline.com"
  /** "https://www.lapoliticaonline.com". */
  const BaseUrl: string := "https" + "://" + Host
  const AllowedHosts: set<string> := {"www.lapoliticaonline.com", "lapoliticaonline.com"}

  /** An anchor of a container together with the first img inside it. */
  datatype Link = Link(tag: Element, img: Option<Element>)

  /** An enclosing `div.item` or `div.noticia`: its anchors in document
      order and its first img. */
  datatype Container = Container(links: seq<Link>, img: Option<Element>)

  /** What the parser looks up around an `h2.title`: the first anchor inside
      it, and its nearest `div.item` and `div.noticia` ancestors. */
  datatype Card = Card(link: Option<Element>, item: Option<Container>, noticia: Option<Container>)

  /** `_extract_headline`: the stripped text of the first anchor, if any
      and not empty. */
  function ExtractHeadline(card: Card): (r: Option<string>)
    ensures r.Some? ==> BaseParser.Present(r.value)
    ensures r.Some? <==> card.link.Some? && GetStrippedText(card.link.value) != ""
    ensures r.Some? ==> r.value == GetStrippedText(card.link.value)
  {
    if card.link.Some? && GetStrippedText(card.link.value) != "" then
      Some(GetStrippedText(card.link.value))
    else None
  }

  /** The href of the first anchor, when there is an anchor. */
  function Href(card: Card): (r: Option<string>)
    ensures r.Some? <==> card.link.Some? && "href" in card.link.value.attrs
    ensures r.Some? ==> r.value == card.link.value.attrs["href"]
  {
    if card.link.Some? then Get(card.link.value, "href") else None
  }

  /** `_extract_url`: the first anchor's href, resolved and checked against
      the site's hosts; nothing when the anchor or its href is missing. */
  function ExtractUrl(card: Card): (r: Option<string>)
    ensures !Truthy(Href(card)) ==> r.None?
    ensures Truthy(Href(card)) ==> r == Urls.ResolveUrl(BaseUrl, AllowedHosts, Href(card).value)
    ensures r.Some? ==> StartsWith(r.value, "http://") || StartsWith(r.value, "https://")
  {
    if Truthy(Href(card)) then Urls.ResolveUrl(BaseUrl, AllowedHosts, Href(card).value) else None
  }

  /** One iteration of the `src` / `data-src` loop: a data URI is skipped. */
  function SrcPick(name: string, value: string): (r: Option<string>)
    ensures r.Some? ==> r.value == value && !StartsWith(value, "data:")
    ensures r.None? <==> StartsWith(value, "data:")
  {
    if StartsWith(value, "data:") then None else Some(value)
  }

  /** One iteration of the `srcset` / `data-srcset` loop: the first srcset
      URL, unless it is a data URI. */
  function SrcsetPick(name: string, value: string): (r: Option<string>)
    ensures r.Some? ==> r == Images.FirstSrcsetUrl(value) && !StartsWith(r.value, "data:")
    ensures r.None? <==> Images.FirstSrcsetUrl(value).None? || StartsWith(Images.FirstSrcsetUrl(value).value, "data:")
  {
    var c := Images.FirstSrcsetUrl(value);
    if c.Some? && !StartsWith(c.value, "data:") then c else None
  }

  /** `_resolve_image_url` against any "http://host" or "https://host"
      base never turns a
      URL that is not a data URI into one, and never yields an empty
      string. */
  lemma ResolveNotDataUriOn(sch: string, n: string, url: string)
    requires (sch == "http" || sch == "https") && n != "" && Urls.NoDelims(n)
    requires url != "" && !StartsWith(url, "data:")
    ensures var r := Images.ResolveImageUrl(sch + "://" + n, url);
            r != "" && !StartsWith(r, "data:")
  {
    Images.ResolvedImageStart(sch, n, url);
    var r := Images.ResolveImageUrl(sch + "://" + n, url);
    if r != url {
      var x := if StartsWith(url, "//") then "https:" else sch + ":";
      assert StartsWith(r, x);
      assert r[0] == 'h' by {
        assert r[..|x|] == x;
        assert r[0] == r[..|x|][0];
      }
      assert |r| >= 5 ==> r[..5][0] == r[0];
    }
  }

  /** The same on this site's base URL. */
  lemma ResolveNotDataUri(url: string)
    requires url != "" && !StartsWith(url, "data:")
    ensures var r := Images.ResolveImageUrl(BaseUrl, url);
            r != "" && !StartsWith(r, "data:")
  {
    ResolveNotDataUriOn("https", Host, url);
  }

  /** `resolve_image_from_tag`: `src` then `data-src`, skipping data URIs;
      only when neither yields a URL, the first srcset URL of `srcset` then
      `data-srcset`, again skipping data URIs; the URL found is resolved. */
  function ImageFromTag(tag: Option<Element>): (r: Option<string>)
    ensures tag.None? ==> r.None?
    ensures r.Some? ==> r.value != "" && !StartsWith(r.value, "data:")
    ensures tag.Some? && Images.FirstPick(tag.value, ["src", "data-src"], SrcPick).Some? ==>
              r == Some(Images.ResolveImageUrl(BaseUrl, Images.FirstPick(tag.value, ["src", "data-src"], SrcPick).value))
    ensures tag.Some? && Images.FirstPick(tag.value, ["src", "data-src"], SrcPick).None? ==>
              r == (var c := Images.FirstPick(tag.value, ["srcset", "data-srcset"], SrcsetPick);
                    if c.Some? then Some(Images.ResolveImageUrl(BaseUrl, c.value)) else None)
  {
    if tag.None? then None
    else
      var img := tag.value;
      var src := Images.FirstPick(img, ["src", "data-src"], SrcPick);
      if src.Some? then
        Images.FirstPickOfTwo(img, "src", "data-src", SrcPick);
        ResolveNotDataUri(src.value);
        Some(Images.ResolveImageUrl(BaseUrl, src.value))
      else
        var c := Images.FirstPick(img, ["srcset", "data-srcset"], SrcsetPick);
        if c.Some? then
          Images.FirstPickOfTwo(img, "srcset", "data-srcset", SrcsetPick);
          ResolveNotDataUri(c.value);
          Some(Images.ResolveImageUrl(BaseUrl, c.value))
        else None
  }

  /** `container.find("a", href=href)`: the first anchor whose href is
      exactly `href`. */
  function FirstLinkWithHref(links: seq<Link>, href: string): (r: Option<Link>)
    ensures r.Some? ==> r.value in links && Get(r.value.tag, "href") == Some(href)
    ensures r.None? <==> forall i :: 0 <= i < |links| ==> Get(links[i].tag, "href") != Some(href)
    ensures forall i :: 0 <= i < |links| && Get(links[i].tag, "href") == Some(href) &&
                        (forall j :: 0 <= j < i ==> Get(links[j].tag, "href") != Some(href)) ==>
                          r == Some(links[i])
    decreases |links|
  {
    if links == [] then None
    else if Get(links[0].tag, "href") == Some(href) then Some(links[0])
    else
      var r := FirstLinkWithHref(links[1..], href);
      assert forall i :: 1 <= i < |links| ==> links[i] == links[1..][i - 1];
      r
  }

  /** The img inside the container's anchor that points where the card's
      own anchor points, if there is such an anchor. */
  function AnchorImage(c: Container, href: string): (r: Option<Element>)
    ensures r.Some? ==> exists l :: l in c.links && Get(l.tag, "href") == Some(href) && l.img == r
    ensures (forall i :: 0 <= i < |c.links| ==> Get(c.links[i].tag, "href") != Some(href)) ==> r.None?
  {
    var anchor := FirstLinkWithHref(c.links, href);
    if anchor.Some? then anchor.value.img else None
  }

  /** One container's turn in `_extract_image_url`: when the card's href is
      truthy, the image of the container's anchor with that same href;
      failing that, the container's first img. */
  function ImageFromContainer(c: Option<Container>, href: Option<string>): (r: Option<string>)
    ensures c.None? ==> r.None?
    ensures r.Some? ==> r.value != "" && !StartsWith(r.value, "data:")
    ensures c.Some? && Truthy(href) && ImageFromTag(AnchorImage(c.value, href.value)).Some? ==>
              r == ImageFromTag(AnchorImage(c.value, href.value))
    ensures c.Some? && !Truthy(href) ==> r == ImageFromTag(c.value.img)
    ensures c.Some? && Truthy(href) && ImageFromTag(AnchorImage(c.value, href.value)).None? ==>
              r == ImageFromTag(c.value.img)
  {
    if c.None? then None
    else
      var viaAnchor := if Truthy(href) then ImageFromTag(AnchorImage(c.value, href.value)) else None;
      if viaAnchor.Some? then viaAnchor else ImageFromTag(c.value.img)
  }

  /** `_extract_image_url`: the `div.item` ancestor first, then the
      `div.noticia` ancestor; data URIs are never returned. */
  function ExtractImageUrl(card: Card): (r: Option<string>)
    ensures r.Some? ==> r.value != "" && !StartsWith(r.value, "data:")
    ensures card.item.None? && card.noticia.None? ==> r.None?
    ensures ImageFromContainer(card.item, Href(card)).Some? ==> r == ImageFromContainer(card.item, Href(card))
    ensures ImageFromContainer(card.item, Href(card)).None? ==> r == ImageFromContainer(card.noticia, Href(card))
  {
    var fromItem := ImageFromContainer(card.item, Href(card));
    if fromItem.Some? then fromItem else ImageFromContainer(card.noticia, Href(card))
  }

  /** `parse_article_element`: the article data when both a headline and a
      URL are found, otherwise nothing; the summary is always absent. */
  function ParseArticleElement(card: Card): (r: Option<BaseParser.ParsedArticleData>)
    ensures r.Some? <==> ExtractHeadline(card).Some? && ExtractUrl(card).Some?
    ensures r.Some? ==> r.value == BaseParser.ParsedArticleData(
              ExtractHeadline(card), ExtractUrl(card), None, ExtractImageUrl(card))
  {
    var title := ExtractHeadline(card);
    var url := ExtractUrl(card);
    if title.None? || url.None? then None
    else Some(BaseParser.ParsedArticleData(title, url, None, ExtractImageUrl(card)))
  }

  /** Every card the site parser accepts is accepted by the shared loop,
      with the same headline and no summary. */
  lemma CardAccepted(card: Card)
    requires ParseArticleElement(card).Some?
    ensures var f := BaseParser.Usable(BaseParser.Returns(ParseArticleElement(card)));
            f.Some? && f.value.headline == ExtractHeadline(card).value &&
            f.value.summary.None? &&
            f.value.imageUrl == BaseParser.StripOrNone(ExtractImageUrl(card))
  {
    var d := ParseArticleElement(card).value;
    Urls.HttpNotBlank(ExtractUrl(card).value);
    BaseParser.UsableData(d);
  }

  /** A `src` with leading whitespace before "data:" is not recognised as
      a data URI. */
  lemma PaddedDataUriImage(img: Element, w: string, u: string)
    requires w != "" && AllSpace(w) && StartsWith(u, "data:")
    requires Get(img, "src") == Some(w + u)
    ensures ImageFromTag(Some(img)) == Some(w + u)
  {
    var v := w + u;
    assert v[0] == w[0];
    assert |v| >= 5 ==> v[..5][0] == v[0];
    assert SrcPick("src", v) == Some(v);
    Images.FirstPickOfTwo(img, "src", "data-src", SrcPick);
    assert v[..1][0] == v[0];
  }

  /** A `div.item` without anchors and no `div.noticia`: the image is the
      item's first img, whatever the card's href. */
  lemma ItemImageOnly(card: Card, img: Element)
    requires card.item == Some(Container([], Some(img))) && card.noticia.None?
    ensures ExtractImageUrl(card) == ImageFromTag(Some(img))
  {
    if Truthy(Href(card)) {
      assert AnchorImage(card.item.value, Href(card).value) == None;
    }
  }

  /** The data-URI test looks at the raw attribute value, while the shared
      loop strips the image URL afterwards: a `src` of " data:..." passes
      the test and the article's image URL becomes "data:...". */
  lemma PaddedDataUriReachesArticle(link: Element, img: Element, w: string, u: string)
    requires ExtractHeadline(Card(Some(link), None, None)).Some?
    requires ExtractUrl(Card(Some(link), None, None)).Some?
    requires w != "" && AllSpace(w) && StartsWith(u, "data:") && IsTrimmed(u)
    requires Get(img, "src") == Some(w + u)
    ensures var card := Card(Some(link), Some(Container([], Some(img))), None);
            var f := BaseParser.Usable(BaseParser.Returns(ParseArticleElement(card)));
            f.Some? && f.value.imageUrl == Some(u)
  {
    var card := Card(Some(link), Some(Container([], Some(img))), None);
    PaddedDataUriImage(img, w, u);
    ItemImageOnly(card, img);
    TrimLeadingPadding(w, u);
    CardAccepted(card);
  }

  /** Stripping removes leading whitespace in front of a trimmed value. */
  lemma TrimLeadingPadding(w: string, u: string)
    requires AllSpace(w) && IsTrimmed(u)
    ensures Trim(w + u) == u
  {
    assert w + u == w + u + "";
    TrimPadding(w, u, "");
    TrimTrimmed(u);
  }

  /** A lazily loaded img whose `src` is a data-URI placeholder yields its
      `data-src` instead. */
  lemma DataUriPlaceholderSkipped(img: Element, placeholder: string, lazy: string)
    requires Get(img, "src") == Some(placeholder) && StartsWith(placeholder, "data:")
    requires Get(img, "data-src") == Some(lazy) && lazy != "" && !StartsWith(lazy, "data:")
    ensures ImageFromTag(Some(img)) == Some(Images.ResolveImageUrl(BaseUrl, lazy))
  {
    Images.FirstPickOfTwo(img, "src", "data-src", SrcPick);
  }

  /** The anchor of the `div.item` that points where the card points wins
      over both the item's first img and anything in `div.noticia`. */
  lemma MatchingAnchorPreferred(card: Card, l: Link)
    requires card.item.Some? && Truthy(Href(card))
    requires card.item.value.links == [l] && Get(l.tag, "href") == Href(card)
    requires ImageFromTag(l.img).Some?
    ensures ExtractImageUrl(card) == ImageFromTag(l.img)
  {
    assert [l][0] == l;
  }
}

=== FILE: registry.dfy ===
/** The parser registry (`parsers/registry.py`): site parsers register
    under a source name, and lookup ignores the name's case. The global
    `_PARSERS` dict is threaded through the operations as a value; the
    `source` class attribute that registration sets is kept beside it. */
module Registry {
  import opened Wrappers
  import opened Text

  /** The site parser classes that carry a `register_parser` decorator. */
  datatype ParserKind = InfobaeParser | LaNacionParser | LaPoliticaOnlineParser

  /** `_PARSERS`, keyed by lowercased source name, and the `source`
      attribute of every registered class. */
  datatype Registry = Registry(parsers: map<string, ParserKind>, source: map<ParserKind, string>)

  /** The two errors of the registry: the `ValueError` of a duplicate
      registration and `ParserNotFoundError`, each carrying the name as the
      caller wrote it. */
  datatype RegistryError =
    | AlreadyRegistered(sourceName: string)
    | ParserNotFound(sourceName: string)

  /** The exception message. */
  function Message(e: RegistryError): (m: string)
    ensures EndsWith(m, e.sourceName)
  {
    match e
    case AlreadyRegistered(n) => "Parser already registered for source: " + n
    case ParserNotFound(n) => "No parser registered for source: " + n
  }

  /** The registry before any site module is imported. */
  const Empty: Registry := Registry(map[], map[])

  /** The registry after a registration attempt, and the error it raised,
      if any. */
  datatype Outcome = Outcome(registry: Registry, raised: Option<RegistryError>)

  /** `register_parser(sourceName)` applied to a class: refused when the
      lowercased name is already a key, otherwise the class is stored under
      that key and its `source` becomes the name as written. */
  function Register(reg: Registry, sourceName: string, kind: ParserKind): (out: Outcome)
    ensures out.raised.Some? <==> Lower(sourceName) in reg.parsers
    ensures out.raised.Some? ==> out.raised.value == AlreadyRegistered(sourceName) && out.registry == reg
    ensures out.raised.None? ==>
              out.registry.parsers.Keys == reg.parsers.Keys + {Lower(sourceName)} &&
              |out.registry.parsers| == |reg.parsers| + 1 &&
              out.registry.parsers[Lower(sourceName)] == kind &&
              (forall k :: k in reg.parsers ==> out.registry.parsers[k] == reg.parsers[k]) &&
              kind in out.registry.source && out.registry.source[kind] == sourceName &&
              (forall k :: k in reg.source && k != kind ==> k in out.registry.source && out.registry.source[k] == reg.source[k]) &&
              out.registry.source.Keys == reg.source.Keys + {kind}
  {
    var key := Lower(sourceName);
    if key in reg.parsers then Outcome(reg, Some(AlreadyRegistered(sourceName)))
    else
      MapInsert(reg.parsers, key, kind);
      MapInsert(reg.source, kind, sourceName);
      Outcome(Registry(reg.parsers[key := kind], reg.source[kind := sourceName]), None)
  }

  /** Storing `v` under `k` adds `k` to the keys and keeps every other
      entry. */
  lemma MapInsert<K, V>(m: map<K, V>, k: K, v: V)
    ensures m[k := v].Keys == m.Keys + {k}
    ensures k !in m ==> |m[k := v]| == |m| + 1
    ensures forall j :: j in m && j != k ==> j in m[k := v] && m[k := v][j] == m[j]
  {
  }

  /** `get_parser(sourceName)`: the class registered under the lowercased
      name, or `ParserNotFoundError` carrying the name as given. */
  function GetParser(reg: Registry, sourceName: string): (r: Result<ParserKind, RegistryError>)
    ensures r.Ok? <==> Lower(sourceName) in reg.parsers
    ensures r.Ok? ==> r.value == reg.parsers[Lower(sourceName)]
    ensures r.Err? ==> r.error == ParserNotFound(sourceName)
  {
    var key := Lower(sourceName);
    if key in reg.parsers then Ok(reg.parsers[key]) else Err(ParserNotFound(sourceName))
  }

  /** Two names that differ only in the case of ASCII letters. */
  predicate SameIgnoringCase(a: string, b: string) {
    Lower(a) == Lower(b)
  }

  /** After a successful registration, looking up the name in any casing
      yields the registered class. */
  lemma RegisterThenGet(reg: Registry, sourceName: string, kind: ParserKind, asked: string)
    requires Register(reg, sourceName, kind).raised.None?
    requires SameIgnoringCase(asked, sourceName)
    ensures GetParser(Register(reg, sourceName, kind).registry, asked) == Ok(kind)
  {
  }

  /** A registration does not change the lookup of any other name. */
  lemma RegisterKeepsOthers(reg: Registry, sourceName: string, kind: ParserKind, asked: string)
    requires !SameIgnoringCase(asked, sourceName)
    ensures GetParser(Register(reg, sourceName, kind).registry, asked) == GetParser(reg, asked)
  {
  }

  /** Registering the same name twice, in whatever casing, fails the second
      time and leaves the registry as the first registration made it. */
  lemma RegisterTwice(reg: Registry, a: string, b: string, k1: ParserKind, k2: ParserKind)
    requires Register(reg, a, k1).raised.None?
    requires SameIgnoringCase(a, b)
    ensures var after := Register(reg, a, k1).registry;
            Register(after, b, k2) == Outcome(after, Some(AlreadyRegistered(b)))
  {
  }

  /** Lookup ignores case: a name and its lowercase form find the same
      class, or both fail. */
  lemma LookupIgnoresCase(reg: Registry, sourceName: string)
    ensures GetParser(reg, sourceName).Ok? <==> GetParser(reg, Lower(sourceName)).Ok?
    ensures GetParser(reg, sourceName).Ok? ==> GetParser(reg, sourceName) == GetParser(reg, Lower(sourceName))
  {
    LowerIdempotent(sourceName);
  }

  /** `load_site_parsers()` in a fresh process: importing the infobae and
      lanacion site modules, in that order, runs their decorators. The
      lapoliticaonline module is not imported there. */
  function LoadSiteParsers(): (reg: Registry)
    ensures reg.parsers.Keys == {"infobae", "lanacion"}
  {
    LowerSiteNames();
    var afterInfobae := Register(Empty, "infobae", InfobaeParser);
    Register(afterInfobae.registry, "lanacion", LaNacionParser).registry
  }

  /** The registered site names are already lowercase. */
  lemma LowerSiteNames()
    ensures Lower("infobae") == "infobae"
    ensures Lower("lanacion") == "lanacion"
    ensures Lower("lapoliticaonline") == "lapoliticaonline"
  {
    LowerOfLowercase("infobae");
    LowerOfLowercase("lanacion");
    LowerOfLowercase("lapoliticaonline");
  }

  /** The table `load_site_parsers()` leaves behind. */
  lemma LoadedParsers()
    ensures LoadSiteParsers().parsers == map["infobae" := InfobaeParser, "lanacion" := LaNacionParser]
  {
    LowerSiteNames();
  }

  /** The mixed-case names looked up after loading. */
  lemma LowerLaNacion()
    ensures Lower("LaNacion") == "lanacion"
  {
  }

  lemma LowerInfobaeCaps()
    ensures Lower("INFOBAE") == "infobae"
  {
  }

  /** After `load_site_parsers()`, "lapoliticaonline" (in any casing) is
      not found, while "LaNacion" and "INFOBAE" are. */
  lemma SiteParsersLoaded(asked: string)
    requires SameIgnoringCase(asked, "lapoliticaonline")
    ensures GetParser(LoadSiteParsers(), asked) == Err(ParserNotFound(asked))
    ensures GetParser(LoadSiteParsers(), "LaNacion") == Ok(LaNacionParser)
    ensures GetParser(LoadSiteParsers(), "INFOBAE") == Ok(InfobaeParser)
  {
    LoadedParsers();
    LowerSiteNames();
    LowerLaNacion();
    LowerInfobaeCaps();
  }
}

=== FILE: repository.dfy ===
/** The article repository (`db/repositories/article.py`): the upsert
    engine that stores parsed articles. The articles table is a map from
    URL to article, since `url` is unique; the database session, logging
    and the clock are left out and `seen_at` is a parameter. */
module Repository {
  import opened Wrappers
  import opened BaseParser

  type Timestamp = int

  /** A row of the articles table. */
  datatype Article = Article(
    id: nat,
    headline: string,
    description: Option<string>,
    url: string,
    imageUrl: Option<string>,
    position: nat,
    sourceId: nat,
    lastSeenAt: Timestamp)

  /** The articles table, keyed by URL, and the next auto-increment id. */
  datatype Store = Store(articles: map<string, Article>, nextId: nat)

  /** What the table guarantees: each row sits under its own URL, so there
      is at most one article per URL, and ids are distinct and below the
      next id. */
  predicate Valid(st: Store) {
    (forall u :: u in st.articles ==> st.articles[u].url == u && st.articles[u].id < st.nextId) &&
    (forall u, v :: u in st.articles && v in st.articles && u != v ==> st.articles[u].id != st.articles[v].id)
  }

  /** Two tables agree on URL `u`: both lack it, or both hold the same row. */
  predicate SameAt(a: map<string, Article>, b: map<string, Article>, u: string) {
    (u in a <==> u in b) && (u in a ==> a[u] == b[u])
  }

  /** What an upsert finds for a parsed article: a new URL, a URL of the
      same source, or a URL owned by another source. */
  datatype Kind = New | Same | Other

  function KindOf(st: Store, p: ParsedArticle, sourceId: nat): Kind {
    if p.url !in st.articles then New
    else if st.articles[p.url].sourceId != sourceId then Other
    else Same
  }

  /** Tables that agree on an article's URL classify it alike. */
  lemma KindAgree(s: Store, t: Store, p: ParsedArticle, sourceId: nat)
    requires SameAt(s.articles, t.articles, p.url)
    ensures KindOf(s, p, sourceId) == KindOf(t, p, sourceId)
  {
  }

  /** The parsed article a row was last written from: its content
      columns read back as a `ParsedArticle`. */
  function ParsedOf(a: Article): ParsedArticle {
    ParsedArticle(a.headline, a.url, a.position, a.description, a.imageUrl)
  }

  /** `_create_article`: a row built from the parsed article. */
  function CreateArticle(p: ParsedArticle, sourceId: nat, seenAt: Timestamp, id: nat): (a: Article)
    ensures ParsedOf(a) == p
    ensures a.id == id && a.sourceId == sourceId && a.lastSeenAt == seenAt
  {
    Article(id, p.headline, p.summary, p.url, p.imageUrl, p.position, sourceId, seenAt)
  }

  /** `_update_article`: the parsed article's fields overwrite the row's,
      absent ones included; id, url and source stay. */
  function UpdateArticle(a: Article, p: ParsedArticle, seenAt: Timestamp): (r: Article)
    ensures ParsedOf(r) == p.(url := a.url)
    ensures r == CreateArticle(p.(url := a.url), a.sourceId, seenAt, a.id)
  {
    a.(headline := p.headline, description := p.summary, imageUrl := p.imageUrl,
       position := p.position, lastSeenAt := seenAt)
  }

  /** The table after an upsert and the article it returns (None when
      skipped). */
  datatype Upserted = Upserted(store: Store, article: Option<Article>)

  /** `upsert_from_parsed`. */
  function UpsertOne(st: Store, p: ParsedArticle, sourceId: nat, seenAt: Timestamp): (out: Upserted)
    ensures KindOf(st, p, sourceId) == Other <==> out.article.None?
    ensures KindOf(st, p, sourceId) == Other ==> out.store == st
    ensures KindOf(st, p, sourceId) == New ==>
              var a := out.article.value;
              a.id == st.nextId && a.url == p.url && a.headline == p.headline &&
              a.description == p.summary && a.imageUrl == p.imageUrl &&
              a.position == p.position && a.sourceId == sourceId && a.lastSeenAt == seenAt &&
              out.store.nextId == st.nextId + 1
    ensures KindOf(st, p, sourceId) == Same ==>
              var a := out.article.value;
              var e := st.articles[p.url];
              a.id == e.id && a.url == e.url && a.sourceId == e.sourceId &&
              a.headline == p.headline && a.description == p.summary &&
              a.imageUrl == p.imageUrl && a.position == p.position && a.lastSeenAt == seenAt &&
              out.store.nextId == st.nextId
    ensures out.article.Some? ==> p.url in out.store.articles && out.store.articles[p.url] == out.article.value
  {
    if p.url in st.articles then
      var existing := st.articles[p.url];
      if existing.sourceId != sourceId then Upserted(st, None)
      else
        var a := UpdateArticle(existing, p, seenAt);
        Upserted(Store(st.articles[p.url := a], st.nextId), Some(a))
    else
      var a := CreateArticle(p, sourceId, seenAt, st.nextId);
      Upserted(Store(st.articles[p.url := a], st.nextId + 1), Some(a))
  }

  /** An upsert touches no row but the one of its URL. */
  lemma UpsertFrame(st: Store, p: ParsedArticle, sourceId: nat, seenAt: Timestamp, u: string)
    requires u != p.url
    ensures SameAt(st.articles, UpsertOne(st, p, sourceId, seenAt).store.articles, u)
  {
  }

  /** An upsert keeps the table valid: one row per URL, distinct ids. */
  lemma UpsertValid(st: Store, p: ParsedArticle, sourceId: nat, seenAt: Timestamp)
    requires Valid(st)
    ensures Valid(UpsertOne(st, p, sourceId, seenAt).store)
  {
    var out := UpsertOne(st, p, sourceId, seenAt);
    if KindOf(st, p, sourceId) == New {
      forall u | u in out.store.articles ensures out.store.articles[u].url == u && out.store.articles[u].id < out.store.nextId {
        if u != p.url { assert u in st.articles; }
      }
      forall u, v | u in out.store.articles && v in out.store.articles && u != v
        ensures out.store.articles[u].id != out.store.articles[v].id
      {
        if u != p.url && v != p.url {
          assert u in st.articles && v in st.articles;
        } else if u == p.url {
          assert v in st.articles;
        } else {
          assert u in st.articles;
        }
      }
    } else if KindOf(st, p, sourceId) == Same {
      forall u, v | u in out.store.articles && v in out.store.articles && u != v
        ensures out.store.articles[u].id != out.store.articles[v].id
      {
        assert u in st.articles && v in st.articles;
      }
    }
  }

  /** After an upsert, its URL belongs to the upserting source, unless it
      belonged to another one before. */
  lemma UpsertKind(st: Store, p: ParsedArticle, sourceId: nat, seenAt: Timestamp)
    ensures KindOf(UpsertOne(st, p, sourceId, seenAt).store, p, sourceId) ==
              (if KindOf(st, p, sourceId) == Other then Other else Same)
  {
  }

  // ---------------------------------------------------------------------
  // Bulk upsert

  /** `(created_count, updated_count, skipped_count)` */
  datatype Counts = Counts(created: nat, updated: nat, skipped: nat)

  function Plus(a: Counts, b: Counts): Counts {
    Counts(a.created + b.created, a.updated + b.updated, a.skipped + b.skipped)
  }

  function Total(c: Counts): nat {
    c.created + c.updated + c.skipped
  }

  /** The counter a single article of the given kind increments. */
  function CountOf(k: Kind): (c: Counts)
    ensures Total(c) == 1
  {
    match k
    case New => Counts(1, 0, 0)
    case Same => Counts(0, 1, 0)
    case Other => Counts(0, 0, 1)
  }

  /** The table after a bulk upsert and its three counters. */
  datatype Bulk = Bulk(store: Store, counts: Counts)

  /** The URLs of an article followed by a batch. */
  lemma UrlsOfCons(p: ParsedArticle, ps: seq<ParsedArticle>)
    ensures UrlsOf([p] + ps) == {p.url} + UrlsOf(ps)
  {
    var q := [p] + ps;
    forall u ensures u in UrlsOf(q) <==> u == p.url || u in UrlsOf(ps) {
      if u in UrlsOf(q) {
        var i :| 0 <= i < |q| && q[i].url == u;
        if i > 0 { assert ps[i - 1].url == u; }
      }
      if u in UrlsOf(ps) {
        var i :| 0 <= i < |ps| && ps[i].url == u;
        assert q[i + 1].url == u;
      }
      if u == p.url { assert q[0].url == u; }
    }
  }

  /** The pre-dedupe loop of `bulk_upsert_from_parsed`, started with the
      set `seen` of URLs already taken: the articles kept, in order, and
      the number dropped as duplicates. */
  datatype Deduped = Deduped(unique: seq<ParsedArticle>, dropped: nat)

  function Dedupe(ps: seq<ParsedArticle>, seen: set<string>): (d: Deduped)
    ensures |d.unique| + d.dropped == |ps|
    ensures DistinctUrls(d.unique)
    ensures forall i :: 0 <= i < |d.unique| ==> d.unique[i] in ps && d.unique[i].url !in seen
    decreases |ps|
  {
    if ps == [] then Deduped([], 0)
    else
      var p := ps[0];
      if p.url in seen then
        var d := Dedupe(ps[1..], seen);
        Deduped(d.unique, d.dropped + 1)
      else
        var d := Dedupe(ps[1..], seen + {p.url});
        assert forall i :: 1 <= i < |[p] + d.unique| ==> ([p] + d.unique)[i] == d.unique[i - 1];
        Deduped([p] + d.unique, d.dropped)
  }

  /** Deduplication keeps every URL of the batch that was not already
      taken, and no other. */
  lemma {:induction false} DedupeUrls(ps: seq<ParsedArticle>, seen: set<string>)
    ensures UrlsOf(Dedupe(ps, seen).unique) == UrlsOf(ps) - seen
    decreases |ps|
  {
    if ps != [] {
      var p := ps[0];
      UrlsOfCons(p, ps[1..]);
      assert ps == [p] + ps[1..];
      if p.url in seen {
        DedupeUrls(ps[1..], seen);
      } else {
        DedupeUrls(ps[1..], seen + {p.url});
        UrlsOfCons(p, Dedupe(ps[1..], seen + {p.url}).unique);
      }
    }
  }

  /** The first occurrence of each URL not already taken is kept; with
      distinct kept URLs, every later occurrence is dropped. */
  lemma {:induction false} DedupeKeepsFirst(ps: seq<ParsedArticle>, seen: set<string>, j: nat)
    requires j < |ps| && ps[j].url !in seen
    requires forall k :: 0 <= k < j ==> ps[k].url != ps[j].url
    ensures ps[j] in Dedupe(ps, seen).unique
    decreases |ps|
  {
    var p := ps[0];
    if j > 0 {
      assert ps[j] == ps[1..][j - 1];
      var seen' := if p.url in seen then seen else seen + {p.url};
      assert forall k :: 0 <= k < j - 1 ==> ps[1..][k] == ps[k + 1];
      DedupeKeepsFirst(ps[1..], seen', j - 1);
    }
  }

  /** The prefetch query: the existing rows for the given URLs. */
  function Prefetch(st: Store, urls: set<string>): (snap: map<string, Article>)
    ensures forall u :: u in urls ==> SameAt(snap, st.articles, u)
  {
    map u | u in st.articles && u in urls :: st.articles[u]
  }

  /** One iteration of the bulk loop below: update, skip or create, and
      the counter it increments. */
  function ApplyStep(st: Store, p: ParsedArticle, snap: map<string, Article>, sourceId: nat, seenAt: Timestamp): Bulk {
    if p.url in snap then
      if snap[p.url].sourceId != sourceId then Bulk(st, Counts(0, 0, 1))
      else Bulk(Store(st.articles[p.url := UpdateArticle(snap[p.url], p, seenAt)], st.nextId), Counts(0, 1, 0))
    else Bulk(Store(st.articles[p.url := CreateArticle(p, sourceId, seenAt, st.nextId)], st.nextId + 1), Counts(1, 0, 0))
  }

  /** The main loop of `bulk_upsert_from_parsed` over the deduplicated
      articles: each looks up the prefetched row (not the live table),
      then updates it, skips, or creates a row. */
  function ApplyAll(st: Store, ps: seq<ParsedArticle>, snap: map<string, Article>, sourceId: nat, seenAt: Timestamp): Bulk
    decreases |ps|
  {
    if ps == [] then Bulk(st, Counts(0, 0, 0))
    else
      var step := ApplyStep(st, ps[0], snap, sourceId, seenAt);
      var rest := ApplyAll(step.store, ps[1..], snap, sourceId, seenAt);
      Bulk(rest.store, Plus(step.counts, rest.counts))
  }

  /** `bulk_upsert_from_parsed`: dedupe the batch (first occurrence wins,
      later ones are counted as skipped), return early when nothing is
      left, prefetch the existing rows, then run the loop. */
  function BulkUpsert(st: Store, batch: seq<ParsedArticle>, sourceId: nat, seenAt: Timestamp): (out: Bulk)
    ensures out.store.nextId == st.nextId + out.counts.created
  {
    var d := Dedupe(batch, {});
    if d.unique == [] then Bulk(st, Counts(0, 0, d.dropped))
    else
      var snap := Prefetch(st, UrlsOf(d.unique));
      var r := ApplyAll(st, d.unique, snap, sourceId, seenAt);
      ApplyIds(st, d.unique, snap, sourceId, seenAt);
      assert r.store.nextId == st.nextId + r.counts.created;
      Bulk(r.store, Plus(r.counts, Counts(0, 0, d.dropped)))
  }

  // ---------------------------------------------------------------------
  // Bulk upsert as a fold of single upserts

  /** `upsert_from_parsed` applied to each article in turn, tallying what
      each one found. */
  function FoldUpsert(st: Store, ps: seq<ParsedArticle>, sourceId: nat, seenAt: Timestamp): Bulk
    decreases |ps|
  {
    if ps == [] then Bulk(st, Counts(0, 0, 0))
    else
      var o := UpsertOne(st, ps[0], sourceId, seenAt);
      var rest := FoldUpsert(o.store, ps[1..], sourceId, seenAt);
      Bulk(rest.store, Plus(CountOf(KindOf(st, ps[0], sourceId)), rest.counts))
  }

  /** Every article of the batch increments exactly one counter. */
  lemma {:induction false} FoldTotal(st: Store, ps: seq<ParsedArticle>, sourceId: nat, seenAt: Timestamp)
    ensures Total(FoldUpsert(st, ps, sourceId, seenAt).counts) == |ps|
    decreases |ps|
  {
    if ps != [] {
      var o := UpsertOne(st, ps[0], sourceId, seenAt);
      FoldTotal(o.store, ps[1..], sourceId, seenAt);
      assert Total(CountOf(KindOf(st, ps[0], sourceId))) == 1;
    }
  }

  /** The fold hands out one id per row it creates. */
  lemma {:induction false} FoldIds(st: Store, ps: seq<ParsedArticle>, sourceId: nat, seenAt: Timestamp)
    ensures var out := FoldUpsert(st, ps, sourceId, seenAt);
            out.store.nextId == st.nextId + out.counts.created
    decreases |ps|
  {
    if ps != [] {
      FoldIds(UpsertOne(st, ps[0], sourceId, seenAt).store, ps[1..], sourceId, seenAt);
    }
  }

  /** The fold keeps the table valid. */
  lemma {:induction false} FoldValid(st: Store, ps: seq<ParsedArticle>, sourceId: nat, seenAt: Timestamp)
    requires Valid(st)
    ensures Valid(FoldUpsert(st, ps, sourceId, seenAt).store)
    decreases |ps|
  {
    if ps != [] {
      UpsertValid(st, ps[0], sourceId, seenAt);
      FoldValid(UpsertOne(st, ps[0], sourceId, seenAt).store, ps[1..], sourceId, seenAt);
    }
  }

  /** The fold touches only the rows of the batch's URLs. */
  lemma {:induction false} FoldFrame(st: Store, ps: seq<ParsedArticle>, sourceId: nat, seenAt: Timestamp, u: string)
    requires u !in UrlsOf(ps)
    ensures SameAt(st.articles, FoldUpsert(st, ps, sourceId, seenAt).store.articles, u)
    decreases |ps|
  {
    if ps != [] {
      var o := UpsertOne(st, ps[0], sourceId, seenAt);
      UrlsOfCons(ps[0], ps[1..]);
      assert ps == [ps[0]] + ps[1..];
      UpsertFrame(st, ps[0], sourceId, seenAt, u);
      FoldFrame(o.store, ps[1..], sourceId, seenAt, u);
    }
  }

  /** The fold leaves a row owned by another source as it was, even when
      the batch carries its URL: that article is skipped. */
  lemma {:induction false} FoldOtherUnchanged(st: Store, ps: seq<ParsedArticle>, sourceId: nat, seenAt: Timestamp, u: string)
    requires u in st.articles && st.articles[u].sourceId != sourceId
    ensures SameAt(st.articles, FoldUpsert(st, ps, sourceId, seenAt).store.articles, u)
    decreases |ps|
  {
    if ps != [] {
      var o := UpsertOne(st, ps[0], sourceId, seenAt);
      if ps[0].url != u {
        UpsertFrame(st, ps[0], sourceId, seenAt, u);
      }
      assert SameAt(st.articles, o.store.articles, u);
      FoldOtherUnchanged(o.store, ps[1..], sourceId, seenAt, u);
    }
  }

  /** The prefetched rows agree with the live table on every URL of `ps`. */
  predicate SnapshotOf(snap: map<string, Article>, st: Store, ps: seq<ParsedArticle>) {
    forall i :: 0 <= i < |ps| ==> SameAt(snap, st.articles, ps[i].url)
  }

  /** With distinct URLs, reading the prefetched rows is reading the live
      table: the bulk loop is the fold of single upserts. */
  lemma {:induction false} ApplyIsFold(st: Store, ps: seq<ParsedArticle>, snap: map<string, Article>, sourceId: nat, seenAt: Timestamp)
    requires DistinctUrls(ps) && SnapshotOf(snap, st, ps)
    ensures ApplyAll(st, ps, snap, sourceId, seenAt) == FoldUpsert(st, ps, sourceId, seenAt)
    decreases |ps|
  {
    if ps != [] {
      var p := ps[0];
      assert SameAt(snap, st.articles, p.url);
      DistinctTail(ps);
      var o := UpsertOne(st, p, sourceId, seenAt);
      var rest := ps[1..];
      assert SnapshotOf(snap, o.store, rest) by {
        forall i | 0 <= i < |rest|
          ensures SameAt(snap, o.store.articles, rest[i].url)
        {
          assert rest[i] == ps[i + 1];
          UpsertFrame(st, p, sourceId, seenAt, rest[i].url);
        }
      }
      ApplyIsFold(o.store, rest, snap, sourceId, seenAt);
    }
  }

  /** The bulk upsert is the single upsert folded over the deduplicated
      batch, with the dropped duplicates added to the skipped count. */
  lemma BulkIsFold(st: Store, batch: seq<ParsedArticle>, sourceId: nat, seenAt: Timestamp)
    ensures var d := Dedupe(batch, {});
            var f := FoldUpsert(st, d.unique, sourceId, seenAt);
            BulkUpsert(st, batch, sourceId, seenAt) == Bulk(f.store, Plus(f.counts, Counts(0, 0, d.dropped)))
  {
    var d := Dedupe(batch, {});
    if d.unique != [] {
      var snap := Prefetch(st, UrlsOf(d.unique));
      assert SnapshotOf(snap, st, d.unique) by {
        forall i | 0 <= i < |d.unique| ensures SameAt(snap, st.articles, d.unique[i].url) {
          assert d.unique[i].url in UrlsOf(d.unique);
        }
      }
      ApplyIsFold(st, d.unique, snap, sourceId, seenAt);
    }
  }

  /** The counters of a bulk upsert add up to the batch length; the table
      stays valid; rows of URLs outside the batch, and rows owned by other
      sources, are untouched. */
  lemma BulkInvariants(st: Store, batch: seq<ParsedArticle>, sourceId: nat, seenAt: Timestamp)
    ensures Total(BulkUpsert(st, batch, sourceId, seenAt).counts) == |batch|
    ensures Valid(st) ==> Valid(BulkUpsert(st, batch, sourceId, seenAt).store)
    ensures forall u :: u !in UrlsOf(batch) ==>
              SameAt(st.articles, BulkUpsert(st, batch, sourceId, seenAt).store.articles, u)
    ensures forall u :: u in st.articles && st.articles[u].sourceId != sourceId ==>
              SameAt(st.articles, BulkUpsert(st, batch, sourceId, seenAt).store.articles, u)
  {
    BulkTotal(st, batch, sourceId, seenAt);
    if Valid(st) {
      BulkValid(st, batch, sourceId, seenAt);
    }
    BulkFrame(st, batch, sourceId, seenAt);
  }

  /** Every article of the batch increments exactly one counter. */
  lemma BulkTotal(st: Store, batch: seq<ParsedArticle>, sourceId: nat, seenAt: Timestamp)
    ensures Total(BulkUpsert(st, batch, sourceId, seenAt).counts) == |batch|
  {
    var d := Dedupe(batch, {});
    if d.unique != [] {
      ApplyTotal(st, d.unique, Prefetch(st, UrlsOf(d.unique)), sourceId, seenAt);
    }
  }

  /** Every article the bulk loop visits increments exactly one counter. */
  lemma {:induction false} ApplyTotal(st: Store, ps: seq<ParsedArticle>, snap: map<string, Article>, sourceId: nat, seenAt: Timestamp)
    ensures Total(ApplyAll(st, ps, snap, sourceId, seenAt).counts) == |ps|
    decreases |ps|
  {
    if ps != [] {
      ApplyTotal(ApplyStep(st, ps[0], snap, sourceId, seenAt).store, ps[1..], snap, sourceId, seenAt);
    }
  }

  /** The bulk loop hands out one id per row it creates. */
  lemma {:induction false} ApplyIds(st: Store, ps: seq<ParsedArticle>, snap: map<string, Article>, sourceId: nat, seenAt: Timestamp)
    ensures var out := ApplyAll(st, ps, snap, sourceId, seenAt);
            out.store.nextId == st.nextId + out.counts.created
    decreases |ps|
  {
    if ps != [] {
      ApplyIds(ApplyStep(st, ps[0], snap, sourceId, seenAt).store, ps[1..], snap, sourceId, seenAt);
    }
  }

  /** A bulk upsert keeps the table valid. */
  lemma BulkValid(st: Store, batch: seq<ParsedArticle>, sourceId: nat, seenAt: Timestamp)
    requires Valid(st)
    ensures Valid(BulkUpsert(st, batch, sourceId, seenAt).store)
  {
    BulkIsFold(st, batch, sourceId, seenAt);
    FoldValid(st, Dedupe(batch, {}).unique, sourceId, seenAt);
  }

  /** The rows a bulk upsert leaves alone: those of URLs outside the batch
      and those owned by another source. */
  lemma BulkFrame(st: Store, batch: seq<ParsedArticle>, sourceId: nat, seenAt: Timestamp)
    ensures forall u :: u !in UrlsOf(batch) ==>
              SameAt(st.articles, BulkUpsert(st, batch, sourceId, seenAt).store.articles, u)
    ensures forall u :: u in st.articles && st.articles[u].sourceId != sourceId ==>
              SameAt(st.articles, BulkUpsert(st, batch, sourceId, seenAt).store.articles, u)
  {
    var d := Dedupe(batch, {});
    var after := BulkUpsert(st, batch, sourceId, seenAt).store;
    assert after == FoldUpsert(st, d.unique, sourceId, seenAt).store by {
      BulkIsFold(st, batch, sourceId, seenAt);
    }
    DedupeUrls(batch, {});
    forall u | u !in UrlsOf(batch)
      ensures SameAt(st.articles, after.articles, u)
    {
      FoldFrame(st, d.unique, sourceId, seenAt, u);
    }
    forall u | u in st.articles && st.articles[u].sourceId != sourceId
      ensures SameAt(st.articles, after.articles, u)
    {
      FoldOtherUnchanged(st, d.unique, sourceId, seenAt, u);
    }
  }

  /** An empty batch changes nothing and counts nothing. */
  lemma EmptyBatch(st: Store, sourceId: nat, seenAt: Timestamp)
    ensures BulkUpsert(st, [], sourceId, seenAt) == Bulk(st, Counts(0, 0, 0))
  {
  }

  // ---------------------------------------------------------------------
  // Idempotence

  /** What every article of `ps` finds in table `st`, tallied. */
  function Tally(st: Store, ps: seq<ParsedArticle>, sourceId: nat): Counts
    decreases |ps|
  {
    if ps == [] then Counts(0, 0, 0)
    else Plus(CountOf(KindOf(st, ps[0], sourceId)), Tally(st, ps[1..], sourceId))
  }

  /** Tables that agree on the URLs of `ps` give the same tally. */
  lemma {:induction false} TallyAgree(s: Store, t: Store, ps: seq<ParsedArticle>, sourceId: nat)
    requires forall i :: 0 <= i < |ps| ==> SameAt(s.articles, t.articles, ps[i].url)
    ensures Tally(s, ps, sourceId) == Tally(t, ps, sourceId)
    decreases |ps|
  {
    if ps != [] {
      assert SameAt(s.articles, t.articles, ps[0].url);
      assert forall i :: 1 <= i < |ps| ==> ps[i] == ps[1..][i - 1];
      TallyAgree(s, t, ps[1..], sourceId);
    }
  }

  /** The first article of a batch and the rest, when URLs are distinct. */
  lemma DistinctTail(ps: seq<ParsedArticle>)
    requires ps != [] && DistinctUrls(ps)
    ensures DistinctUrls(ps[1..])
    ensures ps[0].url !in UrlsOf(ps[1..])
    ensures forall i :: 1 <= i < |ps| ==> ps[i] == ps[1..][i - 1] && ps[i].url != ps[0].url
  {
    var rest := ps[1..];
    forall i, j | 0 <= i < j < |rest| ensures rest[i].url != rest[j].url {
      assert rest[i] == ps[i + 1] && rest[j] == ps[j + 1];
    }
    forall i | 0 <= i < |rest| ensures rest[i].url != ps[0].url {
      assert rest[i] == ps[i + 1];
    }
  }

  /** With distinct URLs, the fold's counters are what each article finds
      in the table as it was before the fold. */
  lemma {:induction false} FoldTally(st: Store, ps: seq<ParsedArticle>, sourceId: nat, seenAt: Timestamp)
    requires DistinctUrls(ps)
    ensures FoldUpsert(st, ps, sourceId, seenAt).counts == Tally(st, ps, sourceId)
    decreases |ps|
  {
    if ps != [] {
      DistinctTail(ps);
      var o := UpsertOne(st, ps[0], sourceId, seenAt);
      FoldTally(o.store, ps[1..], sourceId, seenAt);
      forall i | 0 <= i < |ps[1..]| ensures SameAt(st.articles, o.store.articles, ps[1..][i].url) {
        UpsertFrame(st, ps[0], sourceId, seenAt, ps[1..][i].url);
      }
      TallyAgree(st, o.store, ps[1..], sourceId);
    }
  }

  /** What an article finds on the second run: a URL it created or updated
      is now its own; a URL of another source still is. */
  function Promote(k: Kind): Kind {
    if k == Other then Other else Same
  }

  /** The first article of the batch: its own upsert makes the URL the
      source's, and the rest of the fold leaves that URL alone. */
  lemma FoldKindsHead(st: Store, ps: seq<ParsedArticle>, sourceId: nat, seenAt: Timestamp)
    requires ps != [] && DistinctUrls(ps)
    ensures KindOf(FoldUpsert(st, ps, sourceId, seenAt).store, ps[0], sourceId) == Promote(KindOf(st, ps[0], sourceId))
  {
    DistinctTail(ps);
    var o := UpsertOne(st, ps[0], sourceId, seenAt).store;
    var f := FoldUpsert(o, ps[1..], sourceId, seenAt).store;
    assert FoldUpsert(st, ps, sourceId, seenAt).store == f;
    FoldFrame(o, ps[1..], sourceId, seenAt, ps[0].url);
    KindAgree(o, f, ps[0], sourceId);
    UpsertKind(st, ps[0], sourceId, seenAt);
  }

  /** Folding over a batch is folding over its first `k` articles, then
      over the rest. */
  lemma {:induction false} FoldSplit(st: Store, ps: seq<ParsedArticle>, k: nat, sourceId: nat, seenAt: Timestamp)
    requires k <= |ps|
    ensures FoldUpsert(st, ps, sourceId, seenAt).store ==
            FoldUpsert(FoldUpsert(st, ps[..k], sourceId, seenAt).store, ps[k..], sourceId, seenAt).store
    decreases k
  {
    if k == 0 {
      assert ps[..0] == [] && ps[0..] == ps;
    } else {
      var o := UpsertOne(st, ps[0], sourceId, seenAt).store;
      assert ps[..k][0] == ps[0] && ps[..k][1..] == ps[1..][..k - 1] && ps[1..][k - 1..] == ps[k..];
      FoldSplit(o, ps[1..], k - 1, sourceId, seenAt);
    }
  }

  /** After the fold, every URL of the batch is the source's own, unless it
      belonged to another source before. */
  lemma FoldKinds(st: Store, ps: seq<ParsedArticle>, sourceId: nat, seenAt: Timestamp, i: nat)
    requires DistinctUrls(ps) && i < |ps|
    ensures KindOf(FoldUpsert(st, ps, sourceId, seenAt).store, ps[i], sourceId) == Promote(KindOf(st, ps[i], sourceId))
  {
    var mid := FoldUpsert(st, ps[..i], sourceId, seenAt).store;
    FoldSplit(st, ps, i, sourceId, seenAt);
    FoldPrefixFrame(st, ps, i, sourceId, seenAt);
    KindAgree(st, mid, ps[i], sourceId);
    DistinctSuffix(ps, i);
    FoldKindsHead(mid, ps[i..], sourceId, seenAt);
  }

  /** With distinct URLs, folding over the articles before the `i`-th
      leaves the `i`-th article's row alone. */
  lemma FoldPrefixFrame(st: Store, ps: seq<ParsedArticle>, i: nat, sourceId: nat, seenAt: Timestamp)
    requires DistinctUrls(ps) && i < |ps|
    ensures SameAt(st.articles, FoldUpsert(st, ps[..i], sourceId, seenAt).store.articles, ps[i].url)
  {
    var pre := ps[..i];
    assert ps[i].url !in UrlsOf(pre) by {
      forall j | 0 <= j < |pre| ensures pre[j].url != ps[i].url {
        assert pre[j] == ps[j];
      }
    }
    FoldFrame(st, pre, sourceId, seenAt, ps[i].url);
  }

  /** A suffix of a batch with distinct URLs has distinct URLs. */
  lemma DistinctSuffix(ps: seq<ParsedArticle>, i: nat)
    requires DistinctUrls(ps) && i < |ps|
    ensures DistinctUrls(ps[i..]) && ps[i..] != [] && ps[i..][0] == ps[i]
  {
    var post := ps[i..];
    forall a, b | 0 <= a < b < |post| ensures post[a].url != post[b].url {
      assert post[a] == ps[i + a] && post[b] == ps[i + b];
    }
  }

  /** A tally over promoted kinds: nothing new, the former new and same
      are now same, the others stay skipped. */
  lemma {:induction false} TallyPromoted(s: Store, t: Store, ps: seq<ParsedArticle>, sourceId: nat)
    requires forall i :: 0 <= i < |ps| ==> KindOf(t, ps[i], sourceId) == Promote(KindOf(s, ps[i], sourceId))
    ensures var c := Tally(s, ps, sourceId);
            Tally(t, ps, sourceId) == Counts(0, c.created + c.updated, c.skipped)
    decreases |ps|
  {
    if ps != [] {
      var rest := ps[1..];
      forall i | 0 <= i < |rest|
        ensures KindOf(t, rest[i], sourceId) == Promote(KindOf(s, rest[i], sourceId))
      {
        assert rest[i] == ps[i + 1];
      }
      TallyPromoted(s, t, rest, sourceId);
      PromotedSum(KindOf(s, ps[0], sourceId), Tally(s, rest, sourceId), Tally(t, rest, sourceId));
    }
  }

  /** One promoted kind added to a promoted tally gives a promoted tally. */
  lemma PromotedSum(k: Kind, c: Counts, d: Counts)
    requires d == Counts(0, c.created + c.updated, c.skipped)
    ensures var e := Plus(CountOf(k), c);
            Plus(CountOf(Promote(k)), d) == Counts(0, e.created + e.updated, e.skipped)
  {
    var e := Plus(CountOf(k), c);
    var p := Plus(CountOf(Promote(k)), d);
    assert p.created == 0 && p.updated == e.created + e.updated && p.skipped == e.skipped by {
      match k
      case New =>
      case Same =>
      case Other =>
    }
  }

  /** The fold run twice over the same distinct articles. */
  lemma FoldIdempotent(st: Store, ps: seq<ParsedArticle>, sourceId: nat, seenAt: Timestamp, seenAgain: Timestamp)
    requires DistinctUrls(ps)
    ensures var first := FoldUpsert(st, ps, sourceId, seenAt);
            var second := FoldUpsert(first.store, ps, sourceId, seenAgain);
            second.counts == Counts(0, first.counts.created + first.counts.updated, first.counts.skipped)
  {
    var first := FoldUpsert(st, ps, sourceId, seenAt);
    FoldKindsAll(st, ps, sourceId, seenAt);
    TallyPromoted(st, first.store, ps, sourceId);
    FoldTally(st, ps, sourceId, seenAt);
    FoldTally(first.store, ps, sourceId, seenAgain);
  }

  /** `FoldKinds` for every article of the batch at once. */
  lemma FoldKindsAll(st: Store, ps: seq<ParsedArticle>, sourceId: nat, seenAt: Timestamp)
    requires DistinctUrls(ps)
    ensures var after := FoldUpsert(st, ps, sourceId, seenAt).store;
            forall i :: 0 <= i < |ps| ==> KindOf(after, ps[i], sourceId) == Promote(KindOf(st, ps[i], sourceId))
  {
    forall i | 0 <= i < |ps|
      ensures KindOf(FoldUpsert(st, ps, sourceId, seenAt).store, ps[i], sourceId) == Promote(KindOf(st, ps[i], sourceId))
    {
      FoldKinds(st, ps, sourceId, seenAt, i);
    }
  }

  /** Running the same bulk upsert twice: the second run creates nothing,
      updates everything the first created or updated, and skips what the
      first skipped. */
  lemma BulkIdempotent(st: Store, batch: seq<ParsedArticle>, sourceId: nat, seenAt: Timestamp, seenAgain: Timestamp)
    ensures var first := BulkUpsert(st, batch, sourceId, seenAt);
            var second := BulkUpsert(first.store, batch, sourceId, seenAgain);
            second.counts == Counts(0, first.counts.created + first.counts.updated, first.counts.skipped)
  {
    var d := Dedupe(batch, {});
    var f1 := FoldUpsert(st, d.unique, sourceId, seenAt);
    var f2 := FoldUpsert(f1.store, d.unique, sourceId, seenAgain);
    assert DistinctUrls(d.unique);
    FoldIdempotent(st, d.unique, sourceId, seenAt, seenAgain);
    DroppedStaySkipped(f1.counts, f2.counts, d.dropped);
    BulkIsFold(st, batch, sourceId, seenAt);
    BulkIsFold(f1.store, batch, sourceId, seenAgain);
  }

  /** Adding the same dropped duplicates to both runs' skipped counts keeps
      the relation between them. */
  lemma DroppedStaySkipped(c1: Counts, c2: Counts, dropped: nat)
    requires c2 == Counts(0, c1.created + c1.updated, c1.skipped)
    ensures var first := Plus(c1, Counts(0, 0, dropped));
            Plus(c2, Counts(0, 0, dropped)) == Counts(0, first.created + first.updated, first.skipped)
  {
  }
}

=== FILE: text.dfy ===
/** String helpers with Python's `str` semantics where the model needs them:
    `isspace`, `strip`, `lower` (ASCII letters only), `startswith`,
    `endswith` and `find`. */
module Text {

  /** Python's `str.isspace()` for a single character. */
  predicate IsSpace(c: char) {
    || c == ' ' || c == '\t' || c == '\n' || c == '\r' || c == '\U{0B}' || c == '\U{0C}'
    || ('\U{1C}' <= c <= '\U{1F}') || c == '\U{85}' || c == '\U{A0}' || c == '\U{1680}'
    || ('\U{2000}' <= c <= '\U{200A}') || c == '\U{2028}' || c == '\U{2029}'
    || c == '\U{202F}' || c == '\U{205F}' || c == '\U{3000}'
  }

  /** Every character of `s` is whitespace (vacuously true of ""). */
  predicate AllSpace(s: string) {
    forall i :: 0 <= i < |s| ==> IsSpace(s[i])
  }

  /** `s` has no whitespace at either end. */
  predicate IsTrimmed(s: string) {
    |s| == 0 || (!IsSpace(s[0]) && !IsSpace(s[|s| - 1]))
  }

  /** Number of leading whitespace characters. */
  function LeadingSpaces(s: string): (n: nat)
    ensures n <= |s|
    ensures AllSpace(s[..n])
    ensures n < |s| ==> !IsSpace(s[n])
  {
    if |s| == 0 || !IsSpace(s[0]) then 0 else 1 + LeadingSpaces(s[1..])
  }

  /** End of the content of `s` at or after `lo`: the index after its last
      non-whitespace character, or `lo` if there is none past `lo`. */
  function ContentEnd(s: string, lo: nat): (m: nat)
    requires lo <= |s|
    ensures lo <= m <= |s|
    ensures AllSpace(s[m..])
    ensures m > lo ==> !IsSpace(s[m - 1])
    decreases |s|
  {
    if |s| == lo || !IsSpace(s[|s| - 1]) then |s|
    else
      var m := ContentEnd(s[..|s| - 1], lo);
      assert s[m..] == s[..|s| - 1][m..] + [s[|s| - 1]];
      m
  }

  /** Python's `str.strip()` with no argument: whitespace is dropped from
      the front, then from the back. */
  function Trim(s: string): (t: string)
    ensures IsTrimmed(t)
    ensures |t| <= |s|
    ensures t == "" <==> AllSpace(s)
    ensures forall c :: c in t ==> c in s
    decreases |s|
  {
    if s == "" then ""
    else if IsSpace(s[0]) then
      AllSpaceFront(s);
      Trim(s[1..])
    else if IsSpace(s[|s| - 1]) then
      assert !AllSpace(s);
      assert forall c :: c in s[..|s| - 1] ==> c in s;
      Trim(s[..|s| - 1])
    else s
  }

  /** A non-empty string is all whitespace when its first character is
      and the rest is. */
  lemma AllSpaceFront(s: string)
    requires s != ""
    ensures AllSpace(s) <==> IsSpace(s[0]) && AllSpace(s[1..])
  {
    if IsSpace(s[0]) && AllSpace(s[1..]) {
      forall i | 0 < i < |s| ensures IsSpace(s[i]) { assert s[i] == s[1..][i - 1]; }
    }
  }

  /** Trim is pinned down by any split of `s` into whitespace, a trimmed
      middle and whitespace. */
  lemma {:induction false} TrimSlice(s: string, a: nat, b: nat)
    requires a <= b <= |s|
    requires AllSpace(s[..a]) && AllSpace(s[b..])
    requires IsTrimmed(s[a..b])
    ensures Trim(s) == s[a..b]
    decreases |s|
  {
    if a > 0 {
      DropFront(s, a, b);
      TrimSlice(s[1..], a - 1, b - 1);
      TrimStep(s);
    } else if b == 0 {
      assert s[b..] == s;
    } else {
      assert !IsSpace(s[0]) by { assert s[a..b][0] == s[0]; }
      if b < |s| {
        DropBack(s, b);
        TrimSlice(s[..|s| - 1], 0, b);
        TrimStep(s);
      } else {
        assert s[0..b] == s;
        TrimTrimmed(s);
      }
    }
  }

  /** One step of `Trim`: a leading whitespace character goes first, then
      a trailing one. */
  lemma TrimStep(s: string)
    requires s != ""
    ensures IsSpace(s[0]) ==> Trim(s) == Trim(s[1..])
    ensures !IsSpace(s[0]) && IsSpace(s[|s| - 1]) ==> Trim(s) == Trim(s[..|s| - 1])
  {
  }

  /** A slice of an all-whitespace string is all whitespace. */
  lemma AllSpaceSlice(x: string, i: nat, j: nat)
    requires i <= j <= |x| && AllSpace(x)
    ensures AllSpace(x[i..j])
  {
    forall k | 0 <= k < j - i ensures IsSpace(x[i..j][k]) { assert x[i..j][k] == x[i + k]; }
  }

  /** The split of `TrimSlice` seen from `s[1..]` when `s` has leading
      whitespace. */
  lemma DropFront(s: string, a: nat, b: nat)
    requires 0 < a <= b <= |s|
    requires AllSpace(s[..a]) && AllSpace(s[b..])
    ensures IsSpace(s[0])
    ensures AllSpace(s[1..][..a - 1]) && AllSpace(s[1..][b - 1..])
    ensures s[1..][a - 1..b - 1] == s[a..b]
  {
    assert s[..a][0] == s[0];
    assert s[1..][..a - 1] == s[..a][1..a];
    AllSpaceSlice(s[..a], 1, a);
    assert s[1..][b - 1..] == s[b..];
  }

  /** The split of `TrimSlice` seen from `s[..|s| - 1]` when `s` has
      trailing whitespace after position `b`. */
  lemma DropBack(s: string, b: nat)
    requires b < |s| && AllSpace(s[b..])
    ensures IsSpace(s[|s| - 1])
    ensures AllSpace(s[..|s| - 1][..0]) && AllSpace(s[..|s| - 1][b..])
    ensures s[..|s| - 1][0..b] == s[0..b]
  {
    assert s[b..][|s| - 1 - b] == s[|s| - 1];
    assert s[..|s| - 1][b..] == s[b..][0..|s| - 1 - b];
    AllSpaceSlice(s[b..], 0, |s| - 1 - b);
  }

  /** The trimmed middle of `s` lies between its leading and its trailing
      whitespace. */
  lemma TrimBounds(s: string)
    ensures var a := LeadingSpaces(s);
            var b := ContentEnd(s, a);
            && AllSpace(s[..a]) && AllSpace(s[b..]) && IsTrimmed(s[a..b])
            && Trim(s) == s[a..b]
  {
    var a := LeadingSpaces(s);
    var b := ContentEnd(s, a);
    assert IsTrimmed(s[a..b]) by {
      if a < b {
        assert s[a..b][0] == s[a];
        assert s[a..b][b - a - 1] == s[b - 1];
      }
    }
    TrimSlice(s, a, b);
  }

  /** Whitespace padding on either side does not change `strip()`. */
  lemma TrimPadding(w1: string, x: string, w2: string)
    requires AllSpace(w1) && AllSpace(w2)
    ensures Trim(w1 + x + w2) == Trim(x)
  {
    var a := LeadingSpaces(x);
    var b := ContentEnd(x, a);
    assert AllSpace(x[..a]) && AllSpace(x[b..]) && IsTrimmed(x[a..b]) && Trim(x) == x[a..b] by {
      TrimBounds(x);
    }
    var p, q := w1 + x[..a], x[b..] + w2;
    assert AllSpace(p) && AllSpace(q) by {
      AllSpaceConcat(w1, x[..a]);
      AllSpaceConcat(x[b..], w2);
    }
    assert Trim(p + x[a..b] + q) == x[a..b] by { TrimParts(p, x[a..b], q); }
    Regroup(w1, x, w2, a, b);
  }

  /** A padded string cut around `x[a..b]`. */
  lemma Regroup(w1: string, x: string, w2: string, a: nat, b: nat)
    requires a <= b <= |x|
    ensures w1 + x + w2 == (w1 + x[..a]) + x[a..b] + (x[b..] + w2)
  {
    assert x == x[..a] + x[a..b] + x[b..];
  }

  /** `strip()` of a trimmed string between two runs of whitespace. */
  lemma TrimParts(p: string, m: string, q: string)
    requires AllSpace(p) && AllSpace(q) && IsTrimmed(m)
    ensures Trim(p + m + q) == m
  {
    var s := p + m + q;
    assert s[..|p|] == p && s[|p| + |m|..] == q && s[|p|..|p| + |m|] == m;
    TrimSlice(s, |p|, |p| + |m|);
  }

  /** A concatenation is all whitespace exactly when both parts are. */
  lemma AllSpaceConcat(a: string, b: string)
    ensures AllSpace(a + b) <==> AllSpace(a) && AllSpace(b)
  {
    if AllSpace(a + b) {
      forall i | 0 <= i < |a| ensures IsSpace(a[i]) { assert a[i] == (a + b)[i]; }
      forall i | 0 <= i < |b| ensures IsSpace(b[i]) { assert b[i] == (a + b)[|a| + i]; }
    }
    if AllSpace(a) && AllSpace(b) {
      forall i | 0 <= i < |a + b| ensures IsSpace((a + b)[i]) {
        if i < |a| { assert (a + b)[i] == a[i]; } else { assert (a + b)[i] == b[i - |a|]; }
      }
    }
  }

  /** A trimmed string is its own `strip()`. */
  lemma TrimTrimmed(s: string)
    requires IsTrimmed(s)
    ensures Trim(s) == s
  {
  }

  /** Two trimmed strings, concatenated, stay trimmed. */
  lemma ConcatTrimmed(a: string, b: string)
    requires IsTrimmed(a) && IsTrimmed(b)
    ensures IsTrimmed(a + b)
  {
  }

  /** `strip()` keeps a prefix that starts and ends with non-whitespace. */
  lemma TrimKeepsPrefix(a: string, b: string)
    requires a != "" && IsTrimmed(a)
    ensures StartsWith(Trim(a + b), a)
    ensures Trim(a + b) == (a + b)[..|Trim(a + b)|]
  {
    var x := a + b;
    var lead := LeadingSpaces(x);
    assert lead == 0 by { assert x[0] == a[0]; }
    var e := ContentEnd(x, 0);
    assert forall j :: e <= j < |x| ==> IsSpace(x[j]) by {
      forall j | e <= j < |x| ensures IsSpace(x[j]) { assert x[j] == x[e..][j - e]; }
    }
    assert !IsSpace(x[|a| - 1]) by { assert x[|a| - 1] == a[|a| - 1]; }
    TrimBounds(x);
    assert Trim(x) == x[..e];
    assert x[..e][..|a|] == a;
  }

  function LowerChar(c: char): char {
    if 'A' <= c <= 'Z' then (c as int + 32) as char else c
  }

  /** Python's `str.lower()` restricted to ASCII letters. */
  function Lower(s: string): (r: string)
    ensures |r| == |s|
    ensures forall i :: 0 <= i < |s| ==> r[i] == LowerChar(s[i])
  {
    seq(|s|, i requires 0 <= i < |s| => LowerChar(s[i]))
  }

  /** Concatenation regroups freely. */
  lemma ConcatAssoc(a: string, b: string, c: string)
    ensures a + b + c == a + (b + c)
  {
  }

  /** A string with no upper-case ASCII letter is its own lower-case form. */
  lemma LowerOfLowercase(s: string)
    requires forall k :: 0 <= k < |s| ==> !('A' <= s[k] <= 'Z')
    ensures Lower(s) == s
  {
  }

  /** Lowercasing twice is lowercasing once. */
  lemma LowerIdempotent(s: string)
    ensures Lower(Lower(s)) == Lower(s)
  {
    LowerOfLowercase(Lower(s));
  }

  predicate StartsWith(s: string, prefix: string) {
    |prefix| <= |s| && s[..|prefix|] == prefix
  }

  predicate EndsWith(s: string, suffix: string) {
    |suffix| <= |s| && s[|s| - |suffix|..] == suffix
  }

  /** `sub` occurs in `s` starting at index `i`. */
  predicate OccursAt(s: string, sub: string, i: int) {
    0 <= i <= |s| - |sub| && s[i..i + |sub|] == sub
  }

  /** Python's `sub in s` for strings. */
  predicate Contains(s: string, sub: string) {
    exists i :: 0 <= i <= |s| - |sub| && OccursAt(s, sub, i)
  }

  /** Index of the first character of `s` in `stops`, or `|s|` if none
      (Python's `find`, with "not found" reported as the length). */
  function IndexOfAny(s: string, stops: set<char>): (i: nat)
    ensures i <= |s|
    ensures forall k :: 0 <= k < i ==> s[k] !in stops
    ensures i < |s| ==> s[i] in stops
  {
    if |s| == 0 || s[0] in stops then 0 else 1 + IndexOfAny(s[1..], stops)
  }

  /** Index of the first whitespace character of `s`, or `|s|`. */
  function IndexOfSpace(s: string): (i: nat)
    ensures i <= |s|
    ensures forall k :: 0 <= k < i ==> !IsSpace(s[k])
    ensures i < |s| ==> IsSpace(s[i])
  {
    if |s| == 0 || IsSpace(s[0]) then 0 else 1 + IndexOfSpace(s[1..])
  }

  /** The first stop character of a concatenation is found in the left part
      when it has one, and otherwise in the right part. */
  lemma {:induction false} IndexOfAnyConcat(a: string, b: string, stops: set<char>)
    ensures IndexOfAny(a, stops) < |a| ==> IndexOfAny(a + b, stops) == IndexOfAny(a, stops)
    ensures IndexOfAny(a, stops) == |a| ==> IndexOfAny(a + b, stops) == |a| + IndexOfAny(b, stops)
  {
    if |a| > 0 {
      assert (a + b)[1..] == a[1..] + b;
      IndexOfAnyConcat(a[1..], b, stops);
    } else {
      assert a + b == b;
    }
  }

  /** A string without any stop character reports its own length. */
  lemma IndexOfAnyAbsent(s: string, stops: set<char>)
    requires forall k :: 0 <= k < |s| ==> s[k] !in stops
    ensures IndexOfAny(s, stops) == |s|
  {
  }
}

=== FILE: urls.dfy ===
/** Article-URL resolution (`parsers/utils/url.py`), over a model of the
    parts of Python's `urllib.parse` that it relies on: `urlsplit`,
    `urlunsplit` and the `urljoin` cases a front page produces (absolute,
    protocol-relative, root-relative and plain relative references). */
module Urls {
  import opened Wrappers
  import opened Text

  /** The five components `urlsplit` yields. */
  datatype Url = Url(scheme: string, netloc: string, path: string, query: string, fragment: string)

  /** Schemes for which `urljoin` resolves relative references. */
  const UsesRelative: set<string> :=
    {"", "ftp", "http", "gopher", "nntp", "imap", "wais", "file", "https", "shttp", "mms",
     "prospero", "rtsp", "rtsps", "rtspu", "sftp", "svn", "svn+ssh", "ws", "wss"}

  /** Schemes whose URLs carry a network location after "//". */
  const UsesNetloc: set<string> :=
    {"", "ftp", "http", "gopher", "nntp", "telnet", "imap", "wais", "file", "mms", "https",
     "shttp", "snews", "prospero", "rtsp", "rtsps", "rtspu", "rsync", "svn", "svn+ssh", "sftp",
     "nfs", "git", "git+ssh", "ws", "wss", "itms-services"}

  predicate IsAsciiAlpha(c: char) {
    'a' <= c <= 'z' || 'A' <= c <= 'Z'
  }

  predicate IsSchemeChar(c: char) {
    IsAsciiAlpha(c) || '0' <= c <= '9' || c == '+' || c == '-' || c == '.'
  }

  /** What `urlsplit` accepts as a scheme before the first ':'. */
  predicate IsSchemeName(s: string) {
    |s| > 0 && IsAsciiAlpha(s[0]) && forall k :: 0 <= k < |s| ==> IsSchemeChar(s[k])
  }

  /** No '?' and no '#': nothing a query or fragment split could cut. */
  predicate Clean(s: string) {
    forall k :: 0 <= k < |s| ==> s[k] != '?' && s[k] != '#'
  }

  /** No '/', '?' or '#': what a network location can hold. */
  predicate NoDelims(s: string) {
    forall k :: 0 <= k < |s| ==> s[k] != '/' && s[k] != '?' && s[k] != '#'
  }

  /** No '#': what a query can hold, since the fragment starts at the
      first '#'. */
  predicate NoHash(s: string) {
    forall k :: 0 <= k < |s| ==> s[k] != '#'
  }

  /** A tail that begins where a query or fragment begins. */
  predicate IsQueryOrFragmentTail(q: string) {
    q == "" || q[0] == '?' || q[0] == '#'
  }

  predicate SameTarget(u: Url, v: Url) {
    u.scheme == v.scheme && u.netloc == v.netloc && u.path == v.path
  }

  /** Scheme detection: the text before the first ':' when it is a scheme
      name (lower-cased), otherwise `default` and the whole input. */
  function SplitScheme(s: string, default: string): (r: (string, string))
    ensures Clean(default) ==> Clean(r.0)
    ensures Clean(s) ==> Clean(r.1)
    ensures r.0 == default || IsSchemeName(r.0)
    ensures (r.0 == default && r.1 == s) ||
            (0 < |r.0| < |s| && s[|r.0|] == ':' && r.0 == Lower(s[..|r.0|]) && r.1 == s[|r.0| + 1..])
  {
    var i := IndexOfAny(s, {':'});
    if 0 < i < |s| && IsSchemeName(s[..i]) then
      assert Clean(Lower(s[..i]));
      (Lower(s[..i]), s[i + 1..])
    else (default, s)
  }

  /** The network location after a leading "//", up to the first '/', '?'
      or '#'. */
  function SplitNetloc(s: string): (r: (string, string))
    ensures NoDelims(r.0)
    ensures r.0 != "" ==> r.1 == "" || r.1[0] in {'/', '?', '#'}
    ensures Clean(s) ==> Clean(r.1)
  {
    if |s| >= 2 && s[0] == '/' && s[1] == '/' then
      var t := s[2..];
      var i := IndexOfAny(t, {'/', '?', '#'});
      (t[..i], t[i..])
    else ("", s)
  }

  /** Python's `s.split(c, 1)` when `c in s`, and `(s, "")` otherwise. */
  function SplitOnce(s: string, c: char): (r: (string, string))
    ensures forall k :: 0 <= k < |r.0| ==> r.0[k] != c
    ensures |r.0| <= |s| && r.0 == s[..|r.0|]
  {
    var i := IndexOfAny(s, {c});
    if i < |s| then (s[..i], s[i + 1..]) else (s, "")
  }

  /** The path that the fragment and query splits leave of `rest`. */
  function PathOf(rest: string): (p: string)
    ensures Clean(p)
    ensures |p| <= |rest| && p == rest[..|p|]
  {
    var (beforeFragment, _) := SplitOnce(rest, '#');
    SplitOnce(beforeFragment, '?').0
  }

  /** `urlsplit(s, scheme=defaultScheme)`. */
  function SplitUrl(s: string, defaultScheme: string): (u: Url)
    ensures Clean(defaultScheme) ==> Clean(u.scheme)
    ensures NoDelims(u.netloc)
    ensures Clean(u.path)
    ensures u.netloc != "" ==> u.path == "" || u.path[0] == '/'
  {
    var (scheme, afterScheme) := SplitScheme(s, defaultScheme);
    var (netloc, afterNetloc) := SplitNetloc(afterScheme);
    var (beforeFragment, fragment) := SplitOnce(afterNetloc, '#');
    var (path, query) := SplitOnce(beforeFragment, '?');
    assert path == PathOf(afterNetloc);
    Url(scheme, netloc, path, query, fragment)
  }

  /** Scheme, "//netloc" and path as `urlunsplit` writes them. */
  function GetUrlHead(scheme: string, netloc: string, path: string): string {
    var p :=
      if netloc != "" || (scheme != "" && scheme in UsesNetloc && !StartsWith(path, "//")) then
        "//" + netloc + (if path != "" && path[0] != '/' then "/" + path else path)
      else path;
    if scheme != "" then scheme + ":" + p else p
  }

  /** Query and fragment as `urlunsplit` appends them (empty ones are dropped). */
  function GetUrlTail(query: string, fragment: string): (t: string)
    ensures IsQueryOrFragmentTail(t)
  {
    (if query != "" then "?" + query else "") + (if fragment != "" then "#" + fragment else "")
  }

  /** `urlunsplit(u)`, which is what `geturl()` returns. */
  function GetUrl(u: Url): (s: string)
    ensures u.scheme != "" ==> StartsWith(s, u.scheme + ":")
  {
    var h := GetUrlHead(u.scheme, u.netloc, u.path);
    var x := u.scheme + ":";
    assert u.scheme != "" ==> h[..|x|] == x && (h + GetUrlTail(u.query, u.fragment))[..|x|] == h[..|x|];
    h + GetUrlTail(u.query, u.fragment)
  }

  /** Index just past the last '/' of `s`, or 0 when there is none. */
  function LastSlashEnd(s: string): (i: nat)
    ensures i <= |s|
  {
    if |s| == 0 then 0 else if s[|s| - 1] == '/' then |s| else LastSlashEnd(s[..|s| - 1])
  }

  /** The base path that a plain relative reference is appended to: every
      segment but the last, so "/a/b" gives "/a/" and "" gives "/". */
  function Directory(basePath: string): (d: string)
    ensures Clean(basePath) ==> Clean(d)
  {
    if basePath == "" then "/" else basePath[..LastSlashEnd(basePath)]
  }

  /** The URL `urljoin` builds from a split base `b` and a split reference
      `r` that uses the base's scheme. Dot segments and repeated slashes in
      the joined path are kept as they are (see README). */
  function JoinParts(b: Url, r: Url): (u: Url)
    ensures u.scheme == r.scheme
    ensures Clean(b.netloc) && Clean(b.path) && Clean(r.netloc) && Clean(r.path) ==>
              Clean(u.netloc) && Clean(u.path)
  {
    if r.scheme in UsesNetloc && r.netloc != "" then r
    else
      var netloc := if r.scheme in UsesNetloc then b.netloc else r.netloc;
      if r.path == "" then
        Url(r.scheme, netloc, b.path, if r.query == "" then b.query else r.query, r.fragment)
      else if r.path[0] == '/' then r.(netloc := netloc)
      else
        var merged := Directory(b.path) + r.path;
        assert Clean(Directory(b.path)) && Clean(r.path) ==> Clean(merged);
        r.(netloc := netloc, path := merged)
  }

  /** `urljoin(base, ref)`. A reference with a scheme of its own that is
      not the base's, or that `urljoin` does not resolve against (such as
      "mailto:" or "javascript:"), comes back unchanged. */
  function UrlJoin(base: string, ref: string): (j: string)
    ensures var sc := SplitUrl(ref, "").scheme;
            sc != "" && (sc != SplitUrl(base, "").scheme || sc !in UsesRelative) ==> j == ref
  {
    if base == "" then ref
    else if ref == "" then base
    else
      var b := SplitUrl(base, "");
      var r := SplitUrl(ref, b.scheme);
      if r.scheme != b.scheme || r.scheme !in UsesRelative then ref
      else GetUrl(JoinParts(b, r))
  }

  function LowerAll(hosts: set<string>): set<string> {
    set h | h in hosts :: Lower(h)
  }

  /** `_is_allowed_host`: the host is one of `allowed`, or a subdomain of
      one (it ends with "." followed by an allowed host). Equivalently, the
      host's labels end with the labels of an allowed host. */
  function IsAllowedHost(host: string, allowed: set<string>): (b: bool)
    ensures b <==> exists a :: a in allowed && EndsWith("." + host, "." + a)
  {
    AllowedByLabels(host, allowed);
    host in allowed || exists a :: a in allowed && EndsWith(host, "." + a)
  }

  /** A host is an allowed host or a subdomain of it exactly when, with a
      '.' put in front of both, it ends with the allowed host. */
  lemma DotSuffix(host: string, a: string)
    ensures (host == a || EndsWith(host, "." + a)) <==> EndsWith("." + host, "." + a)
  {
    var x, y := "." + host, "." + a;
    if EndsWith(host, y) {
      assert x[|x| - |y|..] == host[|host| - |y|..];
    }
    if EndsWith(x, y) {
      if |a| == |host| {
        assert x == y;
        assert host == x[1..] && a == y[1..];
      } else {
        assert host[|host| - |y|..] == x[|x| - |y|..];
      }
    }
  }

  lemma AllowedByLabels(host: string, allowed: set<string>)
    ensures (host in allowed || exists a :: a in allowed && EndsWith(host, "." + a)) <==>
            exists a :: a in allowed && EndsWith("." + host, "." + a)
  {
    forall a | a in allowed {
      DotSuffix(host, a);
    }
    if host in allowed {
      assert EndsWith("." + host, "." + host);
    }
  }

  /** A subdomain of an allowed host is allowed too. */
  lemma SubdomainAllowed(sub: string, host: string, allowed: set<string>)
    requires IsAllowedHost(host, allowed)
    ensures IsAllowedHost(sub + "." + host, allowed)
  {
    var a :| a in allowed && EndsWith("." + host, "." + a);
    var x := "." + (sub + "." + host);
    assert x == "." + sub + ("." + host);
    assert x[|x| - |"." + host|..] == "." + host;
    assert x[|x| - |"." + a|..] == ("." + host)[|"." + host| - |"." + a|..];
  }

  /** A host that merely ends with the text of an allowed host, without a
      '.' before it, is not allowed: "notlanacion.com.ar" is not a
      subdomain of "lanacion.com.ar". */
  lemma LookalikeRejected()
    ensures !IsAllowedHost("notlanacion.com.ar", {"lanacion.com.ar"})
  {
    var x, y := "." + "notlanacion.com.ar", "." + "lanacion.com.ar";
    assert x[|x| - |y|] == 't' != y[0];
  }

  /** `resolve_url(base_url, allowed_hosts, href)`: the canonical article
      URL for `href`, or None when it is rejected. */
  function ResolveUrl(base: string, allowedHosts: set<string>, href: string): (r: Option<string>)
    ensures Trim(href) == "" || Trim(href)[0] == '#' ==> r.None?
    ensures r.Some? ==> Clean(r.value)
    ensures r.Some? ==> StartsWith(r.value, "http://") || StartsWith(r.value, "https://")
  {
    var stripped := Trim(href);
    if stripped == "" || stripped[0] == '#' then None
    else
      var parsed := SplitUrl(UrlJoin(base, stripped), "");
      if parsed.scheme != "http" && parsed.scheme != "https" then None
      else if !IsAllowedHost(Lower(parsed.netloc), LowerAll(allowedHosts)) then None
      else if parsed.path == "" || parsed.path == "/" then None
      else
        var out := parsed.(query := "", fragment := "");
        OutputShape(out);
        Some(GetUrl(out))
  }

  /** An http(s) URL is not blank: it starts with 'h'. */
  lemma HttpNotBlank(s: string)
    requires StartsWith(s, "http://") || StartsWith(s, "https://")
    ensures s != "" && s[0] == 'h' && !AllSpace(s)
  {
    assert s[0] == s[..4][0];
  }

  /** What a resolved URL looks like from outside: an http(s) prefix and no
      '?' or '#'. */
  lemma OutputShape(u: Url)
    requires u.scheme == "http" || u.scheme == "https"
    requires u.query == "" && u.fragment == ""
    requires NoDelims(u.netloc) && Clean(u.path)
    ensures Clean(GetUrl(u))
    ensures StartsWith(GetUrl(u), "http://") || StartsWith(GetUrl(u), "https://")
  {
    CanonicalGetUrl(u);
    assert u.scheme + "://" == "http://" || u.scheme + "://" == "https://";
  }

  lemma CleanConcat(a: string, b: string)
    requires Clean(a) && Clean(b)
    ensures Clean(a + b)
  {
    assert forall k :: 0 <= k < |a + b| ==> (a + b)[k] == if k < |a| then a[k] else b[k - |a|];
  }

  /** How `urlunsplit` writes a URL of a netloc-using scheme with no query
      or fragment: "//" + netloc goes in front of the path (with a '/' put
      in front of a path that lacks one) except when the netloc is empty
      and the path already starts with "//". */
  lemma GetUrlNoTail(u: Url)
    requires u.scheme != "" && u.scheme in UsesNetloc
    requires u.query == "" && u.fragment == ""
    ensures u.netloc != "" || !StartsWith(u.path, "//") ==>
      GetUrl(u) == u.scheme + ":" + ("//" + u.netloc
                   + (if u.path != "" && u.path[0] != '/' then "/" + u.path else u.path))
    ensures u.netloc == "" && StartsWith(u.path, "//") ==> GetUrl(u) == u.scheme + ":" + u.path
  {
    assert GetUrlTail("", "") == "";
  }

  /** An http(s) URL without query or fragment is written as
      scheme + "://" + netloc + path (a '/' put in front of a path that
      lacks one), except that an empty netloc before a "//" path writes no
      "//" of its own; either way nothing in it is a '?' or a '#'. */
  lemma CanonicalGetUrl(u: Url)
    requires u.scheme == "http" || u.scheme == "https"
    requires u.query == "" && u.fragment == ""
    requires NoDelims(u.netloc) && Clean(u.path)
    ensures u.netloc != "" || !StartsWith(u.path, "//") ==>
      GetUrl(u) == u.scheme + "://" + u.netloc
                   + (if u.path != "" && u.path[0] != '/' then "/" + u.path else u.path)
    ensures Clean(GetUrl(u))
    ensures StartsWith(GetUrl(u), u.scheme + "://")
  {
    WebSchemes(u.scheme);
    GetUrlNoTail(u);
    var p := if u.path != "" && u.path[0] != '/' then "/" + u.path else u.path;
    if u.netloc != "" || !StartsWith(u.path, "//") {
      CanonicalWithSlashes(u.scheme, u.netloc, u.path, p);
    } else {
      CanonicalRest(u.netloc, u.path, p, u.path);
      CleanConcat(u.scheme + ":", u.path);
      SchemeSlashes(u.scheme, u.path);
    }
  }

  /** The http and https schemes carry a network location and hold no
      query or fragment delimiter. */
  lemma WebSchemes(scheme: string)
    requires scheme == "http" || scheme == "https"
    ensures scheme != "" && scheme in UsesNetloc && Clean(scheme + ":")
  {
  }

  /** The "scheme://netloc/path" case of `CanonicalGetUrl`. */
  lemma CanonicalWithSlashes(scheme: string, netloc: string, path: string, p: string)
    requires Clean(scheme + ":") && NoDelims(netloc) && Clean(path)
    requires netloc != "" || !StartsWith(path, "//")
    requires p == if path != "" && path[0] != '/' then "/" + path else path
    ensures var s := scheme + ":" + ("//" + netloc + p);
            s == scheme + "://" + netloc + p && Clean(s) && StartsWith(s, scheme + "://")
  {
    var rest := "//" + netloc + p;
    CanonicalRest(netloc, path, p, rest);
    CleanConcat(scheme + ":", rest);
    SchemeSlashes(scheme, rest);
    ColonSlashes(scheme, netloc, p);
  }

  lemma ColonSlashes(scheme: string, netloc: string, p: string)
    ensures scheme + ":" + ("//" + netloc + p) == scheme + "://" + netloc + p
  {
    assert ":" + "//" == "://";
  }

  /** What follows "scheme:" in a canonical URL: clean, and starting with
      "//". */
  lemma CanonicalRest(netloc: string, path: string, p: string, rest: string)
    requires NoDelims(netloc) && Clean(path)
    requires p == if path != "" && path[0] != '/' then "/" + path else path
    requires rest == if netloc != "" || !StartsWith(path, "//") then "//" + netloc + p else path
    ensures Clean(rest) && StartsWith(rest, "//")
  {
    if netloc != "" || !StartsWith(path, "//") {
      if path != "" && path[0] != '/' {
        CleanConcat("/", path);
      }
      CleanConcat("//", netloc);
      CleanConcat("//" + netloc, p);
      assert rest[..2] == "//";
    }
  }

  /** "scheme:" followed by "//…" starts with "scheme://". */
  lemma SchemeSlashes(scheme: string, rest: string)
    requires StartsWith(rest, "//")
    ensures StartsWith(scheme + ":" + rest, scheme + "://")
  {
    assert (scheme + ":" + rest)[..|scheme| + 3] == scheme + ":" + rest[..2];
  }

  // ---------------------------------------------------------------------
  // Canonical URLs: splitting, joining and resolving "scheme://netloc/path"

  /** A scheme name followed by ':' is recognised as the scheme, whatever
      follows. */
  lemma SplitSchemeOf(sc: string, rest: string, d: string)
    requires IsSchemeName(sc)
    ensures SplitScheme(sc + ":" + rest, d) == (Lower(sc), rest)
  {
    var x := sc + ":" + rest;
    IndexOfAnyAbsent(sc, {':'});
    IndexOfAnyConcat(sc, ":" + rest, {':'});
    assert x == sc + (":" + rest);
    assert IndexOfAny(x, {':'}) == |sc|;
    assert x[..|sc|] == sc;
    assert x[|sc| + 1..] == rest;
  }

  /** "//" + netloc + path splits into netloc and path. */
  lemma SplitNetlocOf(n: string, p: string)
    requires NoDelims(n)
    requires p == "" || p[0] == '/'
    ensures SplitNetloc("//" + n + p) == (n, p)
  {
    var rest := "//" + n + p;
    var t := rest[2..];
    assert t == n + p;
    IndexOfAnyAbsent(n, {'/', '?', '#'});
    IndexOfAnyConcat(n, p, {'/', '?', '#'});
    assert t[..|n|] == n && t[|n|..] == p;
  }

  /** A clean remainder is all path. */
  lemma SplitCleanRest(p: string)
    requires Clean(p)
    ensures SplitOnce(p, '#') == (p, "")
    ensures SplitOnce(p, '?') == (p, "")
  {
    IndexOfAnyAbsent(p, {'#'});
    IndexOfAnyAbsent(p, {'?'});
  }

  /** Splitting "scheme://netloc" + path gives back exactly those parts. */
  lemma SplitCanonical(sch: string, n: string, p: string, d: string)
    requires sch == "http" || sch == "https"
    requires n != "" && NoDelims(n)
    requires Clean(p) && (p == "" || p[0] == '/')
    ensures SplitUrl(sch + "://" + n + p, d) == Url(sch, n, p, "", "")
  {
    var rest := "//" + n + p;
    assert sch + "://" + n + p == sch + ":" + rest;
    SplitSchemeOf(sch, rest, d);
    LowerOfLowercase(sch);
    SplitNetlocOf(n, p);
    SplitCleanRest(p);
  }

  /** Writing out a canonical URL and splitting it are inverse. */
  lemma WriteCanonical(sch: string, n: string, p: string)
    requires sch == "http" || sch == "https"
    requires n != "" && NoDelims(n)
    requires Clean(p) && (p == "" || p[0] == '/')
    ensures GetUrl(Url(sch, n, p, "", "")) == sch + "://" + n + p
  {
    CanonicalGetUrl(Url(sch, n, p, "", ""));
  }

  /** `urljoin` leaves an absolute canonical URL as it is, whatever the base. */
  lemma JoinCanonical(base: string, sch: string, n: string, p: string)
    requires sch == "http" || sch == "https"
    requires n != "" && NoDelims(n)
    requires Clean(p) && (p == "" || p[0] == '/')
    ensures UrlJoin(base, sch + "://" + n + p) == sch + "://" + n + p
  {
    var x := sch + "://" + n + p;
    if base != "" {
      var b := SplitUrl(base, "");
      SplitCanonical(sch, n, p, b.scheme);
      WriteCanonical(sch, n, p);
      assert sch in UsesRelative && sch in UsesNetloc;
    }
  }

  /** An absolute http(s) URL with a non-root path and no query or fragment
      is returned unchanged when its host (in any letter case) is an allowed
      host or a subdomain of one, and rejected otherwise. */
  lemma AbsoluteUrlResolution(base: string, hosts: set<string>, sch: string, n: string, p: string)
    requires sch == "http" || sch == "https"
    requires n != "" && NoDelims(n)
    requires Clean(p) && |p| > 1 && p[0] == '/' && !IsSpace(p[|p| - 1])
    ensures ResolveUrl(base, hosts, sch + "://" + n + p)
            == if IsAllowedHost(Lower(n), LowerAll(hosts)) then Some(sch + "://" + n + p) else None
  {
    var x := sch + "://" + n + p;
    assert x[0] == 'h' && x[|x| - 1] == p[|p| - 1];
    TrimTrimmed(x);
    JoinCanonical(base, sch, n, p);
    SplitCanonical(sch, n, p, "");
    WriteCanonical(sch, n, p);
  }

  /** A URL whose scheme, host and path are given and whose path is "" or
      "/" is rejected. */
  lemma RootPathRejected(base: string, hosts: set<string>, sch: string, n: string, p: string)
    requires sch == "http" || sch == "https"
    requires n != "" && NoDelims(n) && !IsSpace(n[|n| - 1])
    requires p == "" || p == "/"
    ensures ResolveUrl(base, hosts, sch + "://" + n + p) == None
  {
    var x := sch + "://" + n + p;
    assert x[0] == 'h' && x[|x| - 1] == (if p == "" then n[|n| - 1] else '/');
    TrimTrimmed(x);
    JoinCanonical(base, sch, n, p);
    SplitCanonical(sch, n, p, "");
  }

  /** A path with no scheme and no "//" in front splits into the path alone
      (the scheme coming from the default). */
  lemma SplitPathOnly(p: string, d: string)
    requires Clean(p) && p != "" && p[0] == '/' && !StartsWith(p, "//")
    ensures SplitUrl(p, d) == Url(d, "", p, "", "")
  {
    var i := IndexOfAny(p, {':'});
    assert !(0 < i < |p| && IsSchemeName(p[..i])) by {
      if 0 < i < |p| { assert p[..i][0] == '/'; }
    }
    assert SplitScheme(p, d) == (d, p);
    assert SplitNetloc(p) == ("", p);
    SplitCleanRest(p);
  }

  /** A reference that starts with '/' has no scheme of its own: it takes
      the default. */
  lemma SchemeOfSlashPath(p: string, d: string)
    requires p != "" && p[0] == '/'
    ensures SplitUrl(p, d).scheme == d
  {
    var i := IndexOfAny(p, {':'});
    assert !(0 < i < |p| && IsSchemeName(p[..i])) by {
      if 0 < i < |p| { assert p[..i][0] == '/'; }
    }
    assert SplitScheme(p, d) == (d, p);
  }

  /** `urlunsplit` writes a non-empty scheme and ':' first. */
  lemma GetUrlSchemePrefix(u: Url)
    requires u.scheme != ""
    ensures StartsWith(GetUrl(u), u.scheme + ":")
  {
    var h := GetUrlHead(u.scheme, u.netloc, u.path);
    var x := u.scheme + ":";
    assert h[..|x|] == x;
    assert GetUrl(u)[..|x|] == h[..|x|];
  }

  /** Joining any reference that starts with '/' to a site's base keeps the
      base's scheme. */
  lemma JoinSlashKeepsScheme(sch: string, n: string, p: string)
    requires sch == "http" || sch == "https"
    requires n != "" && NoDelims(n)
    requires p != "" && p[0] == '/'
    ensures StartsWith(UrlJoin(sch + "://" + n, p), sch + ":")
  {
    var base := sch + "://" + n;
    assert base == sch + "://" + n + "";
    SplitCanonical(sch, n, "", "");
    SchemeOfSlashPath(p, sch);
    var r := SplitUrl(p, sch);
    assert sch in UsesRelative;
    GetUrlSchemePrefix(JoinParts(Url(sch, n, "", "", ""), r));
  }

  /** `urljoin` of a site's base "scheme://host" and a root-relative path
      is the base followed by the path. */
  lemma JoinRootRelative(sch: string, n: string, p: string)
    requires sch == "http" || sch == "https"
    requires n != "" && NoDelims(n)
    requires Clean(p) && p != "" && p[0] == '/' && !StartsWith(p, "//")
    ensures UrlJoin(sch + "://" + n, p) == sch + "://" + n + p
  {
    JoinRootRelativeTail(sch, n, p, "", "");
    assert p + GetUrlTail("", "") == p;
  }

  /** The same with a query and a fragment: "/path?query#fragment", written
      as `urlunsplit` writes it, follows the base unchanged. */
  lemma JoinRootRelativeTail(sch: string, n: string, p: string, query: string, fragment: string)
    requires sch == "http" || sch == "https"
    requires n != "" && NoDelims(n)
    requires Clean(p) && p != "" && p[0] == '/' && !StartsWith(p, "//") && NoHash(query)
    ensures var t := GetUrlTail(query, fragment);
            UrlJoin(sch + "://" + n, p + t) == sch + "://" + n + p + t
  {
    var base := sch + "://" + n;
    var t := GetUrlTail(query, fragment);
    assert base == sch + "://" + n + "";
    SplitCanonical(sch, n, "", "");
    SplitRootRelative(p, query, fragment, sch);
    assert sch in UsesRelative && sch in UsesNetloc;
    assert JoinParts(Url(sch, n, "", "", ""), Url(sch, "", p, query, fragment)) == Url(sch, n, p, query, fragment);
    WriteCanonical(sch, n, p);
    assert GetUrlHead(sch, n, p) == base + p;
  }

  /** "/path?query#fragment", written as `urlunsplit` writes it, splits back
      into its path, query and fragment, with the default scheme. */
  lemma SplitRootRelative(p: string, query: string, fragment: string, d: string)
    requires Clean(p) && p != "" && p[0] == '/' && !StartsWith(p, "//") && NoHash(query)
    ensures SplitUrl(p + GetUrlTail(query, fragment), d) == Url(d, "", p, query, fragment)
  {
    var t := GetUrlTail(query, fragment);
    var pa := p + (if query != "" then "?" + query else "");
    SlashNoSchemeNoNetloc(p, t, d);
    FragmentSplit(p, query, fragment);
    QuerySplit(p, query);
    SplitUrlOf(p + t, d, d, p + t, "", p + t, pa, fragment, p, query);
  }

  /** The fragment split of "/path?query#fragment" cuts at the '#' that
      `urlunsplit` wrote. */
  lemma FragmentSplit(p: string, query: string, fragment: string)
    requires Clean(p) && NoHash(query)
    ensures SplitOnce(p + GetUrlTail(query, fragment), '#') ==
              (p + (if query != "" then "?" + query else ""), fragment)
  {
    var pa := p + (if query != "" then "?" + query else "");
    assert NoHash(pa);
    if fragment != "" {
      assert p + GetUrlTail(query, fragment) == pa + ['#'] + fragment;
      SplitOnceAt(pa, fragment, '#');
    } else {
      assert p + GetUrlTail(query, fragment) == pa;
      SplitOnceAt(pa, "", '#');
    }
  }

  /** The query split of "/path?query" cuts at the '?' that `urlunsplit`
      wrote. */
  lemma QuerySplit(p: string, query: string)
    requires Clean(p)
    ensures SplitOnce(p + (if query != "" then "?" + query else ""), '?') == (p, query)
  {
    if query != "" {
      assert p + ("?" + query) == p + ['?'] + query;
      SplitOnceAt(p, query, '?');
    } else {
      assert p + "" == p;
      SplitOnceAt(p, "", '?');
    }
  }

  /** `urlsplit` from the results of its four steps. */
  lemma SplitUrlOf(s: string, d: string, scheme: string, afterScheme: string, netloc: string, afterNetloc: string,
                   beforeFragment: string, fragment: string, path: string, query: string)
    requires SplitScheme(s, d) == (scheme, afterScheme) && SplitNetloc(afterScheme) == (netloc, afterNetloc)
    requires SplitOnce(afterNetloc, '#') == (beforeFragment, fragment)
    requires SplitOnce(beforeFragment, '?') == (path, query)
    ensures SplitUrl(s, d) == Url(scheme, netloc, path, query, fragment)
  {
  }
  /** A reference "/x" followed by a query or fragment tail has neither a
      scheme nor a network location of its own. */
  lemma SlashNoSchemeNoNetloc(p: string, t: string, d: string)
    requires p != "" && p[0] == '/' && !StartsWith(p, "//") && IsQueryOrFragmentTail(t)
    ensures SplitScheme(p + t, d) == (d, p + t)
    ensures SplitNetloc(p + t) == ("", p + t)
  {
    var x := p + t;
    var i := IndexOfAny(x, {':'});
    assert !(0 < i < |x| && IsSchemeName(x[..i])) by {
      if 0 < i < |x| { assert x[..i][0] == '/'; }
    }
    assert !(|x| >= 2 && x[0] == '/' && x[1] == '/') by {
      if |p| >= 2 {
        assert x[1] == p[1];
      } else if |x| >= 2 {
        assert x[1] == t[0];
      }
    }
  }

  /** Splitting at the first `c` when `u` holds none: `u + c + v` gives
      `(u, v)`, and `u` alone gives `(u, "")`. */
  lemma SplitOnceAt(u: string, v: string, c: char)
    requires forall k :: 0 <= k < |u| ==> u[k] != c
    ensures SplitOnce(u + [c] + v, c) == (u, v)
    ensures SplitOnce(u, c) == (u, "")
  {
    var x := u + [c] + v;
    IndexOfAnyAbsent(u, {c});
    IndexOfAnyConcat(u, [c] + v, {c});
    assert x == u + ([c] + v);
    assert x[..|u|] == u && x[|u| + 1..] == v;
  }

  /** A root-relative href such as "/politica/nota-1" resolves against a
      site's base to base + href when the site's host is allowed. */
  lemma RootRelativeResolution(hosts: set<string>, sch: string, n: string, p: string)
    requires sch == "http" || sch == "https"
    requires n != "" && NoDelims(n)
    requires Clean(p) && |p| > 1 && p[0] == '/' && !StartsWith(p, "//") && !IsSpace(p[|p| - 1])
    ensures ResolveUrl(sch + "://" + n, hosts, p)
            == if IsAllowedHost(Lower(n), LowerAll(hosts)) then Some(sch + "://" + n + p) else None
  {
    TrimTrimmed(p);
    JoinRootRelative(sch, n, p);
    SplitCanonical(sch, n, p, "");
    WriteCanonical(sch, n, p);
  }

  // ---------------------------------------------------------------------
  // Protocol-relative and plain relative references

  /** "//host/path" has no scheme of its own (it takes the default) and
      splits into that host and path. */
  lemma SplitProtocolRelative(m: string, p: string, d: string)
    requires NoDelims(m) && Clean(p) && (p == "" || p[0] == '/')
    ensures SplitUrl("//" + m + p, d) == Url(d, m, p, "", "")
  {
    var x := "//" + m + p;
    var i := IndexOfAny(x, {':'});
    assert !(0 < i < |x| && IsSchemeName(x[..i])) by {
      if 0 < i < |x| { assert x[..i][0] == '/'; }
    }
    assert SplitScheme(x, d) == (d, x);
    SplitNetlocOf(m, p);
    SplitCleanRest(p);
  }

  /** `urljoin` of a "//host/path" reference and an http(s) base takes the
      base's scheme and the reference's host and path. */
  lemma JoinProtocolRelative(sch: string, n: string, bp: string, m: string, p: string)
    requires sch == "http" || sch == "https"
    requires n != "" && NoDelims(n) && Clean(bp) && (bp == "" || bp[0] == '/')
    requires m != "" && NoDelims(m) && Clean(p) && (p == "" || p[0] == '/')
    ensures UrlJoin(sch + "://" + n + bp, "//" + m + p) == sch + "://" + m + p
  {
    SplitCanonical(sch, n, bp, "");
    SplitProtocolRelative(m, p, sch);
    assert sch in UsesRelative && sch in UsesNetloc;
    WriteCanonical(sch, m, p);
  }

  /** A protocol-relative href such as "//cdn.example.com/nota-1" resolves
      to the base's scheme with the href's host and path, when that host
      is allowed, and is rejected otherwise, whatever the base's host. */
  lemma ProtocolRelativeResolution(hosts: set<string>, sch: string, n: string, m: string, p: string)
    requires sch == "http" || sch == "https"
    requires n != "" && NoDelims(n) && m != "" && NoDelims(m)
    requires Clean(p) && |p| > 1 && p[0] == '/' && !IsSpace(p[|p| - 1])
    ensures ResolveUrl(sch + "://" + n, hosts, "//" + m + p)
            == if IsAllowedHost(Lower(m), LowerAll(hosts)) then Some(sch + "://" + m + p) else None
  {
    var x := "//" + m + p;
    assert x[0] == '/' && x[|x| - 1] == p[|p| - 1];
    TrimTrimmed(x);
    assert sch + "://" + n == sch + "://" + n + "";
    JoinProtocolRelative(sch, n, "", m, p);
    SplitCanonical(sch, m, p, "");
    WriteCanonical(sch, m, p);
  }

  /** Index just past the last '/' of a path that starts with '/' is past
      that first '/' at least. */
  lemma {:induction false} LastSlashEndRooted(s: string)
    requires s != "" && s[0] == '/'
    ensures LastSlashEnd(s) >= 1
    decreases |s|
  {
    if s[|s| - 1] != '/' {
      var t := s[..|s| - 1];
      assert t[0] == '/';
      LastSlashEndRooted(t);
    }
  }

  /** The directory of an empty or rooted path is rooted. */
  lemma DirectoryRooted(bp: string)
    requires bp == "" || bp[0] == '/'
    ensures Directory(bp) != "" && Directory(bp)[0] == '/'
  {
    if bp != "" {
      LastSlashEndRooted(bp);
    }
  }

  /** A relative path with no ':' ("a/b") has no scheme and no host of its
      own: it splits into the path alone, with the default scheme. */
  lemma SplitRelativePath(q: string, d: string)
    requires Clean(q) && q != "" && q[0] != '/' && (forall k :: 0 <= k < |q| ==> q[k] != ':')
    ensures SplitUrl(q, d) == Url(d, "", q, "", "")
  {
    IndexOfAnyAbsent(q, {':'});
    assert SplitScheme(q, d) == (d, q);
    assert SplitNetloc(q) == ("", q);
    SplitCleanRest(q);
  }

  /** `urljoin` of a plain relative path and an http(s) base: the path is
      appended to the base path's directory ("/a/b" and "c" give "/a/c";
      an empty base path gives "/c"). */
  lemma JoinPlainRelative(sch: string, n: string, bp: string, q: string)
    requires sch == "http" || sch == "https"
    requires n != "" && NoDelims(n) && Clean(bp) && (bp == "" || bp[0] == '/')
    requires Clean(q) && q != "" && q[0] != '/' && (forall k :: 0 <= k < |q| ==> q[k] != ':')
    ensures UrlJoin(sch + "://" + n + bp, q) == sch + "://" + n + Directory(bp) + q
  {
    var dir := Directory(bp);
    SplitCanonical(sch, n, bp, "");
    SplitRelativePath(q, sch);
    assert sch in UsesRelative && sch in UsesNetloc;
    assert JoinParts(Url(sch, n, bp, "", ""), Url(sch, "", q, "", "")) == Url(sch, n, dir + q, "", "");
    DirectoryRooted(bp);
    CleanConcat(dir, q);
    WriteCanonical(sch, n, dir + q);
    ConcatAssoc(sch + "://" + n, dir, q);
  }

  /** A plain relative href such as "nota-1" resolves against a site's
      base "scheme://host" + path to the base path's directory followed by
      the href, when the site's host is allowed. */
  lemma PlainRelativeResolution(hosts: set<string>, sch: string, n: string, bp: string, q: string)
    requires sch == "http" || sch == "https"
    requires n != "" && NoDelims(n) && Clean(bp) && (bp == "" || bp[0] == '/')
    requires Clean(q) && q != "" && q[0] != '/' && (forall k :: 0 <= k < |q| ==> q[k] != ':')
    requires IsTrimmed(q)
    ensures ResolveUrl(sch + "://" + n + bp, hosts, q)
            == if IsAllowedHost(Lower(n), LowerAll(hosts)) then Some(sch + "://" + n + Directory(bp) + q) else None
  {
    var path := Directory(bp) + q;
    TrimTrimmed(q);
    JoinPlainRelative(sch, n, bp, q);
    DirectoryRooted(bp);
    CleanConcat(Directory(bp), q);
    ConcatAssoc(sch + "://" + n, Directory(bp), q);
    SplitCanonical(sch, n, path, "");
    WriteCanonical(sch, n, path);
  }

  /** Every resolved URL is canonical: it splits into an http(s) scheme, an
      allowed non-empty host, a path other than "" and "/", and empty query
      and fragment, and it is exactly "scheme://netloc" + path. */
  lemma ResolvedIsCanonical(base: string, hosts: set<string>, href: string)
    requires forall h :: h in hosts ==> h != ""
    requires ResolveUrl(base, hosts, href).Some?
    ensures var r := ResolveUrl(base, hosts, href).value;
            var u := SplitUrl(r, "");
            && (u.scheme == "http" || u.scheme == "https")
            && u.netloc != "" && IsAllowedHost(Lower(u.netloc), LowerAll(hosts))
            && u.path != "" && u.path != "/" && u.path[0] == '/'
            && u.query == "" && u.fragment == ""
            && r == u.scheme + "://" + u.netloc + u.path
  {
    var parsed := SplitUrl(UrlJoin(base, Trim(href)), "");
    var host := Lower(parsed.netloc);
    assert "" !in LowerAll(hosts);
    assert host != "";
    WriteCanonical(parsed.scheme, parsed.netloc, parsed.path);
    SplitCanonical(parsed.scheme, parsed.netloc, parsed.path, "");
  }

  /** Resolving is idempotent: a resolved URL resolves to itself (when it
      does not end in whitespace, which `strip()` would remove; that can
      only happen when whitespace stood before a query or fragment). */
  lemma ResolveIdempotent(base: string, hosts: set<string>, href: string)
    requires forall h :: h in hosts ==> h != ""
    requires ResolveUrl(base, hosts, href).Some?
    requires var r := ResolveUrl(base, hosts, href).value; !IsSpace(r[|r| - 1])
    ensures var r := ResolveUrl(base, hosts, href).value;
            ResolveUrl(base, hosts, r) == Some(r)
  {
    ResolvedIsCanonical(base, hosts, href);
    var r := ResolveUrl(base, hosts, href).value;
    CanonicalResolvesToItself(base, hosts, r, SplitUrl(r, ""));
  }

  /** A URL written "scheme://netloc/path" with an allowed host and a
      non-root path resolves to itself. */
  lemma CanonicalResolvesToItself(base: string, hosts: set<string>, r: string, u: Url)
    requires u.scheme == "http" || u.scheme == "https"
    requires u.netloc != "" && NoDelims(u.netloc) && IsAllowedHost(Lower(u.netloc), LowerAll(hosts))
    requires Clean(u.path) && u.path != "" && u.path != "/" && u.path[0] == '/'
    requires r == u.scheme + "://" + u.netloc + u.path && !IsSpace(r[|r| - 1])
    ensures ResolveUrl(base, hosts, r) == Some(r)
  {
    assert |u.path| > 1;
    assert r[|r| - 1] == u.path[|u.path| - 1];
    AbsoluteUrlResolution(base, hosts, u.scheme, u.netloc, u.path);
  }

  // ---------------------------------------------------------------------
  // Query and fragment do not influence the resolved URL

  /** The pieces `SplitUrl` is made of. */
  lemma SplitUrlParts(s: string, d: string)
    ensures SplitUrl(s, d).scheme == SplitScheme(s, d).0
    ensures SplitUrl(s, d).netloc == SplitNetloc(SplitScheme(s, d).1).0
    ensures SplitUrl(s, d).path == PathOf(SplitNetloc(SplitScheme(s, d).1).1)
  {
  }

  /** Appending a query or fragment tail moves no scheme boundary. */
  lemma SplitSchemeStable(p: string, q: string, d: string)
    requires Clean(p) && IsQueryOrFragmentTail(q)
    ensures SplitScheme(p + q, d).0 == SplitScheme(p, d).0
    ensures SplitScheme(p + q, d).1 == SplitScheme(p, d).1 + q
  {
    var x := p + q;
    var c := IndexOfAny(p, {':'});
    IndexOfAnyConcat(p, q, {':'});
    if c < |p| {
      assert x[..c] == p[..c];
      assert x[c + 1..] == p[c + 1..] + q;
    } else {
      var i := IndexOfAny(x, {':'});
      if i < |x| {
        assert i > |p| by { assert x[|p|] == q[0]; }
        assert x[..i][|p|] == q[0];
        assert !IsSchemeName(x[..i]);
      }
    }
  }

  /** Appending a query or fragment tail moves no netloc boundary. */
  lemma SplitNetlocStable(r: string, q: string)
    requires Clean(r) && IsQueryOrFragmentTail(q)
    ensures SplitNetloc(r + q).0 == SplitNetloc(r).0
    ensures SplitNetloc(r + q).1 == SplitNetloc(r).1 + q
  {
    var x := r + q;
    var stops := {'/', '?', '#'};
    if |r| >= 2 && r[0] == '/' && r[1] == '/' {
      var t := r[2..];
      assert x[0] == '/' && x[1] == '/';
      assert x[2..] == t + q;
      IndexOfAnyConcat(t, q, stops);
      var i := IndexOfAny(t, stops);
      if i < |t| {
        assert (t + q)[..i] == t[..i];
        assert (t + q)[i..] == t[i..] + q;
      } else {
        assert IndexOfAny(q, stops) == 0;
        assert (t + q)[..|t|] == t;
        assert (t + q)[|t|..] == q;
      }
    } else {
      if |r| >= 2 { assert x[0] == r[0] && x[1] == r[1]; }
      else if |r| == 1 { assert x[0] == r[0]; assert |x| >= 2 ==> x[1] == q[0]; }
      else { assert x == q; }
    }
  }

  /** Appending a query or fragment tail to a clean remainder leaves the path. */
  lemma PathOfStable(r: string, q: string)
    requires Clean(r) && IsQueryOrFragmentTail(q)
    ensures PathOf(r + q) == r
    ensures PathOf(r) == r
  {
    SplitCleanRest(r);
    var x := r + q;
    IndexOfAnyAbsent(r, {'#'});
    IndexOfAnyConcat(r, q, {'#'});
    var j := IndexOfAny(q, {'#'});
    var before := SplitOnce(x, '#').0;
    assert before == r + q[..j] by {
      if |r| + j < |x| {
        assert x[..|r| + j] == r + q[..j];
      } else {
        assert q[..j] == q;
      }
    }
    assert q[..j] == "" || q[..j][0] == '?' by {
      if q != "" && q[0] == '#' { assert j == 0; }
    }
    IndexOfAnyAbsent(r, {'?'});
    IndexOfAnyConcat(r, q[..j], {'?'});
    if q[..j] != "" {
      assert IndexOfAny(q[..j], {'?'}) == 0;
      assert (r + q[..j])[..|r|] == r;
    } else {
      assert r + q[..j] == r;
    }
  }

  /** Appending a query or fragment tail to a clean string changes neither
      the scheme, the netloc nor the path that `urlsplit` finds. */
  lemma SplitPrefixStable(p: string, q: string, d: string)
    requires Clean(p) && IsQueryOrFragmentTail(q)
    ensures SameTarget(SplitUrl(p + q, d), SplitUrl(p, d))
  {
    SplitUrlParts(p + q, d);
    SplitUrlParts(p, d);
    SplitSchemeStable(p, q, d);
    var rest := SplitScheme(p, d).1;
    SplitNetlocStable(rest, q);
    var rest2 := SplitNetloc(rest).1;
    PathOfStable(rest2, q);
  }

  /** Scheme, netloc and path written by `urlunsplit` contain no '?' or '#'
      when the parts do not. */
  lemma HeadClean(sc: string, n: string, p: string)
    requires Clean(sc) && Clean(n) && Clean(p)
    ensures Clean(GetUrlHead(sc, n, p))
  {
    var pp := if p != "" && p[0] != '/' then "/" + p else p;
    CleanConcat("/", p);
    CleanConcat("//", n);
    CleanConcat("//" + n, pp);
    var body := if n != "" || (sc != "" && sc in UsesNetloc && !StartsWith(p, "//")) then "//" + n + pp else p;
    CleanConcat(sc, ":");
    CleanConcat(sc + ":", body);
  }

  /** Writing out two URLs that agree on scheme, netloc and path, and splitting
      them again, gives results that agree on those parts. */
  lemma RewriteStable(u: Url, v: Url)
    requires SameTarget(u, v)
    requires Clean(u.scheme) && Clean(u.netloc) && Clean(u.path)
    ensures SameTarget(SplitUrl(GetUrl(u), ""), SplitUrl(GetUrl(v), ""))
  {
    var h := GetUrlHead(u.scheme, u.netloc, u.path);
    HeadClean(u.scheme, u.netloc, u.path);
    SplitPrefixStable(h, GetUrlTail(u.query, u.fragment), "");
    SplitPrefixStable(h, GetUrlTail(v.query, v.fragment), "");
  }

  /** `urljoin` followed by `urlsplit` is blind to an appended query or
      fragment as far as scheme, netloc and path go. */
  lemma JoinTargetStable(base: string, p: string, q: string)
    requires p != "" && Clean(p) && IsQueryOrFragmentTail(q)
    ensures SameTarget(SplitUrl(UrlJoin(base, p + q), ""), SplitUrl(UrlJoin(base, p), ""))
  {
    SplitPrefixStable(p, q, "");
    if base != "" {
      var b := SplitUrl(base, "");
      var r1 := SplitUrl(p + q, b.scheme);
      var r2 := SplitUrl(p, b.scheme);
      SplitPrefixStable(p, q, b.scheme);
      if r2.scheme == b.scheme && r2.scheme in UsesRelative {
        var u1 := JoinParts(b, r1);
        var u2 := JoinParts(b, r2);
        assert UrlJoin(base, p + q) == GetUrl(u1);
        assert UrlJoin(base, p) == GetUrl(u2);
        JoinPartsStable(b, r1, r2);
        assert Clean(b.netloc) && Clean(r1.netloc);
        assert Clean(u1.netloc) && Clean(u1.path);
        assert Clean(u1.scheme) by { assert Clean(""); }
        RewriteStable(u1, u2);
      } else {
        assert UrlJoin(base, p + q) == p + q;
        assert UrlJoin(base, p) == p;
      }
    }
  }

  lemma JoinPartsStable(b: Url, r1: Url, r2: Url)
    requires SameTarget(r1, r2)
    ensures SameTarget(JoinParts(b, r1), JoinParts(b, r2))
  {
  }

  /** Two hrefs that differ only in an appended query or fragment resolve to
      the same URL. */
  lemma QueryAndFragmentIgnored(base: string, hosts: set<string>, p: string, q: string)
    requires p != "" && p[0] != '#' && Clean(p) && IsTrimmed(p)
    requires IsQueryOrFragmentTail(q) && IsTrimmed(p + q)
    ensures ResolveUrl(base, hosts, p + q) == ResolveUrl(base, hosts, p)
  {
    TrimTrimmed(p);
    TrimTrimmed(p + q);
    assert (p + q)[0] == p[0];
    JoinTargetStable(base, p, q);
  }

  // ---------------------------------------------------------------------
  // Other schemes

  lemma LowerSchemeName(sc: string)
    requires IsSchemeName(sc)
    ensures IsSchemeName(Lower(sc)) && Lower(Lower(sc)) == Lower(sc)
  {
    LowerOfLowercase(Lower(sc));
  }

  /** `urlunsplit` writes a non-empty scheme first, so `urlsplit` reads
      it back. */
  lemma GetUrlSchemeRoundTrip(u: Url)
    requires IsSchemeName(u.scheme) && Lower(u.scheme) == u.scheme
    ensures SplitUrl(GetUrl(u), "").scheme == u.scheme
  {
    var h := GetUrlHead(u.scheme, u.netloc, u.path);
    var body := h[|u.scheme| + 1..];
    assert h == u.scheme + ":" + body;
    assert GetUrl(u) == u.scheme + ":" + (body + GetUrlTail(u.query, u.fragment));
    SplitSchemeOf(u.scheme, body + GetUrlTail(u.query, u.fragment), "");
  }

  /** A reference with an explicit scheme keeps that scheme through
      `urljoin`, whatever the base. */
  lemma JoinKeepsScheme(base: string, sc: string, tail: string)
    requires IsSchemeName(sc)
    ensures SplitUrl(UrlJoin(base, sc + ":" + tail), "").scheme == Lower(sc)
  {
    var t := sc + ":" + tail;
    SplitSchemeOf(sc, tail, "");
    LowerSchemeName(sc);
    if base != "" {
      var b := SplitUrl(base, "");
      SplitSchemeOf(sc, tail, b.scheme);
      var r := SplitUrl(t, b.scheme);
      if r.scheme == b.scheme && r.scheme in UsesRelative {
        GetUrlSchemeRoundTrip(JoinParts(b, r));
      }
    }
  }

  /** Any href with a scheme other than http or https (for example
      "mailto:") is rejected, whatever the base. */
  lemma OtherSchemesRejected(base: string, hosts: set<string>, sc: string, x: string)
    requires IsSchemeName(sc) && Lower(sc) != "http" && Lower(sc) != "https"
    ensures ResolveUrl(base, hosts, sc + ":" + x) == None
  {
    var t := Trim(sc + ":" + x);
    assert |t| > |sc| && t == sc + ":" + t[|sc| + 1..] by {
      assert IsTrimmed(sc + ":") by { assert (sc + ":")[0] == sc[0]; }
      TrimKeepsPrefix(sc + ":", x);
      assert t[..|sc| + 1] == sc + ":";
    }
    assert t != "" && t[0] != '#' by { assert t[0] == sc[0]; }
    assert SplitUrl(UrlJoin(base, t), "").scheme == Lower(sc) by {
      JoinKeepsScheme(base, sc, t[|sc| + 1..]);
    }
    SchemeRejected(base, hosts, sc + ":" + x);
  }

  /** An href whose joined URL has a scheme other than http or https is
      rejected. */
  lemma SchemeRejected(base: string, hosts: set<string>, href: string)
    requires Trim(href) != "" && Trim(href)[0] != '#'
    requires var sch := SplitUrl(UrlJoin(base, Trim(href)), "").scheme;
             sch != "http" && sch != "https"
    ensures ResolveUrl(base, hosts, href) == None
  {
  }
}

=== FILE: validation.dfy ===
/** Slug validation (`validation.py`): source slugs are non-empty, at most
    100 characters once lowercased, and made of lowercase ASCII letters,
    digits, `_` and `-`, starting with a letter or digit. */
module Validation {
  import opened Wrappers
  import opened Text

  const SlugMaxLength: nat := 100

  const EmptyMessage: string := "cannot be empty"
  const TooLongMessage: string := "cannot exceed 100 characters"
  const PatternMessage: string :=
    "must contain only lowercase letters, numbers, hyphens, and underscores, and must start with a letter or number"

  /** `ValidationError(field, message)`. */
  datatype ValidationError = ValidationError(field: string, message: string)

  /** The exception's text, `"{field}: {message}"`. */
  function ErrorText(e: ValidationError): (t: string)
    ensures StartsWith(t, e.field) && EndsWith(t, e.message)
    ensures |t| == |e.field| + 2 + |e.message|
  {
    assert (e.field + ": " + e.message)[..|e.field|] == e.field;
    e.field + ": " + e.message
  }

  /** The character class `[a-z0-9]`. */
  predicate SlugHead(c: char) {
    'a' <= c <= 'z' || '0' <= c <= '9'
  }

  /** The character class `[a-z0-9_-]`. */
  predicate SlugChar(c: char) {
    SlugHead(c) || c == '_' || c == '-'
  }

  /** A string the pattern `[a-z0-9][a-z0-9_-]*` matches in full. Such a
      string is already lower-case and holds no whitespace, a final
      newline included. */
  function IsSlug(s: string): (b: bool)
    ensures b ==> Lower(s) == s
    ensures b ==> forall i :: 0 <= i < |s| ==> !IsSpace(s[i])
  {
    |s| >= 1 && SlugHead(s[0]) && forall i :: 1 <= i < |s| ==> SlugChar(s[i])
  }

  /** `SLUG_PATTERN.match(s)` as Python evaluates it: `$` also matches just
      before a final newline, so a slug followed by one `\n` matches. */
  predicate MatchesAsWritten(s: string) {
    IsSlug(s) || (|s| >= 2 && s[|s| - 1] == '\n' && IsSlug(s[..|s| - 1]))
  }

  /** `SLUG_PATTERN.match(s)` as a left-to-right scan: the first character
      from `[a-z0-9]`, then `[a-z0-9_-]*`, and at the first character outside
      that class, `$` still matches when it is a newline ending the string. */
  method MatchSlug(s: string) returns (ok: bool)
    ensures ok <==> MatchesAsWritten(s)
  {
    if |s| == 0 || !SlugHead(s[0]) {
      assert |s| >= 2 ==> s[..|s| - 1][0] == s[0];
      return false;
    }
    var i := 1;
    while i < |s|
      invariant 1 <= i <= |s|
      invariant forall j :: 1 <= j < i ==> SlugChar(s[j])
    {
      if !SlugChar(s[i]) {
        assert !IsSlug(s);
        if i < |s| - 1 {
          assert s[..|s| - 1][i] == s[i];
        }
        return i == |s| - 1 && s[i] == '\n';
      }
      i := i + 1;
    }
    return true;
  }

  /** `validate_slug` as written, with the pattern's trailing-newline
      behaviour: emptiness first, then the lowercased length, then the
      pattern; the lowercased value on success. */
  function ValidateSlugAsWritten(value: string, fieldName: string): (r: Result<string, ValidationError>)
    ensures r.Ok? ==> r.value == Lower(value)
    ensures r.Err? ==> r.error.field == fieldName
  {
    if value == "" then Err(ValidationError(fieldName, EmptyMessage))
    else
      var normalized := Lower(value);
      if |normalized| > SlugMaxLength then Err(ValidationError(fieldName, TooLongMessage))
      else if !MatchesAsWritten(normalized) then Err(ValidationError(fieldName, PatternMessage))
      else Ok(normalized)
  }

  /** `validate_slug` with the pattern anchored at the true end of the
      string. */
  function ValidateSlug(value: string, fieldName: string): (r: Result<string, ValidationError>)
    ensures r.Ok? ==> r.value == Lower(value) && IsSlug(r.value) && 1 <= |r.value| <= SlugMaxLength
    ensures r.Err? ==> r.error.field == fieldName
  {
    if value == "" then Err(ValidationError(fieldName, EmptyMessage))
    else
      var normalized := Lower(value);
      if |normalized| > SlugMaxLength then Err(ValidationError(fieldName, TooLongMessage))
      else if !IsSlug(normalized) then Err(ValidationError(fieldName, PatternMessage))
      else Ok(normalized)
  }

  /** `is_valid_slug` as written: whether `validate_slug`, trailing-newline
      behaviour included, returns rather than raises. */
  function IsValidSlugAsWritten(value: string): (b: bool)
    ensures b <==> 1 <= |Lower(value)| <= SlugMaxLength && MatchesAsWritten(Lower(value))
  {
    ValidateSlugAsWritten(value, "value").Ok?
  }

  /** `is_valid_slug` over the corrected `validate_slug`: non-empty, at
      most 100 characters and a slug once lowercased. */
  function IsValidSlug(value: string): (b: bool)
    ensures b <==> 1 <= |Lower(value)| <= SlugMaxLength && IsSlug(Lower(value))
  {
    ValidateSlug(value, "value").Ok?
  }

  /** Which error `validate_slug` raises, in the order the checks run:
      an empty value, then an over-long one, then a pattern mismatch. */
  lemma ValidateSlugErrors(value: string, fieldName: string)
    ensures ValidateSlug(value, fieldName) == Err(ValidationError(fieldName, EmptyMessage)) <==> value == ""
    ensures ValidateSlug(value, fieldName) == Err(ValidationError(fieldName, TooLongMessage)) <==>
              |value| > SlugMaxLength
    ensures ValidateSlug(value, fieldName) == Err(ValidationError(fieldName, PatternMessage)) <==>
              value != "" && |value| <= SlugMaxLength && !IsSlug(Lower(value))
  {
  }

  /** Accepted exactly when non-empty, short enough and a slug once
      lowercased; the field name plays no part in the verdict. */
  lemma ValidateSlugAccepts(value: string, fieldName: string)
    ensures ValidateSlug(value, fieldName).Ok? <==> 1 <= |value| <= SlugMaxLength && IsSlug(Lower(value))
    ensures ValidateSlug(value, fieldName).Ok? <==> IsValidSlug(value)
  {
  }

  /** A validated slug validates again to itself. */
  lemma ValidateSlugIdempotent(value: string, fieldName: string)
    requires ValidateSlug(value, fieldName).Ok?
    ensures var r := ValidateSlug(value, fieldName).value;
            ValidateSlug(r, fieldName) == Ok(r)
  {
  }

  /** Case does not matter: a value and its lowercase form get the same
      result. */
  lemma ValidateSlugIgnoresCase(value: string, fieldName: string)
    ensures ValidateSlug(Lower(value), fieldName) == ValidateSlug(value, fieldName)
  {
    LowerIdempotent(value);
  }

  /** The length bound is inclusive: 100 letters pass, 101 do not. */
  lemma LengthBoundary(fieldName: string)
    ensures ValidateSlug(seq(100, _ => 'a'), fieldName) == Ok(seq(100, _ => 'a'))
    ensures ValidateSlug(seq(101, _ => 'a'), fieldName) == Err(ValidationError(fieldName, TooLongMessage))
  {
    var s := seq(100, _ => 'a');
    assert IsSlug(s);
  }

  /** The two readings of the pattern part only on a value whose lowercase
      form is a slug followed by one newline. */
  lemma AsWrittenDiffers(value: string, fieldName: string)
    ensures ValidateSlugAsWritten(value, fieldName) != ValidateSlug(value, fieldName) <==>
              |value| <= SlugMaxLength && |value| >= 2 && value[|value| - 1] == '\n' &&
              IsSlug(Lower(value)[..|value| - 1])
  {
    var n := Lower(value);
    if |value| >= 1 && value[|value| - 1] == '\n' {
      assert n[|n| - 1] == '\n';
      assert !IsSlug(n) by {
        assert !SlugChar(n[|n| - 1]);
      }
    }
  }

  /** As written, a slug followed by a newline is accepted and returned
      with the newline; the corrected check rejects it. */
  lemma TrailingNewlineAccepted(s: string, fieldName: string)
    requires IsSlug(s) && |s| < SlugMaxLength
    ensures ValidateSlugAsWritten(s + "\n", fieldName) == Ok(s + "\n")
    ensures ValidateSlug(s + "\n", fieldName) == Err(ValidationError(fieldName, PatternMessage))
  {
    var v := s + "\n";
    assert Lower(v) == v;
    assert v[..|v| - 1] == s;
    assert !SlugChar(v[|v| - 1]);
  }

  /** A concrete instance: `"infobae\n"`. */
  lemma InfobaeWithNewline()
    ensures ValidateSlugAsWritten("infobae\n", "source") == Ok("infobae\n")
    ensures ValidateSlug("infobae\n", "source").Err?
    ensures IsValidSlugAsWritten("infobae\n") && !IsValidSlug("infobae\n")
  {
    assert "infobae\n" == "infobae" + "\n";
    assert IsSlug("infobae");
    TrailingNewlineAccepted("infobae", "source");
  }
}

=== FILE: wrappers.dfy ===
/** Optional values and results with an error side, used in place of the
    source's `None` returns and raised exceptions. */
module Wrappers {

  datatype Option<+T> = None | Some(value: T) {
    /** The value, or `default` when there is none. */
    function GetOr(default: T): T {
      match this
      case Some(v) => v
      case None => default
    }
  }

  datatype Result<+T, +E> = Ok(value: T) | Err(error: E)
}
